=== FILE: README.md ===
# Trading book: the indicator and law-overlay pipeline, in Dafny

This project models the pure core of the trading-book web application. The
application teaches a book of trading "laws" and draws them on a price chart.
The core is the pipeline that turns a series of OHLC bars into chart
geometry:

- **Bar normalisation** (`normalizeBars`). Invalid records are dropped and
  millisecond times become seconds. The bars are then sorted stably, a later
  record wins over an earlier one with the same time, and fewer than two bars
  is an error.
- **The indicator model** (`model.js`).
  - Fixed-size unit segmentation.
  - Fibonacci levels with a style per ratio.
  - Six highlight flags that compare the last two units.
  - The baseline plan shared by every law.
  - Each law's own geometry: a priority chain picks one target ratio.
  - The per-law draw plan with its shape counts, and the merged plan.
- **The law-to-feature classifier** (`lawMapping.js`). It has three tiers:
  recipe, then keyword, then category.
- **Recipe values** (`parseRecipe.js`): `ratio(x)` expressions resolve to a
  price inside a range.
- **The renderability gates**: `validation.js`, plus the pass test and exit
  code of the validator script.
- **The overlay registry** and the three overlay adapters. Each adapter is a
  function that returns the ordered drawing calls it makes.
- **Smaller pure pieces used alongside the pipeline**:
  - yearly resampling, in two variants;
  - the market-data provider choice;
  - the cache TTL table and its freshness test;
  - the storage helpers over an abstract key-value map;
  - the CSV helpers of the chart component;
  - Arabic-aware search;
  - the laws page's filter, grouping, colours and labels;
  - the progress percentage;
  - three UI state machines: learning navigation, the training quiz, and the
    applied-law/tutorial context.

Everything is immutable datatypes and pure functions. Prices are `real`. A
JavaScript number that may be NaN or infinite is `Prelude.Num`.

The conversions the code takes from the platform are parameters of the
functions that use them:

- `Number()` on text, `String()`, `Date.parse`, and the UTC calendar
  (`getUTCFullYear` and `Date.UTC`);
- `JSON.parse` and `JSON.stringify`;
- `toLowerCase`, and the Unicode letter and digit classes of `normalizeKey`.

Calendar orderings that a property needs are stated as requirements on those
parameters.

`Array.prototype.sort` with a numeric comparator is stable since ES2019. It is
modelled once, in `StableSort`, as an insertion sort keyed by a real-valued
key.

The law catalog (`src/data/laws.js`) and the glossary terms are not part of
this model. Every operation takes the laws, or the terms, as a parameter.

Module layout, one file per module:

- `ohlcv`, `units`, `levels`, `highlights`, `indicator`, `law_plan`: the
  pipeline.
- `laws`: the law records.
- `law_mapping`, `recipe_values`, `validation`: the classifier, recipe values
  and gates.
- `overlay_registry`, `overlays`: the registry and the adapters.
- `yearly`, `market_service`, `cache`, `storage`: market data and storage.
- `chart_csv`: the chart component's CSV helpers.
- `search`, `laws_page`, `learn_page`, `training`, `tutorial`, `progress`: the
  pages.
- `prelude`, `text`, `stable_sort`: shared helpers.

Behaviour of the code worth knowing before reading the model:

- `buildMergedRenderPlan` keeps one plan per law, repeats included: nothing
  is de-duplicated. The overlay registry keeps every shape it is given.
- In `lawMapping.js` the category mode (`ATTEMPT_C_CATEGORY_HEURISTIC`) does
  not mention UNKNOWN. A law classified by category is therefore drawn teal,
  at the ratio of its one category feature. Only a law missing from the
  mapping is unknown, and only it is drawn violet at ratio 0.5.
- The validator script checks only bands, lines, and labels plus markers; it
  does not ask for a law-specific shape or a reason. It builds every plan
  with no mapping, so every law there takes the missing-mapping entry.
- In `model.js`, the previous unit's range is floored at 1e-9
  (`Math.max(..., 1e-9)`). It is not guarded by a test.
- `PrevBreakHL` is `breakHigh || breakLow`.
- The higher-timeframe unit is the last unit when there are exactly two units
  (`units.length > 2`).
- The recipe's `inputs` play no part in a draw plan.
- `aggregateYearly` stamps a year's candle with the time of its earliest bar.
  `resampleToYearly` stamps it with the start of the year.

## Model

Paths are relative to the application's sources (`trading-book-fixed/...`).

| member | source | states |
|---|---|---|
| Ohlcv.CoerceTimeMeaning | trading-book-fixed/src/lib/ohlcv/normalizeBars.js:8-11 | a finite time above 1e12 is read as milliseconds and becomes the whole second it falls in; every other time is kept as it is |
| Ohlcv.Coerce | trading-book-fixed/src/lib/ohlcv/normalizeBars.js:8-22 | a record yields a bar exactly when its coerced time and all four prices are finite, and the bar carries the record's prices |
| Ohlcv.Collect | trading-book-fixed/src/lib/ohlcv/normalizeBars.js:6-23 | the first loop keeps no more bars than records; every kept bar is some record's coerced bar, and every valid record's bar is kept |
| Ohlcv.Dedup | trading-book-fixed/src/lib/ohlcv/normalizeBars.js:27-35 | de-duplication keeps the last bar and keeps only input bars; over a time-sorted list its result is strictly increasing in time |
| Ohlcv.DedupKeepsLast | trading-book-fixed/src/lib/ohlcv/normalizeBars.js:27-35 | over a time-sorted list, each bar kept is the last bar of the input with that time |
| Ohlcv.DedupKeepsEveryTime | trading-book-fixed/src/lib/ohlcv/normalizeBars.js:27-35 | over a time-sorted list, every input time survives de-duplication |
| Ohlcv.Normalize | trading-book-fixed/src/lib/ohlcv/normalizeBars.js:1-41 | non-array input gives no bars and 'Bars not array'; success happens exactly when at least two bars survive, and then the bars are strictly time-increasing; otherwise no bars and 'Not enough valid bars'; never more bars than records; each bar is a valid record's coerced bar |
| Ohlcv.NormalizeLastWriteWins | trading-book-fixed/src/lib/ohlcv/normalizeBars.js:25-35 | among valid records sharing a time, the output keeps the one latest in input order |
| Ohlcv.NormalizeKeepsEveryTime | trading-book-fixed/src/lib/ohlcv/normalizeBars.js:6-35 | on success, every valid record's time is the time of some output bar |
| Ohlcv.NormalizeEmpty | trading-book-fixed/src/lib/ohlcv/normalizeBars.js:37-39 | an empty array is the not-enough-bars error, not an empty success |
| StableSort.Sort | trading-book-fixed/src/lib/ohlcv/normalizeBars.js:25 | the sorted copy is ordered by key and is a permutation of the input |
| StableSort.SortStable | trading-book-fixed/src/lib/ohlcv/normalizeBars.js:25 | the elements sharing any one key keep their input order |
| StableSort.SortSorted | trading-book-fixed/src/lib/marketData/resample.js:25 | an already sorted list is left as it is |
| StableSort.SortStrict | trading-book-fixed/src/services/marketData/index.js:20-21 | sorting a list whose keys are pairwise distinct gives strictly increasing keys |
| StableSort.SortMap | trading-book-fixed/src/lib/marketData/resample.js:16-25 | sorting commutes with a map that keeps the key order between the list's elements |
| Units.Aggregate | trading-book-fixed/src/lib/indicator/model.js:27-38 | a unit takes its id, its start time and open from the chunk's first bar, its end time and close from the last, and its range is high minus low |
| Units.AggregateSpansChunk | trading-book-fixed/src/lib/indicator/model.js:27-28 | a unit's high is the highest high of its chunk and its low the lowest low, both attained; its range is not negative once one bar has its low at or below its high |
| Units.ChunksIsCeiling | trading-book-fixed/src/lib/indicator/model.js:24 | the loop runs ceil(n / size) times: no chunk for no bars, and the least count of chunks that covers n bars |
| Units.ChunkList | trading-book-fixed/src/lib/indicator/model.js:24-25 | there are that many chunks, each non-empty and of at most `size` bars |
| Units.ChunkListCovers | trading-book-fixed/src/lib/indicator/model.js:24-25 | the chunks, concatenated, are the bars: each bar once, in order |
| Units.ChunkListSlice | trading-book-fixed/src/lib/indicator/model.js:25 | chunk k is `bars.slice(k * size, (k + 1) * size)` |
| Units.Segment | trading-book-fixed/src/lib/indicator/model.js:21-41 | at most ceil(n / size) units, numbered U1, U2, ... in order, each with range high minus low |
| Units.SegmentAllFinite | trading-book-fixed/src/lib/indicator/model.js:21-41 | when every bar has a finite high and low there is one unit per chunk, and unit k aggregates chunk k |
| Units.SegmentNoneFinite | trading-book-fixed/src/lib/indicator/model.js:25-26 | bars without a finite high or low never form a unit |
| Units.UnitsOfSkip | trading-book-fixed/src/lib/indicator/model.js:26 | a chunk with no bar of finite high and low is skipped without using up an id |
| Units.SegmentUnits | trading-book-fixed/src/lib/indicator/model.js:21-24 | no bars give no units; with bars, the loop returns exactly when the size is positive, and then gives the segmentation of the bars |
| Units.SegmentNeverEnds | trading-book-fixed/src/lib/indicator/model.js:24 | with bars and a size of 0 or less, the loop index after any number of steps is still below the number of bars, so the loop never exits |
| Units.SegmentEnds | trading-book-fixed/src/lib/indicator/model.js:24 | with a positive size the loop exits after ceil(n / size) steps, and not one step earlier |
| Units.UnitsOfPartial | trading-book-fixed/src/lib/indicator/model.js:25-40 | a chunk with some bars of finite high and low gives one unit of exactly those bars, under the next id, and the next chunks continue from the following id |
| Levels.StyleForRatio | trading-book-fixed/src/lib/indicator/model.js:8-12 | width 2 goes with solid or dashed lines, width 1 with dotted lines |
| Levels.DefaultStyles | trading-book-fixed/src/lib/indicator/model.js:6-12 | the default levels get solid lines at 0 and 1, dashed lines at 0.236 and 0.764, and dotted lines elsewhere |
| Levels.FibLevels | trading-book-fixed/src/lib/indicator/model.js:43-47 | no level for an empty or inverted range; otherwise one level per ratio, in order, styled by its ratio, at that fraction of the range above the low |
| Levels.FibLevelsOrdered | trading-book-fixed/src/lib/indicator/model.js:43-47 | a larger ratio is exactly a higher price |
| Levels.FibLevelsWithinRange | trading-book-fixed/src/lib/indicator/model.js:43-47 | ratio 0 is the low and ratio 1 the high; a level lies in the range exactly when its ratio lies in [0, 1] |
| Highlights.PrevRange | trading-book-fixed/src/lib/indicator/model.js:51 | the previous range used as a divisor is always positive |
| Highlights.CurrRange | trading-book-fixed/src/lib/indicator/model.js:52 | the current range is never negative |
| Highlights.ComputeHighlights | trading-book-fixed/src/lib/indicator/model.js:49-64 | no flags exactly when a unit is missing; otherwise the six flags in fixed key order |
| Highlights.FlagsRelations | trading-book-fixed/src/lib/indicator/model.js:56-63 | exactly one of PrevBreakHL and InsideHL holds; InsideShortHL implies InsideHL; BothSidesBreak implies PrevBreakHL; a short inside unit and a wide engulfing one exclude each other |
| Highlights.InsideIsContainment | trading-book-fixed/src/lib/indicator/model.js:56-58 | for a unit with low not above high, InsideHL holds exactly when every price it spans is spanned by the previous unit |
| Highlights.BreakHighExample | trading-book-fixed/src/lib/indicator/model.js:56-63 | a 90..110 unit followed by a 95..115 unit sets PrevBreakHL and clears InsideHL and BothSidesBreak |
| Indicator.UnitSizeOf | trading-book-fixed/src/lib/indicator/model.js:67 | a nonzero unitSize option is kept as given, negative included; 0 or no option gives 48; the size is never 0, and positive exactly when the option is not negative |
| Indicator.ReturnsExactly | trading-book-fixed/src/lib/indicator/model.js:21-24 | the model is built, rather than looping forever, exactly when there are no bars or the unitSize option is not negative |
| Indicator.UnitsFor | trading-book-fixed/src/lib/indicator/model.js:67 | no bars give no units; otherwise the size is positive and the units are the segmentation of the bars at that size |
| Indicator.DefaultSizeReturns | trading-book-fixed/src/lib/indicator/model.js:67 | without a unitSize option the model is always built, with units of 48 bars |
| Indicator.BuildModel | trading-book-fixed/src/lib/indicator/model.js:66-75 | the model holds the segmented units, the last and previous units when they exist, their highlights, and the levels of the last and higher-timeframe units |
| Indicator.HtfUnitChoice | trading-book-fixed/src/lib/indicator/model.js:72-73 | the higher-timeframe unit is the previous unit from three units on, the last unit with exactly two, and the only unit with one |
| Indicator.ModelWithoutUnits | trading-book-fixed/src/lib/indicator/model.js:66-75 | without a unit the model has no levels, no highlights and no higher-timeframe unit |
| Indicator.BaselineOf | trading-book-fixed/src/lib/indicator/model.js:77-98 | no unit gives an empty plan; otherwise two range lines plus one line per level, one band, one marker, one label and one arrow per enabled highlight, and one separator per unit |
| Indicator.BuildBaselinePlan | trading-book-fixed/src/lib/indicator/model.js:77-98 | the plan's model holds the bars' units; without a unit all six lists are empty; with one, the fib levels are those of the last unit, there are 2 plus the two fib lists' lines, one golden-zone band and one BASELINE marker at the last unit's end and close, one label and one arrow per enabled highlight, one separator per unit |
| Indicator.BaselineWithUnits | trading-book-fixed/src/lib/indicator/model.js:79-97 | with a last unit, the plan of a model meets every clause of the baseline layout above |
| Indicator.BaselineZone | trading-book-fixed/src/lib/indicator/model.js:91-94 | the band spans 0.236 to 0.382 of the last unit's range above its low, and the marker sits at its end time and close |
| Indicator.BaselineBandAndMarker | trading-book-fixed/src/lib/indicator/model.js:91-94 | the golden-zone band runs from 23.6% to 38.2% of the last unit's range above its low, bottom to top exactly when the range is not negative; the marker is on the last unit's end time and close |
| Indicator.BaselineLinesLayout | trading-book-fixed/src/lib/indicator/model.js:85-90 | the lines, in order, are the high and low of the last unit, one per level at its price, and one dotted line per higher-timeframe level; a level line is orange exactly at ratio +-0.236; none is law-specific |
| Indicator.BaselineLabelsAndArrows | trading-book-fixed/src/lib/indicator/model.js:95-96 | the labels name exactly the enabled highlights in key order, and the arrows alternate down, up, down, ... along them |
| LawPlan.LawNumber | trading-book-fixed/src/lib/indicator/model.js:14-17 | a law's number is always positive |
| LawPlan.LawNumberReadsSecondPart | trading-book-fixed/src/lib/indicator/model.js:14-17 | an id `a_b_...` is numbered by `Number(b)` when that is a positive finite number, and 1 otherwise |
| LawPlan.LawNumberWithoutUnderscore | trading-book-fixed/src/lib/indicator/model.js:14-17 | an id without an underscore is numbered 1 |
| LawPlan.IsOddOnIntegers | trading-book-fixed/src/lib/indicator/model.js:118-119 | JavaScript's `n % 2` is truthy on a positive whole number exactly when the number is odd |
| LawPlan.TargetRatio | trading-book-fixed/src/lib/indicator/model.js:113-124 | the target ratio lies in [0, 1] |
| LawPlan.TargetRatioIsFirstPresent | trading-book-fixed/src/lib/indicator/model.js:113-124 | the target ratio is the ratio of the first feature present in the order Weak123, InsideHL, PrevBreakHL, fibGrid, unitHL, and 0.5 when none is present |
| LawPlan.GeometryAt | trading-book-fixed/src/lib/indicator/model.js:131-166 | a law's geometry has exactly one line, one band, one marker and one label |
| LawPlan.GeometryPlacement | trading-book-fixed/src/lib/indicator/model.js:126-166 | the line is at the target ratio of the range, inside the unit; the band is centred on it with a half-width of 5% of the range for an inside unit and 2.5% otherwise; the marker sits on the line at the unit's end; all shapes are law-specific and share one colour |
| LawPlan.LawGeometry | trading-book-fixed/src/lib/indicator/model.js:100-167 | there is no geometry exactly when there is no last unit or its range is not positive; otherwise it is the geometry at the last unit |
| LawPlan.ModeColorOfEntry | trading-book-fixed/src/lib/indicator/model.js:128-129 | the geometry is violet exactly when the mode, or its fallback for an empty mode, mentions UNKNOWN, and teal otherwise |
| LawPlan.BuildLawDrawPlan | trading-book-fixed/src/lib/indicator/model.js:169-198 | the plan carries the law's id; each count is the baseline's shapes plus the law's own plus the recipe overlays of that type; the mode is the entry's; unknownMapping holds exactly when the mode contains UNKNOWN; the attempt number is never 0; the features are the entry's, or `baseline` alone when the entry has none |
| LawPlan.DrawPlanRenderable | trading-book-fixed/src/lib/indicator/model.js:176-196 | once the bars form a unit, every law's plan has at least two lines, one band and one marker; without a unit there are no baseline shapes, no shapes of the law's own and no labels |
| LawPlan.LawSpecificAllOrNothing | trading-book-fixed/src/lib/indicator/model.js:100-111 | the law's own count is 4 when the last unit has a positive range and 0 otherwise |
| LawPlan.MissingMappingIsUnknown | trading-book-fixed/src/lib/indicator/model.js:171 | a law missing from the mapping is drawn as an unknown mapping, on attempt 5, with the baseline feature only |
| LawPlan.ListedMappingAttempt | trading-book-fixed/src/lib/indicator/model.js:184 | a listed entry's attempt number is kept unless it is 0 |
| LawPlan.RecipeInputsIgnored | trading-book-fixed/src/lib/indicator/model.js:172-180 | changing a recipe's `inputs` does not change the plan |
| LawPlan.BuildMergedPlan | trading-book-fixed/src/lib/indicator/model.js:200-207 | one entry per law, in the laws' order, each sharing the one baseline and equal to the law's own plan |
| LawPlan.MergedKeepsDuplicates | trading-book-fixed/src/lib/indicator/model.js:200-207 | two equal laws get two equal entries: nothing is de-duplicated |
| LawMapping.MatchedFeatures | trading-book-fixed/src/lib/lawEngine/lawMapping.js:10-17 | a feature is matched exactly when some rule with that feature has a key that is a substring of the text |
| LawMapping.MatchedFeaturesNoDup | trading-book-fixed/src/lib/lawEngine/lawMapping.js:3-17 | rules with distinct features match each feature at most once |
| LawMapping.Distinct | trading-book-fixed/src/lib/lawEngine/lawMapping.js:23-38 | `[...new Set(xs)]` has no repeats and holds exactly the elements of xs |
| LawMapping.DistinctOfNoDup | trading-book-fixed/src/lib/lawEngine/lawMapping.js:23-38 | a list without repeats is its own set |
| LawMapping.EntryOf | trading-book-fixed/src/lib/lawEngine/lawMapping.js:15-60 | features start with 'baseline' and end with the law's own tag, the reason is non-empty, and the mode is one of the three attempts |
| LawMapping.MatchedInRuleOrder | trading-book-fixed/src/lib/lawEngine/lawMapping.js:17-38 | the matched features are already distinct, so the set step keeps them in rule order |
| LawMapping.EntryTiers | trading-book-fixed/src/lib/lawEngine/lawMapping.js:19-60 | a recipe with overlays gives attempt 1 whatever the keywords say; otherwise any keyword match gives attempt 2; otherwise the category heuristic gives attempt 3 with exactly one category feature |
| LawMapping.CategoryTable | trading-book-fixed/src/lib/lawEngine/lawMapping.js:49-53 | the three named categories map to fibGrid, BothSidesBreak and InsideShortHL, and every other category to unitHL |
| LawMapping.KnownModes | trading-book-fixed/src/lib/lawEngine/lawMapping.js:21-51 | none of the three modes contains UNKNOWN |
| LawMapping.ModeNeverUnknown | trading-book-fixed/src/lib/lawEngine/lawMapping.js:15-60 | no entry the classifier builds has a mode containing UNKNOWN |
| LawMapping.IdsOfMeaning | trading-book-fixed/src/lib/lawEngine/lawMapping.js:14 | an id is among the law ids exactly when some law has it |
| LawMapping.BuildLawIndicatorMap | trading-book-fixed/src/lib/lawEngine/lawMapping.js:12-63 | the map's keys are exactly the laws' ids |
| LawMapping.WrittenByLast | trading-book-fixed/src/lib/lawEngine/lawMapping.js:14-62 | whatever each law writes, the value under an id is the one written by the last law with that id |
| LawMapping.MapEntryIsLastLaw | trading-book-fixed/src/lib/lawEngine/lawMapping.js:14-62 | the entry under an id is that of the last law with the id: later laws overwrite earlier ones |
| LawMapping.MapNeverUnknown | trading-book-fixed/src/lib/lawEngine/lawMapping.js:12-63 | every mapped entry is some law's classifier entry, and none is unknown |
| LawMapping.MappedPlansAreKnown | trading-book-fixed/src/lib/indicator/model.js:169-187 | drawn with the classifier's own map, no law is drawn as an unknown mapping |
| RecipeValues.FractionValue | trading-book-fixed/src/data/parseRecipe.js:11-13 | the digits after a decimal point are worth a fraction in [0, 1] |
| RecipeValues.MatchRatio | trading-book-fixed/src/data/parseRecipe.js:11 | a captured token is an unsigned decimal |
| RecipeValues.Resolve | trading-book-fixed/src/data/parseRecipe.js:1-23 | numbers and non-strings come back unchanged; a string comes back as a number only through a match with a finite range, and otherwise trimmed; a string that does not trim to a match always comes back trimmed |
| RecipeValues.MatchRatioShape | trading-book-fixed/src/data/parseRecipe.js:10 | whatever matches is the word `ratio` in some case, a parenthesis, spaces, the decimal token, spaces and a parenthesis, and nothing else |
| RecipeValues.ResolveIdempotent | trading-book-fixed/src/data/parseRecipe.js:1-23 | resolving twice is resolving once |
| RecipeValues.DecimalIsTrimmed | trading-book-fixed/src/data/parseRecipe.js:11 | a decimal token is non-empty and has no white space at its ends |
| RecipeValues.ResolveRatio | trading-book-fixed/src/data/parseRecipe.js:10-19 | `ratio` in any case, a parenthesis, optional spaces, a decimal, optional spaces and a parenthesis, with spaces around the whole, resolves to the level at that fraction of a finite range |
| RecipeValues.ResolveMatched | trading-book-fixed/src/data/parseRecipe.js:10-19 | a string that trims to a match resolves to low + (high - low) * x |
| RecipeValues.RatioZero | trading-book-fixed/src/data/parseRecipe.js:13-19 | `ratio(0)` is the low of the range |
| RecipeValues.RatioOne | trading-book-fixed/src/data/parseRecipe.js:13-19 | `ratio(1)` is the high of the range |
| RecipeValues.RatioHalf | trading-book-fixed/src/data/parseRecipe.js:11-19 | `ratio(.5)`, without a digit before the dot, is accepted and gives the midpoint |
| RecipeValues.RatioRejectsSign | trading-book-fixed/src/data/parseRecipe.js:11-22 | a sign is not part of the grammar: `ratio(-1)` comes back as written |
| RecipeValues.RatioRejectsTrailingDot | trading-book-fixed/src/data/parseRecipe.js:11-22 | a dot needs a digit after it: `ratio(1.)` comes back as written |
| RecipeValues.RatioNeedsRange | trading-book-fixed/src/data/parseRecipe.js:16-22 | without a finite low, any string comes back trimmed |
| Validation.ValidateLawRenderable | trading-book-fixed/src/lib/lawEngine/validation.js:1-21 | hasRecipe holds exactly when the law has a recipe; hasOutput exactly when something is drawn or the fallback shows; the status is pass exactly with two lines, a band, a marker and a law-specific shape |
| Validation.PassImpliesOutput | trading-book-fixed/src/lib/lawEngine/validation.js:10-19 | a passing law has output, a non-marker visual and a shape of its own |
| Validation.NothingRenderedFails | trading-book-fixed/src/lib/lawEngine/validation.js:3-19 | with every count at its default, the law fails and has no output |
| Validation.DrawPlanPassesGate | trading-book-fixed/src/lib/lawEngine/validation.js:11-19 | every law's draw plan passes once the last unit has a positive range, and none passes without a unit |
| Validation.ScriptPlans | trading-book-fixed/scripts/validate-laws-renderable.mjs:16-18 | one plan per law, in order, over the finite rows |
| Validation.ExitCode | trading-book-fixed/scripts/validate-laws-renderable.mjs:31-34 | the exit code is 0 or 1 |
| Validation.ExitCodeMeaning | trading-book-fixed/scripts/validate-laws-renderable.mjs:19-34 | the script exits with 1 exactly when some law lacks a band, lacks two lines, or has neither a label nor a marker |
| Validation.ScriptPlansAreUnknown | trading-book-fixed/scripts/validate-laws-renderable.mjs:18 | every plan the script builds takes the missing-mapping entry: unknown, attempt 5 |
| Validation.ScriptPassesWithAUnit | trading-book-fixed/scripts/validate-laws-renderable.mjs:9-34 | once the finite rows form one unit, the script exits with 0 |
| Validation.ScriptWithoutRows | trading-book-fixed/scripts/validate-laws-renderable.mjs:9-28 | with no finite row, a law passes the script only through its recipe |
| OverlayRegistry.Find | trading-book-fixed/src/lib/chart/overlayRegistry.js:5 | the position found holds the id, and no earlier position does |
| OverlayRegistry.HasMeaning | trading-book-fixed/src/lib/chart/overlayRegistry.js:57-59 | `has(id)` holds exactly when some entry has the id |
| OverlayRegistry.Get | trading-book-fixed/src/lib/chart/overlayRegistry.js:5 | a lookup finds an entry exactly for a present id |
| OverlayRegistry.Ids | trading-book-fixed/src/lib/chart/overlayRegistry.js:54-56 | the key set holds exactly the ids present |
| OverlayRegistry.SizeCountsIds | trading-book-fixed/src/lib/chart/overlayRegistry.js:54-56 | the size is the number of distinct ids |
| OverlayRegistry.Put | trading-book-fixed/src/lib/chart/overlayRegistry.js:4-9 | after a write the id maps to the new entry and every other id reads as before; a known id keeps its place, a new one goes last |
| OverlayRegistry.AddPriceLine | trading-book-fixed/src/lib/chart/overlayRegistry.js:12-14 | the line is appended to the law's lines, creating the entry if needed; other laws are unchanged |
| OverlayRegistry.AddMarker | trading-book-fixed/src/lib/chart/overlayRegistry.js:15-17 | the marker is appended to the law's markers, creating the entry if needed; other laws are unchanged |
| OverlayRegistry.AddHtmlBand | trading-book-fixed/src/lib/chart/overlayRegistry.js:18-20 | the band is appended to the law's bands, creating the entry if needed; other laws are unchanged |
| OverlayRegistry.RemoveCalls | trading-book-fixed/src/lib/chart/overlayRegistry.js:41 | one removePriceLine call per line, in insertion order |
| OverlayRegistry.HideCalls | trading-book-fixed/src/lib/chart/overlayRegistry.js:42 | one hideBand call per band, in insertion order |
| OverlayRegistry.EntryCalls | trading-book-fixed/src/lib/chart/overlayRegistry.js:40-43 | clearing an entry makes one call per line when a removePriceLine handler is given, and one per band when a hideBand handler is given; no call is made for a marker |
| OverlayRegistry.RemoveAt | trading-book-fixed/src/lib/chart/overlayRegistry.js:43 | deleting a key removes only that key |
| OverlayRegistry.ClearLaw | trading-book-fixed/src/lib/chart/overlayRegistry.js:38-44 | an absent id changes nothing and calls nothing; it throws exactly when the id is present, `handlers` is `undefined` or `null` and the entry has a line or a band, and then keeps the entry and makes no call; otherwise a present id makes its entry's calls, is deleted and the size drops by one; other laws are unchanged either way |
| OverlayRegistry.StopAt | trading-book-fixed/src/lib/chart/overlayRegistry.js:46-50 | the first entry whose clearing throws (one with a line or a band, when `handlers` is `undefined` or `null`), with no earlier one throwing; none with a handlers object |
| OverlayRegistry.ClearAll | trading-book-fixed/src/lib/chart/overlayRegistry.js:45-53 | what remains is the entries from the stopping entry on, so a handlers object empties the registry and a missing one deletes only the leading entries without a line or band before throwing; it throws exactly when it stops early; a handlers object gets every entry's calls in insertion order, a missing one none |
| OverlayRegistry.ClearAllIdempotent | trading-book-fixed/src/lib/chart/overlayRegistry.js:45-53 | clearing a second time calls no handler and leaves the registry as the first clear left it, throwing again exactly when the first did |
| OverlayRegistry.ClearAllIsClearLawInOrder | trading-book-fixed/src/lib/chart/overlayRegistry.js:38-53 | clearing everything is clearing the first law, then the rest in insertion order; a throw on the first law is the throw of the whole clear |
| OverlayRegistry.ClearAllWithoutHandlersExample | trading-book-fixed/src/lib/chart/overlayRegistry.js:38-53 | without handlers, an empty first entry is deleted and an entry with a price line after it throws, keeping it and the rest; clearing that entry alone throws and keeps it |
| OverlayRegistry.GetStats | trading-book-fixed/src/lib/chart/overlayRegistry.js:26-37 | one row per law in insertion order, with its line and marker counts and its visible bands |
| OverlayRegistry.BandStatsCountVisible | trading-book-fixed/src/lib/chart/overlayRegistry.js:26-37 | an added band raises the law's band count exactly when its display is not 'none' |
| OverlayRegistry.GetMarkers | trading-book-fixed/src/lib/chart/overlayRegistry.js:21-25 | a marker is in the result exactly when some law's entry holds it |
| OverlayRegistry.MarkersOfNewLaw | trading-book-fixed/src/lib/chart/overlayRegistry.js:15-25 | a marker added under a new law comes last among all markers |
| OverlayRegistry.MarkersAppend | trading-book-fixed/src/lib/chart/overlayRegistry.js:21-25 | a law added last contributes its markers at the end |
| OverlayRegistry.MarkersConcat | trading-book-fixed/src/lib/chart/overlayRegistry.js:21-25 | the markers of two runs of laws are the first run's followed by the second's |
| OverlayRegistry.MarkersOfKnownLaw | trading-book-fixed/src/lib/chart/overlayRegistry.js:15-25 | a marker added under a known law follows that law's earlier markers, and the laws before and after it keep theirs |
| OverlayRegistry.Step | trading-book-fixed/src/lib/chart/overlayRegistry.js:4-53 | every operation, the clears given a handlers object, keeps each id at most once |
| OverlayRegistry.RunTracksLive | trading-book-fixed/src/lib/chart/overlayRegistry.js:4-59 | after any operations, `has` holds exactly for the ids added and not cleared since, and the size is their number |
| Overlays.EffectiveId | trading-book-fixed/src/lib/chart/overlays/baselineOverlay.js:2 | the tag is the law's id, or 'unknown-law' when the id is missing or empty |
| Overlays.ApplyBaseline | trading-book-fixed/src/lib/chart/overlays/baselineOverlay.js:1-19 | it draws exactly when there is a range and a bar, makes no call otherwise, and tags every call with the law's id |
| Overlays.ApplyUnknownFallback | trading-book-fixed/src/lib/chart/overlays/unknownFallback.js:1-19 | it draws exactly when there is a range and a bar, makes no call otherwise, and tags every call with the law's id |
| Overlays.FallbacksDrawAlike | trading-book-fixed/src/lib/chart/overlays/baselineOverlay.js:7-18 | five calls in order: the low line, the high line, the levels between them, the zone from 23.6% to 38.2% of the range, and a marker on the last bar's close; the unknown fallback draws at exactly the same places |
| Overlays.OverlayZoneIsPlanZone | trading-book-fixed/src/lib/chart/overlays/baselineOverlay.js:10-16 | on the last unit's range, the overlay's zone is the baseline plan's golden zone |
| Overlays.ApplyLawSpecific | trading-book-fixed/src/lib/chart/overlays/lawSpecificPlan.js:1-26 | no plan gives no call; otherwise one call per line, band and marker, each tagged with the law's id |
| Overlays.LineCommands | trading-book-fixed/src/lib/chart/overlays/lawSpecificPlan.js:6-13 | one price-line call per line, in order |
| Overlays.BandCommands | trading-book-fixed/src/lib/chart/overlays/lawSpecificPlan.js:15-17 | one band call per band, in order |
| Overlays.MarkerCommands | trading-book-fixed/src/lib/chart/overlays/lawSpecificPlan.js:19-25 | one marker call per marker, in order |
| Overlays.LineDefaults | trading-book-fixed/src/lib/chart/overlays/lawSpecificPlan.js:6-13 | a line keeps its price, and falls back to teal, solid, width 2 and the law's title only where its own field is falsy |
| Overlays.MarkerFallbacks | trading-book-fixed/src/lib/chart/overlays/lawSpecificPlan.js:19-25 | a falsy marker time takes the last bar's time; a missing price takes its close, but a price of 0 is kept |
| Overlays.GeometryDrawsThree | trading-book-fixed/src/lib/chart/overlays/lawSpecificPlan.js:1-26 | a law's own geometry is drawn as three calls: the line at the target level, the band around it, and the marker on it |
| Yearly.YearsOf | trading-book-fixed/src/lib/marketData/resample.js:3-14 | the years of the grouping map, each once, and exactly the years of the bars |
| Yearly.Groups | trading-book-fixed/src/lib/marketData/resample.js:3-14 | one group per year present, holding that year's bars in input order |
| Yearly.SortedMembers | trading-book-fixed/src/lib/marketData/resample.js:16 | the sorted copy has the same bars as the input |
| Yearly.SummaryExtremes | trading-book-fixed/src/lib/marketData/resample.js:17-20 | a year's high and low are the extremes of its bars, both attained |
| Yearly.SummaryOpen | trading-book-fixed/src/lib/marketData/resample.js:16-18 | the open is that of the first bar, in input order, at the earliest time, and no bar is earlier |
| Yearly.SummaryClose | trading-book-fixed/src/lib/marketData/resample.js:16-19 | the close is that of the last bar, in input order, at the latest time, and no bar is later |
| Yearly.Resample | trading-book-fixed/src/lib/marketData/resample.js:1-27 | a non-array gives nothing; otherwise one candle per year present, in time order |
| Yearly.Aggregate | trading-book-fixed/src/services/marketData/index.js:11-36 | one candle per year present; no bars give no candles |
| Yearly.AggregateContents | trading-book-fixed/src/services/marketData/index.js:11-36 | each candle summarises one year's bars and is stamped with its earliest bar's time, and the years strictly increase |
| Yearly.ResampleStrict | trading-book-fixed/src/lib/marketData/resample.js:21-25 | with year starts increasing over the years of the bars, the resampled times strictly increase |
| Yearly.StartsIncreaseFrom100 | trading-book-fixed/src/lib/marketData/resample.js:21 | year starts that increase from year 100 on increase over the years of bars dated year 100 or later, so the requirement above is met by real dates |
| Yearly.StartOrderIsYearOrder | trading-book-fixed/src/lib/marketData/resample.js:21-25 | with year starts increasing over the years present, ordering the groups by candle time is ordering them by year |
| Yearly.ResampleInYearOrder | trading-book-fixed/src/lib/marketData/resample.js:16-25 | the resampled candles are the year groups in year order, each summarised at its year's start |
| Yearly.ResampleCandle | trading-book-fixed/src/lib/marketData/resample.js:16-21 | each resampled candle is the aggregated candle of the same year, restamped at the year's start |
| Yearly.ResampleMatchesAggregate | trading-book-fixed/src/lib/marketData/resample.js:1-27 | the two yearly variants agree candle for candle except for the time stamp, and the resampled series is strictly increasing |
| MarketService.GetProvider | trading-book-fixed/src/services/marketData/index.js:39-41 | a registered id gives its provider and any other id gives twelvedata |
| MarketService.ProviderChoice | trading-book-fixed/src/services/marketData/index.js:5-41 | binance and csv are chosen exactly for their own ids, and twelvedata for every other id |
| MarketService.UnknownIdsAgree | trading-book-fixed/src/services/marketData/index.js:39-46 | two requests that differ only in an unknown provider id get the same answer, the one twelvedata gives |
| MarketService.FetchCandles | trading-book-fixed/src/services/marketData/index.js:42-46 | the chosen provider answers the request with every field but the provider id |
| Cache.TimeframeTtl | trading-book-fixed/src/lib/marketData/cache.js:79-84 | the TTL is positive, at most 15 minutes, and 15 minutes for every unlisted timeframe |
| Cache.TtlFollowsBarLength | trading-book-fixed/src/lib/marketData/cache.js:79-84 | a longer bar is cached at least as long, and never longer than the bar lasts |
| Cache.GetCached | trading-book-fixed/src/lib/marketData/cache.js:49-57 | an entry is served exactly when it exists and the TTL is falsy or no more than the TTL has passed |
| Cache.FreshnessMonotone | trading-book-fixed/src/lib/marketData/cache.js:49-57 | a served entry is also served earlier, and with a longer TTL |
| Cache.FreshAfterWrite | trading-book-fixed/src/lib/marketData/cache.js:49-84 | bars just written are served exactly while no more than the timeframe's TTL has passed |
| Cache.NoTtlNeverExpires | trading-book-fixed/src/lib/marketData/cache.js:53-54 | without a TTL, or with TTL 0, every stored entry is served however old |
| Storage.KeyName | trading-book-fixed/src/utils/storage.js:1-12 | every named key starts with the 'tb:' prefix and has more after it |
| Storage.KeyNamesDistinct | trading-book-fixed/src/utils/storage.js:4-12 | no two named keys share a storage key |
| Storage.SafeJsonParse | trading-book-fixed/src/utils/storage.js:14-20 | the parsed value, or the fallback when parsing throws |
| Storage.SafeGetJson | trading-book-fixed/src/utils/storage.js:22-27 | the stored value when present, parsable and not null; the fallback in every other case |
| Storage.SafeSetJson | trading-book-fixed/src/utils/storage.js:29-37 | the result is true exactly when the value stringifies and the write succeeds; only then does the store change, and only at that key |
| Storage.GetAfterSet | trading-book-fixed/src/utils/storage.js:22-37 | a successful write of a non-null value that survives the JSON round trip is read back; every other key reads as before |
| Storage.ToDelete | trading-book-fixed/src/utils/storage.js:40-45 | the keys collected are exactly the listed keys with the prefix |
| Storage.RemoveAll | trading-book-fixed/src/utils/storage.js:46 | removing keys deletes exactly those keys and keeps every other value |
| Storage.ClearAppStorage | trading-book-fixed/src/utils/storage.js:39-48 | every key with the prefix is gone and every other entry is untouched |
| Storage.ClearOrderIrrelevant | trading-book-fixed/src/utils/storage.js:39-48 | the result does not depend on the order in which the store lists its keys |
| Storage.EnsureStorageVersion | trading-book-fixed/src/utils/storage.js:50-56 | a stored version of 1 leaves the store alone; any other clears the app's keys and writes the version; entries without the prefix are always kept |
| Storage.EnsureVersionSettles | trading-book-fixed/src/utils/storage.js:50-56 | after a successful run the version reads 1, and a second run changes nothing |
| ChartCsv.LastWith | trading-book-fixed/src/components/LightweightChart.jsx:174-180 | the last column whose name normalises to the key, or -1 when none does |
| ChartCsv.NormalizedMap | trading-book-fixed/src/components/LightweightChart.jsx:174-180 | every column is in the map under its normalised name, and the value kept is that of the last such column |
| ChartCsv.FirstPresent | trading-book-fixed/src/components/LightweightChart.jsx:181-188 | the value found is present and belongs to a name none of whose predecessors is present; nothing is found only when no name is present |
| ChartCsv.GetField | trading-book-fixed/src/components/LightweightChart.jsx:174-189 | a missing row gives null; any result is null or a present value |
| ChartCsv.LaterColumnWins | trading-book-fixed/src/components/LightweightChart.jsx:174-189 | a later column with the same normalised name overrides earlier ones |
| ChartCsv.EarlierNameWins | trading-book-fixed/src/components/LightweightChart.jsx:181-188 | a name earlier in the list takes precedence over every later one |
| ChartCsv.NormalizeDateTime | trading-book-fixed/src/components/LightweightChart.jsx:191-200 | the result is the trimmed text, same length, with every '.' turned into '-' and the first space turned into 'T' when there is no 'T' |
| ChartCsv.NormalizedShape | trading-book-fixed/src/components/LightweightChart.jsx:191-200 | the rewrite is trimmed and has no space left unless a 'T' is there |
| ChartCsv.NormalizeDateTimeIdempotent | trading-book-fixed/src/components/LightweightChart.jsx:191-200 | normalising twice is normalising once |
| ChartCsv.ParseDateValue | trading-book-fixed/src/components/LightweightChart.jsx:202-219 | null or blank text gives null, and a number is passed through |
| ChartCsv.NormalizedKept | trading-book-fixed/src/components/LightweightChart.jsx:191-200 | trimmed text with no dot, and with a 'T' wherever it has a space, is left as it is |
| ChartCsv.DayFirstReordered | trading-book-fixed/src/components/LightweightChart.jsx:209-216 | a day-first date with a four-character year is put year first |
| ChartCsv.YearFirstKept | trading-book-fixed/src/components/LightweightChart.jsx:209-216 | a year-first date is kept as written |
| ChartCsv.FloorSeconds | trading-book-fixed/src/components/LightweightChart.jsx:221-273 | `Math.floor(ms / 1000)` is null exactly on NaN |
| ChartCsv.EpochSeconds | trading-book-fixed/src/components/LightweightChart.jsx:236-241 | null exactly when the number is NaN; a finite value gives a whole number of seconds |
| ChartCsv.SecondsAndMillisAgree | trading-book-fixed/src/components/LightweightChart.jsx:236-241 | the same instant written in seconds or in milliseconds gives the same second |
| ChartCsv.ParseTimeAsWritten | trading-book-fixed/src/components/LightweightChart.jsx:221-273 | a truthy date-time column decides alone |
| ChartCsv.TimeOnlyBranchUnreachable | trading-book-fixed/src/components/LightweightChart.jsx:251-270 | as written, a row without date and date-time columns always gets time 0 |
| ChartCsv.ParseTime | trading-book-fixed/src/components/LightweightChart.jsx:221-273 | with the number-like test applied only to a date that is there, a missing date falls through to the time column, and every other row is timed as written |
| ChartCsv.TimeOnlyRowKept | trading-book-fixed/src/components/LightweightChart.jsx:221-329 | with the number-like test applied only to a present date, a row with a time column of a number of seconds in (0, 1e12] and no date columns becomes one candle at that time, carrying its four prices when they read |
| ChartCsv.TimeOnlyRowDropped | trading-book-fixed/src/components/LightweightChart.jsx:251-319 | as written, the same row gets time 0 because `Number(null)` is 0, so `buildChartData` drops it whatever its prices |
| ChartCsv.UntimedRowDropped | trading-book-fixed/src/components/LightweightChart.jsx:317-319 | a row whose time parses to 0 gives no candle |
| ChartCsv.TimeOnlyRowExample | trading-book-fixed/src/components/LightweightChart.jsx:221-329 | a row with only time 1700000000 and prices 1 gives no candle as written, and the candle at 1700000000 with the missing-date fall-through |
| ChartCsv.NumberText | trading-book-fixed/src/components/LightweightChart.jsx:280-285 | no comma is left; text without a comma is unchanged; with commas only, each becomes '.'; with both, the commas are dropped |
| ChartCsv.NumberTextIdempotent | trading-book-fixed/src/components/LightweightChart.jsx:280-285 | rewriting twice is rewriting once |
| ChartCsv.ParseNumber | trading-book-fixed/src/components/LightweightChart.jsx:275-287 | null, empty or blank text gives NaN; a number is kept; other text goes through `Number()` after trimming and the comma rewrite |
| ChartCsv.ChartRow | trading-book-fixed/src/components/LightweightChart.jsx:289-325 | as written: a candle produced has a truthy time and no NaN price, and its time is what `parseTime` as written gives the row's date, time and date-time fields |
| ChartCsv.ChartRowIntended | trading-book-fixed/src/components/LightweightChart.jsx:289-325 | the same with the missing-date fall-through: the candle's time is the intended `parseTime` of the row's fields |
| ChartCsv.BuildChartData | trading-book-fixed/src/components/LightweightChart.jsx:289-329 | as written: no more candles than rows, each the as-written candle of some row |
| ChartCsv.BuildChartDataIntended | trading-book-fixed/src/components/LightweightChart.jsx:289-329 | with the missing-date fall-through: no more candles than rows, each the intended candle of some row |
| ChartCsv.BuildChartDataIntendedSingle | trading-book-fixed/src/components/LightweightChart.jsx:289-329 | with the fall-through, one row gives its candle or nothing |
| ChartCsv.ChartDataKept | trading-book-fixed/src/components/LightweightChart.jsx:326-328 | every candle kept has a truthy time and no NaN price |
| ChartCsv.BuildChartDataAppend | trading-book-fixed/src/components/LightweightChart.jsx:289-329 | rows are filtered one by one and keep their order |
| ChartCsv.BuildChartDataSingle | trading-book-fixed/src/components/LightweightChart.jsx:289-329 | one row gives its candle or nothing |
| ChartCsv.GetLevelEnds | trading-book-fixed/src/components/LightweightChart.jsx:99-104 | ratio 0 is the lowest low and ratio 1 the highest high of the data |
| ChartCsv.GetLevelMonotone | trading-book-fixed/src/components/LightweightChart.jsx:99-104 | when every low is at most its high, the level rises with the ratio |
| Search.Fold | trading-book-fixed/src/pages/SearchPage.jsx:12-16 | a letter variant becomes alif, yeh, waw or heh; those four are kept; only Arabic letters change |
| Search.FoldFixed | trading-book-fixed/src/pages/SearchPage.jsx:12-16 | merging twice is merging once, and never yields a deleted mark |
| Search.Canon | trading-book-fixed/src/pages/SearchPage.jsx:6-16 | before the trim, no mark or tatweel is left and every letter is already merged |
| Search.NormalizeText | trading-book-fixed/src/pages/SearchPage.jsx:6-17 | the result is trimmed, has no mark in U+064B..U+065F and no tatweel, and has every letter variant merged |
| Search.NormalizeIdempotent | trading-book-fixed/src/pages/SearchPage.jsx:6-17 | normalising normalised text changes nothing |
| Search.CanonAppend | trading-book-fixed/src/pages/SearchPage.jsx:6-16 | normalisation before the trim works character by character |
| Search.DiacriticIgnored | trading-book-fixed/src/pages/SearchPage.jsx:10-11 | a mark or tatweel anywhere in the text makes no difference |
| Search.LetterVariantsMatch | trading-book-fixed/src/pages/SearchPage.jsx:12-16 | two letters that merge to the same letter are interchangeable in any text |
| Search.LawSearchContent | trading-book-fixed/src/pages/SearchPage.jsx:19-28 | the searchable texts are exactly the id, title, summary and details, every condition, expected result and source, and the example |
| Search.LawResults | trading-book-fixed/src/pages/SearchPage.jsx:34-42 | an empty normalised query finds nothing; otherwise a law is found exactly when one of its normalised texts contains the query |
| Search.TermResults | trading-book-fixed/src/pages/SearchPage.jsx:44-52 | an empty normalised query finds nothing; otherwise a term is found exactly when its normalised term or definition contains the query |
| Search.LawResultsInOrder | trading-book-fixed/src/pages/SearchPage.jsx:39-41 | results keep catalog order |
| Search.LongerQueryNarrows | trading-book-fixed/src/pages/SearchPage.jsx:34-42 | every law found for a longer query whose normal form contains the shorter query's is found for the shorter one too |
| LawsPage.FilteredLaws | trading-book-fixed/src/pages/LawsPage.jsx:19-25 | a law is shown exactly when its category is selected (or 'all' is) and the query occurs in its title, summary or id |
| LawsPage.FilterNothing | trading-book-fixed/src/pages/LawsPage.jsx:19-25 | 'all' with an empty query shows the whole catalog in order |
| LawsPage.EmptyQueryKeepsCategory | trading-book-fixed/src/pages/LawsPage.jsx:19-25 | with an empty query the whole selected category shows, in catalog order |
| LawsPage.FilteredInOrder | trading-book-fixed/src/pages/LawsPage.jsx:19-25 | the filter keeps catalog order |
| LawsPage.RowsExtend | trading-book-fixed/src/pages/LawsPage.jsx:28-32 | pushing the next law, with a header exactly when it is the first law or its category differs from the previous law's, keeps the rows grouped |
| LawsPage.GroupedLaws | trading-book-fixed/src/pages/LawsPage.jsx:27-34 | the law rows are exactly the filtered laws, in order, grouped under category headers with no two headers adjacent and a header first |
| LawsPage.UnderOwnHeader | trading-book-fixed/src/pages/LawsPage.jsx:27-34 | going back from any law, the first header names that law's category |
| LawsPage.PageRows | trading-book-fixed/src/pages/LawsPage.jsx:19-34 | the page's rows are the filtered laws, grouped, with every shown law present |
| LawsPage.CategoryIndex | trading-book-fixed/src/pages/LawsPage.jsx:105-127 | a category's table position, or none for an unknown category |
| LawsPage.CategoryColor | trading-book-fixed/src/pages/LawsPage.jsx:105-115 | an unknown category is indigo '#6366f1'; a known one has its own colour |
| LawsPage.CategoryLabel | trading-book-fixed/src/pages/LawsPage.jsx:117-127 | an unknown category is labelled by its own name; a known one by its title |
| LawsPage.ColorsAreHex | trading-book-fixed/src/pages/LawsPage.jsx:105-115 | every badge colour is a `#rrggbb` colour |
| LawsPage.CategoriesDistinguished | trading-book-fixed/src/pages/LawsPage.jsx:105-127 | the six categories are distinct, and no two share a colour or a label |
| Progress.PercentageBounds | trading-book-fixed/src/components/ProgressBar.jsx:4 | with 0 <= completed <= total and total > 0 the percentage is in [0, 100]: 0 with nothing completed and 100 with everything |
| Progress.PercentageMonotone | trading-book-fixed/src/components/ProgressBar.jsx:4 | for a fixed total, completing more never lowers the percentage |
| Progress.Percentage | trading-book-fixed/src/components/ProgressBar.jsx:4 | a total of zero or less gives 0% |
| LearnPage.Initial | trading-book-fixed/src/pages/LearnPage.jsx:7-9 | the page opens on the first law with nothing completed or applied |
| LearnPage.Load | trading-book-fixed/src/pages/LearnPage.jsx:14-20 | a saved list replaces the completed ids; without one nothing changes; position and applied law are kept, and the list has no repeats exactly when the saved one has none |
| LearnPage.WrittenListLoads | trading-book-fixed/src/pages/LearnPage.jsx:14-46 | the list mark-complete writes has no repeats, so loading it back gives a valid state |
| LearnPage.Next | trading-book-fixed/src/pages/LearnPage.jsx:22-27 | one law on, clearing the applied law, unless at the last law; the position stays in the catalog |
| LearnPage.Previous | trading-book-fixed/src/pages/LearnPage.jsx:29-34 | one law back, clearing the applied law, unless at the first law |
| LearnPage.MarkComplete | trading-book-fixed/src/pages/LearnPage.jsx:36-46 | the current id is appended only when absent, so the list keeps no repeats; exactly then the list and a count equal to its length are written |
| LearnPage.Apply | trading-book-fixed/src/pages/LearnPage.jsx:48-50 | the current law goes to the chart and nothing else changes |
| LearnPage.LearnProgress | trading-book-fixed/src/pages/LearnPage.jsx:12 | the percentage is in [0, 100] and is 100 at the last law |
| LearnPage.NextRaisesProgress | trading-book-fixed/src/pages/LearnPage.jsx:12-27 | moving on never lowers the percentage |
| LearnPage.RunKeepsCompleted | trading-book-fixed/src/pages/LearnPage.jsx:7-50 | whatever the user does, the position stays in the catalog, and the completed list keeps its ids in order and gains no repeats |
| Training.Restart | trading-book-fixed/src/pages/TrainingPage.jsx:75-80 | the quiz goes back to the first question, with no selection, score 0 and no summary |
| Training.Answer | trading-book-fixed/src/pages/TrainingPage.jsx:53-61 | a second answer is ignored; a first answer is recorded, is correct exactly when it is the question's answer, and then scores one point |
| Training.Next | trading-book-fixed/src/pages/TrainingPage.jsx:63-73 | ignored until answered; on the last question it shows the summary in place; otherwise it moves on with no selection; the score is never touched |
| Training.CorrectPicks | trading-book-fixed/src/pages/TrainingPage.jsx:57-60 | no more correct picks than picks |
| Training.TakeScores | trading-book-fixed/src/pages/TrainingPage.jsx:53-73 | answering and moving on for each pick adds the number of correct picks to the score, and ends on the next open question or on the summary |
| Training.FullPassScore | trading-book-fixed/src/pages/TrainingPage.jsx:43-80 | one full pass shows the summary with a score equal to the correct answers, at most the number of questions |
| Training.Run | trading-book-fixed/src/pages/TrainingPage.jsx:43-80 | whatever is clicked, the position is a question, the score is at most the questions answered, and the summary shows only after the last answer |
| Training.SummaryIsFinal | trading-book-fixed/src/pages/TrainingPage.jsx:53-73 | once the summary shows only a restart changes the state, and the score is at most the number of questions |
| Training.QuizOfSix | trading-book-fixed/src/pages/TrainingPage.jsx:4-41 | the page's six questions score at most 6, and exactly 6 with every correct option |
| Tutorial.Start | trading-book-fixed/src/context/AppliedLawContext.jsx:14-21 | a fresh tutorial for the law: active, step 0, no inputs, no completed steps, no error |
| Tutorial.End | trading-book-fixed/src/context/AppliedLawContext.jsx:23-30 | every tutorial field returns to its initial value, and the applied law stays |
| Tutorial.MarkStep | trading-book-fixed/src/context/AppliedLawContext.jsx:36-41 | only that step is marked; everything else is unchanged |
| Tutorial.SetInput | trading-book-fixed/src/context/AppliedLawContext.jsx:43-48 | only that input is set; everything else is unchanged |
| Tutorial.NextStep | trading-book-fixed/src/context/AppliedLawContext.jsx:50-52 | the step grows and nothing else changes |
| Tutorial.PreviousStep | trading-book-fixed/src/context/AppliedLawContext.jsx:54-56 | one step back, never below 0, and nothing else changes |
| Tutorial.StepsUndo | trading-book-fixed/src/context/AppliedLawContext.jsx:50-56 | going back undoes going forward; going forward undoes going back exactly above step 0 |
| Tutorial.Settle | trading-book-fixed/src/context/AppliedLawContext.jsx:58-62 | an active tutorial of a law other than the applied one ends, and any other state is kept |
| Tutorial.SettleIdempotent | trading-book-fixed/src/context/AppliedLawContext.jsx:58-62 | running the effect again changes nothing |
| Tutorial.Apply | trading-book-fixed/src/context/AppliedLawContext.jsx:14-56 | each call's update alone: setting the applied law changes only it, and every other call keeps it |
| Tutorial.Dispatch | trading-book-fixed/src/context/AppliedLawContext.jsx:14-62 | after one call made alone in a handler and its effect, an active tutorial with a law id belongs to the applied law, and the step stays non-negative |
| Tutorial.DispatchBatch | trading-book-fixed/src/context/AppliedLawContext.jsx:14-62 | after several calls batched in one handler and the effect, the same holds |
| Tutorial.BatchOfOne | trading-book-fixed/src/context/AppliedLawContext.jsx:14-62 | a batch of one call is that call made alone |
| Tutorial.StartThenApply | trading-book-fixed/src/context/AppliedLawContext.jsx:14-62 | starting a tutorial and applying its law in one handler keeps the fresh tutorial whatever was applied before; made one per handler, it survives exactly when its law was already applied |
| Tutorial.StartNeedsAppliedLaw | trading-book-fixed/src/context/AppliedLawContext.jsx:14-62 | a tutorial started by a call made alone survives exactly when its law is the applied one; otherwise it ends at once |
| Tutorial.ApplyingOtherLawEnds | trading-book-fixed/src/context/AppliedLawContext.jsx:58-62 | applying another law ends a running tutorial, and applying its own law keeps it |
| Tutorial.EditsKeepTutorial | trading-book-fixed/src/context/AppliedLawContext.jsx:36-56 | inputs, step marks and step moves never end a tutorial |
| Tutorial.RunInvariant | trading-book-fixed/src/context/AppliedLawContext.jsx:5-62 | from the initial state, whatever is called one call per handler, the step is never negative and a tutorial belongs to the applied law |
| Text.Trim | trading-book-fixed/src/data/parseRecipe.js:10 | `trim` gives a slice with no white space at either end, and only white space is cut off around it |
| Text.TrimUnique | trading-book-fixed/src/data/parseRecipe.js:10 | any slice without white space at its ends and with only white space around it is the trimmed text, so the trim is the longest such slice |
| Text.TrimAllSpace | trading-book-fixed/src/data/parseRecipe.js:10 | text of white space only trims to the empty string |
| Text.SplitJoin | trading-book-fixed/src/components/LightweightChart.jsx:209-216 | splitting a joined list of separator-free parts gives the parts back |

## Left out

- Browser and network I/O is left out because it is not pure logic: the
  provider clients, IndexedDB in the cache, real `localStorage`, file upload,
  fetch and CSV parsing. Storage is an abstract map from keys to strings. A
  cache lookup is given the entry found, and the clock is a parameter.
- React rendering, routing and the page chrome are left out, because the
  pages' logic is modelled as state machines over their state.
- Conversions from the platform are uninterpreted parameters: `Number()` on
  text, `String()`, `Date.parse`, the UTC calendar, JSON, `toLowerCase` and
  the Unicode classes of `normalizeKey`. Their results depend on
  platform tables this model does not restate.
- `toLowerCase` is applied one character at a time. `Search.LowerStable`
  asks that lowering be idempotent and leave Arabic letters alone. The
  multi-character lower-casing of a few non-Arabic characters is not
  modelled.
- IEEE-754 rounding is not modelled: prices are exact reals. NaN and the
  infinities appear only where the code tests for them (`Prelude.Num`).
  `getLevel` is modelled on finite prices only.
- Progress.Percentage and LearnPage.LearnProgress: the division is exact, so
  a share that floating point puts just below one half is rounded up.
  23 of 40 gives 58 here, where JavaScript computes 57.49999999999999 and
  shows 57.
- `toFixed` label texts and the numeric parts of keys and captions are
  abstract: a caption is a text plus a number.
- JavaScript's prototype keys (`providers['constructor']`, `colors['toString']`)
  are not modelled, because lookups see only an object's own keys.
- The law catalog (`src/data/laws.js`) and the glossary terms are not part of
  this model. Laws and terms are parameters. So the counts shown on the
  laws page's filter buttons (`getLawsByCategory`) are left out.
- The validator script's file read and console output are left out; its
  filter, plans, pass test and exit code are modelled.
- The `references` blocks of the mapping entries are documentation and are
  left out.
- The questions' texts and options on the training page are left out; only
  each question's correct option matters to the logic.
- LearnPage.LearnProgress: states [0, 100] and 100 at the last law, but not
  that the percentage is positive. `Math.round(100 / n)` is 0 for a catalog of
  more than 200 laws.
- Storage.GetAfterSet: only the write of a value that survives the JSON round
  trip is read back. Values that `JSON.stringify` changes (functions,
  `undefined`, NaN) are not modelled.
- Cache.GetCached: a TTL that is NaN or not a number is not modelled; the
  TTL is absent or an integer.
- Units.Segment: segmentation is stated for a positive whole unit size. A
  negative `unitSize` option is modelled (the loop never ends,
  `Units.SegmentNeverEnds`, and the model functions require
  `Indicator.Returns`). Among the files modelled, the one caller from outside
  `model.js`, the validator script, calls `buildLawDrawPlan` without options.
- Indicator.UnitSizeOf: the option is a whole number. A fractional size
  (the slices then run between truncated bounds), NaN (which the `|| 48`
  default replaces) and the infinities are not modelled.
- LearnPage.Load: the stored list is taken as it is, so a list with repeats
  written by other code would break `LearnPage.Valid`. The page itself only
  writes lists without repeats (`LearnPage.WrittenListLoads`).
- LawsPage.FilteredLaws: every catalog law is taken to have a title, a
  summary and an id. The page calls `includes` on them unguarded, so a law
  without one would make it throw; that throw is not modelled.
- OverlayRegistry.Step and OverlayRegistry.RunTracksLive: operation
  sequences pass a handlers object to the clears. The throw of a clear
  without one is modelled by `OverlayRegistry.ClearLaw` and
  `OverlayRegistry.ClearAll` alone, since it ends the caller's sequence. A
  handler that throws itself is not modelled.

## Findings

| source | as written | input that shows it | evidently intended | confidence | as-written member | corrected member |
|---|---|---|---|---|---|---|
| trading-book-fixed/src/components/LightweightChart.jsx:251 | `parseTime` treats the date as a number when `Number.isFinite(Number(dateValue))`; for a row without a date column `dateValue` is null and `Number(null)` is 0, so the row gets time 0. The time-only branch at lines 268-270 can never be reached, and `buildChartData` drops the row because time 0 is falsy | a CSV row with only a `time` column holding `1700000000` | a missing date falls through to the time-only branch, and the row is timed 1700000000 | not executed | ChartCsv.TimeOnlyRowDropped | ChartCsv.TimeOnlyRowKept |

=== FILE: cache.dfy ===
/** The bar cache's policy (src/lib/marketData/cache.js): how long bars of
    a timeframe stay fresh, and when a stored entry is served. The
    IndexedDB store itself is left out; an entry is what a lookup found,
    and the clock is a parameter. */
module Cache {
  import opened Prelude

  const Second: nat := 1000
  const Minute: nat := 60 * Second

  /** `getTimeframeTtl(timeframeId)`, in milliseconds. */
  function TimeframeTtl(timeframeId: string): (ms: nat)
    ensures ms > 0
    ensures ms <= 15 * Minute
    ensures timeframeId !in {"1m", "5m", "15m", "1h", "4h"} ==> ms == 15 * Minute
  {
    if timeframeId in ["1m", "5m"] then 30 * Second
    else if timeframeId in ["15m", "1h"] then 2 * Minute
    else if timeframeId in ["4h"] then 5 * Minute
    else 15 * Minute
  }

  /** The length of a bar of each timeframe with its own TTL, as the id
      spells it. */
  function BarLength(timeframeId: string): (ms: nat)
    requires timeframeId in {"1m", "5m", "15m", "1h", "4h"}
  {
    match timeframeId
    case "1m" => Minute
    case "5m" => 5 * Minute
    case "15m" => 15 * Minute
    case "1h" => 60 * Minute
    case "4h" => 240 * Minute
  }

  /** Longer bars are cached at least as long, and never longer than a
      bar lasts. */
  lemma TtlFollowsBarLength(a: string, b: string)
    requires a in {"1m", "5m", "15m", "1h", "4h"} && b in {"1m", "5m", "15m", "1h", "4h"}
    requires BarLength(a) <= BarLength(b)
    ensures TimeframeTtl(a) <= TimeframeTtl(b)
    ensures TimeframeTtl(a) <= BarLength(a)
  {
  }

  /** What `setCachedBars` stores: the bars and the time of the write. */
  datatype Entry<B> = Entry(bars: B, timestamp: int)

  /** `ttlMs` as passed: absent, or a number. */
  predicate TtlTruthy(ttl: Option<int>) {
    ttl.Some? && ttl.value != 0
  }

  /** The decision inside `getCachedBars`: no entry gives nothing; with a
      truthy TTL, an entry older than the TTL gives nothing; otherwise the
      entry itself. */
  function GetCached<B>(found: Option<Entry<B>>, ttl: Option<int>, now: int): (r: Option<Entry<B>>)
    ensures r.Some? ==> r == found
    ensures r.Some? <==> found.Some? && (!TtlTruthy(ttl) || now - found.value.timestamp <= ttl.value)
  {
    if found.None? then None
    else if ttl.Some? && ttl.value != 0 && now - found.value.timestamp > ttl.value then None
    else found
  }

  /** A served entry was still served a moment earlier, and with a longer
      TTL. */
  lemma FreshnessMonotone<B>(found: Option<Entry<B>>, ttl: int, longer: int, earlier: int, now: int)
    requires 0 < ttl <= longer && earlier <= now
    requires GetCached(found, Some(ttl), now).Some?
    ensures GetCached(found, Some(longer), now).Some?
    ensures GetCached(found, Some(ttl), earlier).Some?
  {
  }

  /** Bars written with `setCachedBars` at time `written` are served for a
      timeframe exactly while no more than its TTL has passed. */
  lemma FreshAfterWrite<B>(bars: B, written: int, timeframeId: string, now: int)
    ensures GetCached(Some(Entry(bars, written)), Some(TimeframeTtl(timeframeId) as int), now)
            == if now - written <= TimeframeTtl(timeframeId) then Some(Entry(bars, written)) else None
  {
  }

  /** Without a TTL every stored entry is served, however old. */
  lemma NoTtlNeverExpires<B>(e: Entry<B>, now: int)
    ensures GetCached(Some(e), None, now) == Some(e)
    ensures GetCached(Some(e), Some(0), now) == Some(e)
  {
  }
}

=== FILE: chart_csv.dfy ===
/** The pure helpers of the chart component
    (src/components/LightweightChart.jsx) that turn parsed CSV rows into
    candles: column lookup by normalised name, date and time text
    rewriting, epoch conversion, number text rewriting, and the row
    filter; plus the price level the chart draws at a ratio of its range.

    The JavaScript conversions the helpers call are parameters:
    `normKey` is `normalizeKey` (lower-casing and dropping every character
    outside the Unicode letter and digit classes), and `Js` bundles
    `Number()` on text, `String()` of a number and `Date.parse`. */
module ChartCsv {
  import opened Prelude
  import opened Text
  import opened Ohlcv
  import RecipeValues
  import Levels
  import opened StableSort

  /** A cell of a parsed row: `null`, text, or a number. */
  datatype Cell = CNull | CText(text: string) | CNumber(n: Num)

  /** A row object: its columns in `Object.keys` order. */
  type Row = seq<(string, Cell)>

  datatype Js = Js(toNumber: string -> Num, numText: Num -> string, dateParse: string -> Num)

  /** `value !== undefined && value !== null && value !== ''` */
  predicate Present(c: Cell) {
    c != CNull && c != CText("")
  }

  /** JavaScript truthiness of a cell. */
  predicate CellTruthy(c: Cell) {
    match c
    case CNull => false
    case CText(t) => t != ""
    case CNumber(n) => n.Truthy()
  }

  /** `Number(value)`; note that `Number(null)` is 0. */
  function ToNumber(c: Cell, js: Js): Num {
    match c
    case CNull => Finite(0.0)
    case CText(t) => js.toNumber(t)
    case CNumber(n) => n
  }

  /** `String(value)` */
  function CellString(c: Cell, js: Js): string {
    match c
    case CNull => "null"
    case CText(t) => t
    case CNumber(n) => js.numText(n)
  }

  // ---------------------------------------------------------------------
  // getField

  /** The last column whose name normalises to `k`, or -1. */
  function LastWith(row: Row, normKey: string -> string, k: string): (i: int)
    ensures -1 <= i < |row|
    ensures i >= 0 ==> normKey(row[i].0) == k
    ensures forall j :: i < j < |row| ==> normKey(row[j].0) != k
  {
    if |row| == 0 then -1
    else if normKey(row[|row| - 1].0) == k then |row| - 1
    else LastWith(row[..|row| - 1], normKey, k)
  }

  /** `normalizedMap`: every column under its normalised name; of columns
      sharing a normalised name, the last one's value stays. */
  function NormalizedMap(row: Row, normKey: string -> string): (m: map<string, Cell>)
    ensures forall i :: 0 <= i < |row| ==> normKey(row[i].0) in m
    ensures forall k :: k in m ==> LastWith(row, normKey, k) >= 0 && m[k] == row[LastWith(row, normKey, k)].1
  {
    if |row| == 0 then map[]
    else
      var m := NormalizedMap(row[..|row| - 1], normKey);
      assert MapsColumns(row[..|row| - 1], normKey, m);
      NormalizedMapStep(row, normKey, m);
      m[normKey(row[|row| - 1].0) := row[|row| - 1].1]
  }

  /** `m` holds every column of `row` under its normalised name, with the
      value of the last column of that name. */
  predicate MapsColumns(row: Row, normKey: string -> string, m: map<string, Cell>) {
    && (forall i :: 0 <= i < |row| ==> normKey(row[i].0) in m)
    && (forall k :: k in m ==> LastWith(row, normKey, k) >= 0 && m[k] == row[LastWith(row, normKey, k)].1)
  }

  /** Writing the last column keeps `NormalizedMap`'s contract. */
  lemma NormalizedMapStep(row: Row, normKey: string -> string, m: map<string, Cell>)
    requires |row| > 0
    requires MapsColumns(row[..|row| - 1], normKey, m)
    ensures MapsColumns(row, normKey, m[normKey(row[|row| - 1].0) := row[|row| - 1].1])
  {
    var init := row[..|row| - 1];
    var last := normKey(row[|row| - 1].0);
    var m' := m[last := row[|row| - 1].1];
    forall i | 0 <= i < |row| ensures normKey(row[i].0) in m' {
      if i < |row| - 1 {
        assert init[i] == row[i];
      }
    }
    forall k | k in m' ensures LastWith(row, normKey, k) >= 0 && m'[k] == row[LastWith(row, normKey, k)].1 {
      if k != last {
        assert LastWith(row, normKey, k) == LastWith(init, normKey, k);
        assert init[LastWith(init, normKey, k)] == row[LastWith(init, normKey, k)];
      }
    }
  }

  /** A lookup in `normalizedMap`; a missing key reads as absent. */
  function Lookup(m: map<string, Cell>, k: string): Cell {
    if k in m then m[k] else CNull
  }

  /** The loop over `names`: the first present value. */
  function FirstPresent(m: map<string, Cell>, names: seq<string>, normKey: string -> string): (c: Cell)
    ensures c == CNull || Present(c)
    ensures c == CNull ==> forall i :: 0 <= i < |names| ==> !Present(Lookup(m, normKey(names[i])))
    ensures c != CNull ==> exists i :: (0 <= i < |names| && Lookup(m, normKey(names[i])) == c
              && forall j :: 0 <= j < i ==> !Present(Lookup(m, normKey(names[j]))))
  {
    if |names| == 0 then CNull
    else
      var v := Lookup(m, normKey(names[0]));
      if Present(v) then v
      else
        var c := FirstPresent(m, names[1..], normKey);
        assert c != CNull ==> exists i :: (0 <= i < |names| && Lookup(m, normKey(names[i])) == c
                 && forall j :: 0 <= j < i ==> !Present(Lookup(m, normKey(names[j])))) by {
          if c != CNull {
            var i :| 0 <= i < |names| - 1 && Lookup(m, normKey(names[1..][i])) == c
                     && forall j :: 0 <= j < i ==> !Present(Lookup(m, normKey(names[1..][j])));
            assert Lookup(m, normKey(names[i + 1])) == c;
            assert forall j :: 0 <= j < i + 1 ==> !Present(Lookup(m, normKey(names[j]))) by {
              forall j | 0 <= j < i + 1 ensures !Present(Lookup(m, normKey(names[j]))) {
                if j > 0 {
                  assert names[j] == names[1..][j - 1];
                }
              }
            }
          }
        }
        c
  }

  /** `getField(row, names)`: `null` for a missing row object; otherwise the
      first present value among the names, in list order. */
  function GetField(row: Option<Row>, names: seq<string>, normKey: string -> string): (c: Cell)
    ensures row.None? ==> c == CNull
    ensures c == CNull || Present(c)
  {
    if row.None? then CNull else FirstPresent(NormalizedMap(row.value, normKey), names, normKey)
  }

  /** When the first name's column is the last of those sharing its
      normalised name and holds a value, that value is the field, whatever
      earlier columns with the same normalised name held. */
  lemma LaterColumnWins(row: Row, names: seq<string>, normKey: string -> string, j: nat)
    requires |names| > 0 && j < |row|
    requires normKey(row[j].0) == normKey(names[0])
    requires forall i :: j < i < |row| ==> normKey(row[i].0) != normKey(names[0])
    requires Present(row[j].1)
    ensures GetField(Some(row), names, normKey) == row[j].1
  {
    var m := NormalizedMap(row, normKey);
    var k := normKey(names[0]);
    assert k in m;
    assert LastWith(row, normKey, k) == j;
  }

  /** A name earlier in the list takes precedence over every later one. */
  lemma EarlierNameWins(row: Row, names: seq<string>, normKey: string -> string, i: nat)
    requires i < |names|
    requires Present(Lookup(NormalizedMap(row, normKey), normKey(names[i])))
    requires forall j :: 0 <= j < i ==> !Present(Lookup(NormalizedMap(row, normKey), normKey(names[j])))
    ensures GetField(Some(row), names, normKey) == Lookup(NormalizedMap(row, normKey), normKey(names[i]))
  {
    var m := NormalizedMap(row, normKey);
    var c := GetField(Some(row), names, normKey);
    var i' :| 0 <= i' < |names| && Lookup(m, normKey(names[i'])) == c
              && forall j :: 0 <= j < i' ==> !Present(Lookup(m, normKey(names[j])));
    if i' < i {
      assert false;
    } else if i < i' {
      assert false;
    }
  }

  // ---------------------------------------------------------------------
  // Date and time text

  /** Replacing one character by another leaves the first position of a
      third character where it was. */
  lemma {:induction false} IndexOfAfterReplace(s: string, x: char, y: char, c: char)
    requires c != x && c != y
    ensures IndexOf(ReplaceAll(s, x, y), c) == IndexOf(s, c)
  {
    if |s| > 0 {
      assert ReplaceAll(s, x, y)[1..] == ReplaceAll(s[1..], x, y);
      IndexOfAfterReplace(s[1..], x, y, c);
    }
  }

  /** The character at `i` after the rewrite of `normalizeDateTimeString`:
      a '.' becomes '-', and the first space becomes 'T' when `t` has no
      'T'. */
  function DateChar(t: string, i: nat): char
    requires i < |t|
  {
    if t[i] == '.' then '-'
    else if 'T' !in t && i == IndexOf(t, ' ') then 'T'
    else t[i]
  }

  /** The rewrite of trimmed, non-empty text. */
  function Sanitize(t: string): (r: string)
    ensures |r| == |t|
    ensures forall i :: 0 <= i < |r| ==> r[i] == DateChar(t, i)
  {
    var sanitized := ReplaceAll(t, '.', '-');
    assert ' ' in sanitized <==> ' ' in t;
    assert 'T' in sanitized <==> 'T' in t;
    IndexOfAfterReplace(t, '.', '-', ' ');
    if ' ' in sanitized && 'T' !in sanitized then
      var k := IndexOf(sanitized, ' ');
      var r := ReplaceFirst(sanitized, ' ', 'T');
      assert forall i :: 0 <= i < |r| ==> r[i] == if i == k then 'T' else sanitized[i];
      r
    else
      assert ' ' !in t ==> IndexOf(t, ' ') == |t|;
      sanitized
  }

  /** `normalizeDateTimeString` on text: trimmed, every '.' turned into
      '-', and the first space turned into 'T' when there is a space and
      no 'T'. */
  function NormalizeDateTime(s: string): (r: string)
    ensures |r| == |Trim(s)|
    ensures '.' !in r
    ensures forall i :: 0 <= i < |r| ==> r[i] == DateChar(Trim(s), i)
  {
    var t := Trim(s);
    if t == "" then t else Sanitize(t)
  }

  /** The rewrite of trimmed text is trimmed and has no space left to turn
      into 'T' unless a 'T' is there. */
  lemma SanitizeShape(t: string)
    requires Trimmed(t)
    ensures Trimmed(Sanitize(t))
    ensures ' ' in Sanitize(t) ==> 'T' in Sanitize(t)
  {
    var r := Sanitize(t);
    if |r| > 0 {
      assert r[0] == DateChar(t, 0) && r[|r| - 1] == DateChar(t, |t| - 1);
    }
    if ' ' in r {
      var p :| 0 <= p < |r| && r[p] == ' ';
      assert t[p] == ' ' && DateChar(t, p) == ' ';
      if 'T' in t {
        var q :| 0 <= q < |t| && t[q] == 'T';
        assert r[q] == DateChar(t, q) == 'T';
      } else {
        var k := IndexOf(t, ' ');
        assert k < |t|;
        assert r[k] == DateChar(t, k) == 'T';
      }
    }
  }

  /** The rewrite is trimmed and has no space left to turn into 'T'
      unless a 'T' was already there. */
  lemma NormalizedShape(s: string)
    ensures Trimmed(NormalizeDateTime(s))
    ensures ' ' in NormalizeDateTime(s) ==> 'T' in NormalizeDateTime(s)
  {
    if Trim(s) != "" {
      SanitizeShape(Trim(s));
    }
  }

  /** Normalising twice is normalising once. */
  lemma NormalizeDateTimeIdempotent(s: string)
    ensures NormalizeDateTime(NormalizeDateTime(s)) == NormalizeDateTime(s)
  {
    var r := NormalizeDateTime(s);
    NormalizedShape(s);
    NormalizedKept(r);
  }

  /** Trimmed text with no dot, and with a 'T' if it has a space, is left
      as it is. */
  lemma NormalizedKept(t: string)
    requires Trimmed(t) && '.' !in t && (' ' in t ==> 'T' in t)
    ensures NormalizeDateTime(t) == t
  {
    TrimTrimmed(t);
    if t != "" {
      var r := Sanitize(t);
      forall i | 0 <= i < |t| ensures r[i] == t[i] {
        DateCharKept(t, i);
      }
    }
  }

  /** Each character of such text is its own rewrite. */
  lemma DateCharKept(t: string, i: nat)
    requires i < |t| && '.' !in t && (' ' in t ==> 'T' in t)
    ensures DateChar(t, i) == t[i]
  {
    if 'T' !in t {
      assert IndexOf(t, ' ') == |t|;
    }
  }

  /** What `parseDateValue` returns: `null`, text, or a number passed
      through. */
  datatype DateValue = DNull | DText(text: string) | DNumber(n: Num)

  /** `parseDateValue(value)`: `null` for null or blank text; a number is
      returned as is; other text is normalised and, when it splits on '-'
      into three parts, put in year-first order. */
  function ParseDateValue(c: Cell): (d: DateValue)
    ensures c.CNumber? ==> d == DNumber(c.n)
    ensures d == DNull <==> c == CNull || (c.CText? && Trim(c.text) == "")
  {
    match c
    case CNull => DNull
    case CNumber(n) => DNumber(n)
    case CText(t) =>
      if Trim(t) == "" then DNull
      else
        var normalized := NormalizeDateTime(Trim(t));
        var parts := Split(normalized, '-');
        if |parts| == 3 && |parts[0]| != 4 && |parts[2]| == 4
        then DText(parts[2] + "-" + parts[1] + "-" + parts[0])
        else DText(normalized)
  }

  /** A plain part of a date: no separator, no dot, no white space. */
  predicate DatePart(p: string) {
    '-' !in p && '.' !in p && ' ' !in p && forall i :: 0 <= i < |p| ==> !IsSpace(p[i])
  }

  /** Three parts joined with '-'. */
  lemma JoinThree(a: string, b: string, c: string)
    ensures Join([a, b, c], '-') == a + "-" + b + "-" + c
  {
    assert [a, b, c][1..] == [b, c] && [b, c][1..] == [c];
    assert Join([b, c], '-') == b + "-" + c;
  }

  /** A text written `p0 + "-" + p1 + "-" + p2` with plain parts, the
      first and last non-empty, is already normalised and splits back
      into its parts. */
  lemma PlainDateNormalized(d: string, m: string, y: string)
    requires DatePart(d) && DatePart(m) && DatePart(y) && |d| > 0 && |y| > 0
    ensures var t := d + "-" + m + "-" + y;
            && Trim(t) == t
            && NormalizeDateTime(t) == t
            && Split(t, '-') == [d, m, y]
  {
    var t := d + "-" + m + "-" + y;
    PlainDateShape(d, m, y);
    TrimTrimmed(t);
    NormalizedKept(t);
    PlainDateSplits(d, m, y);
  }

  /** Such text is trimmed and has no dot and no space. */
  lemma PlainDateShape(d: string, m: string, y: string)
    requires DatePart(d) && DatePart(m) && DatePart(y) && |d| > 0 && |y| > 0
    ensures var t := d + "-" + m + "-" + y;
            Trimmed(t) && '.' !in t && ' ' !in t
  {
    var t := d + "-" + m + "-" + y;
    assert t[0] == d[0] && t[|t| - 1] == y[|y| - 1];
  }

  /** Such text splits on '-' into its three parts. */
  lemma PlainDateSplits(d: string, m: string, y: string)
    requires DatePart(d) && DatePart(m) && DatePart(y)
    ensures Split(d + "-" + m + "-" + y, '-') == [d, m, y]
  {
    JoinThree(d, m, y);
    SplitJoin([d, m, y], '-');
  }

  /** A day-first date with a four-character year is put year first. */
  lemma DayFirstReordered(d: string, m: string, y: string)
    requires DatePart(d) && DatePart(m) && DatePart(y)
    requires |d| > 0 && |d| != 4 && |y| == 4
    ensures ParseDateValue(CText(d + "-" + m + "-" + y)) == DText(y + "-" + m + "-" + d)
  {
    PlainDateNormalized(d, m, y);
  }

  /** A year-first date is kept as written. */
  lemma YearFirstKept(y: string, m: string, d: string)
    requires DatePart(d) && DatePart(m) && DatePart(y)
    requires |y| == 4 && |d| > 0
    ensures ParseDateValue(CText(y + "-" + m + "-" + d)) == DText(y + "-" + m + "-" + d)
  {
    PlainDateNormalized(y, m, d);
  }

  // ---------------------------------------------------------------------
  // Times

  /** `Math.floor(ms / 1000)` on a `Date.parse` result; NaN gives `null`. */
  function FloorSeconds(ms: Num): (r: Option<Num>)
    ensures r.None? <==> ms.NaN?
  {
    match ms
    case NaN => None
    case Inf(neg) => Some(Inf(neg))
    case Finite(x) => Some(Finite((x / 1000.0).Floor as real))
  }

  /** `parseEpochSeconds(value)`: `null` when `Number(value)` is NaN; a
      number above 1e12 is read as milliseconds, any other as seconds; the
      result is whole seconds. */
  function EpochSeconds(c: Cell, js: Js): (r: Option<Num>)
    ensures r.None? <==> ToNumber(c, js).NaN?
    ensures ToNumber(c, js).Finite? ==> r.Some? && r.value.Finite? && r.value.v == r.value.v.Floor as real
  {
    match ToNumber(c, js)
    case NaN => None
    case Inf(neg) => Some(Inf(neg))
    case Finite(x) =>
      var ms := if x > 1000000000000.0 then x else x * 1000.0;
      Some(Finite((ms / 1000.0).Floor as real))
  }

  /** The same instant written in seconds or in milliseconds gives the
      same second, for instants after 1e9 seconds (September 2001) and up
      to 1e12 seconds. */
  lemma SecondsAndMillisAgree(secs: int, js: Js)
    requires 1000000000 < secs <= 1000000000000
    ensures EpochSeconds(CNumber(Finite(secs as real)), js) == Some(Finite(secs as real))
    ensures EpochSeconds(CNumber(Finite(secs as real * 1000.0)), js) == Some(Finite(secs as real))
  {
    assert (secs as real * 1000.0 / 1000.0) == secs as real;
  }

  /** The text `Date.parse` gets for a date cell and a time of day. */
  function DateText(d: DateValue, js: Js): string {
    match d
    case DNull => "null"
    case DText(t) => t
    case DNumber(n) => js.numText(n)
  }

  /** The date-time column, when truthy, decides alone: a number-like
      value is an epoch, other text goes to `Date.parse`. */
  function FromDateTime(dateTime: Cell, js: Js): Option<Num>
    requires CellTruthy(dateTime)
  {
    if ToNumber(dateTime, js).Finite? then EpochSeconds(dateTime, js)
    else FloorSeconds(js.dateParse(NormalizeDateTime(CellString(dateTime, js))))
  }

  /** The date column with or without a time of day, through `Date.parse`
      at UTC. */
  function FromDate(date: Cell, time: Cell, js: Js): Option<Num>
    requires CellTruthy(date)
  {
    var d := DateText(ParseDateValue(date), js);
    if CellTruthy(time) then FloorSeconds(js.dateParse(d + "T" + Trim(CellString(time, js)) + "Z"))
    else FloorSeconds(js.dateParse(d + "T00:00:00Z"))
  }

  /** `parseTime(row)` as written, given the three looked-up columns. The
      test for a number-like date is `Number.isFinite(Number(dateValue))`,
      which also holds for a missing date, since `Number(null)` is 0. */
  function ParseTimeAsWritten(date: Cell, time: Cell, dateTime: Cell, js: Js): (r: Option<Num>)
    ensures CellTruthy(dateTime) ==> r == FromDateTime(dateTime, js)
  {
    if CellTruthy(dateTime) then FromDateTime(dateTime, js)
    else if ToNumber(date, js).Finite? then EpochSeconds(date, js)
    else if CellTruthy(date) then FromDate(date, time, js)
    else if CellTruthy(time) then EpochSeconds(time, js)
    else None
  }

  /** As written, a row without date and date-time columns always gets
      time 0, whatever its time column holds: the time-only branch can
      never be reached. */
  lemma TimeOnlyBranchUnreachable(time: Cell, dateTime: Cell, js: Js)
    requires !CellTruthy(dateTime)
    ensures ParseTimeAsWritten(CNull, time, dateTime, js) == Some(Finite(0.0))
  {
  }

  /** `parseTime` with the number-like test applied to a date that is
      there: a missing date falls through to the later branches. */
  function ParseTime(date: Cell, time: Cell, dateTime: Cell, js: Js): (r: Option<Num>)
    ensures CellTruthy(dateTime) ==> r == FromDateTime(dateTime, js)
    ensures !CellTruthy(dateTime) && date == CNull ==>
              r == if CellTruthy(time) then EpochSeconds(time, js) else None
    ensures date != CNull ==> r == ParseTimeAsWritten(date, time, dateTime, js)
  {
    if CellTruthy(dateTime) then FromDateTime(dateTime, js)
    else if date != CNull && ToNumber(date, js).Finite? then EpochSeconds(date, js)
    else if CellTruthy(date) then FromDate(date, time, js)
    else if CellTruthy(time) then EpochSeconds(time, js)
    else None
  }

  // ---------------------------------------------------------------------
  // Numbers

  /** The text `parseNumber` hands to `Number()`: with both ',' and '.',
      the commas are thousands separators and are dropped; with ',' only,
      each comma is a decimal comma and becomes '.'. */
  function NumberText(t: string): (r: string)
    ensures ',' !in r
    ensures ',' !in t ==> r == t
    ensures ',' in t && '.' !in t ==> |r| == |t| && forall i :: 0 <= i < |t| ==> r[i] == if t[i] == ',' then '.' else t[i]
    ensures ',' in t && '.' in t ==> |r| <= |t| && forall c :: c in r <==> c in t && c != ','
  {
    if ',' in t && '.' in t then RemoveAll(t, ',')
    else if ',' in t then ReplaceAll(t, ',', '.')
    else t
  }

  /** Rewriting twice is rewriting once. */
  lemma NumberTextIdempotent(t: string)
    ensures NumberText(NumberText(t)) == NumberText(t)
  {
  }

  /** `parseNumber(value)`: NaN for null or empty or blank text, a number
      as it is, other text through `Number()` after the comma rewrite. */
  function ParseNumber(c: Cell, js: Js): (n: Num)
    ensures c == CNull || c == CText("") ==> n == NaN
    ensures c.CNumber? ==> n == c.n
    ensures c.CText? && Trim(c.text) == "" ==> n == NaN
    ensures c.CText? && Trim(c.text) != "" ==> n == js.toNumber(NumberText(Trim(c.text)))
  {
    match c
    case CNull => NaN
    case CNumber(x) => x
    case CText(s) =>
      var t := Trim(s);
      if t == "" then NaN else js.toNumber(NumberText(t))
  }

  // ---------------------------------------------------------------------
  // buildChartData

  const DateNames: seq<string> := ["date", "day", "التاريخ", "تاريخ"]
  const TimeNames: seq<string> := ["time", "hour", "الوقت", "ساعة", "الزمن"]
  const DateTimeNames: seq<string> :=
    ["datetime", "date_time", "date time", "timestamp", "time stamp", "date_time_utc", "datetimeutc",
     "datetimeutc", "date_time_utc"]
  const OpenNames: seq<string> := ["open", "o", "openprice", "open_price", "افتتاح", "فتح"]
  const HighNames: seq<string> := ["high", "h", "highprice", "high_price", "اعلى", "أعلى", "مرتفع"]
  const LowNames: seq<string> := ["low", "l", "lowprice", "low_price", "منخفض", "ادنى", "أدنى"]
  const CloseNames: seq<string> :=
    ["close", "c", "closeprice", "close_price", "last", "lastprice", "closeprice", "اغلاق", "إغلاق", "آخر"]

  /** A candle of the chart; prices may be any JavaScript number but NaN. */
  datatype Point = Point(time: Num, open: Num, high: Num, low: Num, close: Num)

  /** A candle worth keeping: a truthy time and no NaN price. */
  predicate Kept(p: Point) {
    p.time.Truthy() && !p.open.NaN? && !p.high.NaN? && !p.low.NaN? && !p.close.NaN?
  }

  /** How a row is timed: `parseTime` as written or as intended. */
  type TimeParser = (Cell, Cell, Cell, Js) -> Option<Num>

  /** The `map` step of `buildChartData` for one row, timed by `parse`:
      its candle, or `null`. */
  function ChartRowWith(parse: TimeParser, row: Option<Row>, normKey: string -> string, js: Js): (p: Option<Point>)
    ensures p.Some? ==> Kept(p.value)
    ensures p.Some? ==> Some(p.value.time) == parse(GetField(row, DateNames, normKey), GetField(row, TimeNames, normKey),
                                                   GetField(row, DateTimeNames, normKey), js)
  {
    var time := parse(GetField(row, DateNames, normKey), GetField(row, TimeNames, normKey),
                      GetField(row, DateTimeNames, normKey), js);
    var open := ParseNumber(GetField(row, OpenNames, normKey), js);
    var high := ParseNumber(GetField(row, HighNames, normKey), js);
    var low := ParseNumber(GetField(row, LowNames, normKey), js);
    var close := ParseNumber(GetField(row, CloseNames, normKey), js);
    if time.None? then None
    else
      var p := Point(time.value, open, high, low, close);
      if Kept(p) then Some(p) else None
  }

  /** The `map` step of `buildChartData` as written: a candle produced has
      a truthy time taken from `parseTime` as written. */
  function ChartRow(row: Option<Row>, normKey: string -> string, js: Js): (p: Option<Point>)
    ensures p.Some? ==> Kept(p.value)
    ensures p.Some? ==> Some(p.value.time) == ParseTimeAsWritten(GetField(row, DateNames, normKey),
                                                                GetField(row, TimeNames, normKey),
                                                                GetField(row, DateTimeNames, normKey), js)
  {
    ChartRowWith(ParseTimeAsWritten, row, normKey, js)
  }

  /** The same step with the intended `parseTime`. */
  function ChartRowIntended(row: Option<Row>, normKey: string -> string, js: Js): (p: Option<Point>)
    ensures p.Some? ==> Kept(p.value)
    ensures p.Some? ==> Some(p.value.time) == ParseTime(GetField(row, DateNames, normKey),
                                                       GetField(row, TimeNames, normKey),
                                                       GetField(row, DateTimeNames, normKey), js)
  {
    ChartRowWith(ParseTime, row, normKey, js)
  }

  /** The mapped step is the as-written candle. */
  lemma ChartRowStep(row: Option<Row>, normKey: string -> string, js: Js)
    ensures ChartRowOf(ParseTimeAsWritten, normKey, js)(row) == ChartRow(row, normKey, js)
  {
  }

  /** The mapped step is the intended candle. */
  lemma ChartRowIntendedStep(row: Option<Row>, normKey: string -> string, js: Js)
    ensures ChartRowOf(ParseTime, normKey, js)(row) == ChartRowIntended(row, normKey, js)
  {
  }

  /** The present values of a list of optional values, in order. */
  function Somes<T>(xs: seq<Option<T>>): (ys: seq<T>)
    ensures |ys| <= |xs|
    ensures forall k :: 0 <= k < |ys| ==> Some(ys[k]) in xs
  {
    if |xs| == 0 then []
    else
      var rest := Somes(xs[1..]);
      assert forall k :: 0 <= k < |rest| ==> Some(rest[k]) in xs by {
        forall k | 0 <= k < |rest| ensures Some(rest[k]) in xs {
          assert Some(rest[k]) in xs[1..];
        }
      }
      if xs[0].Some? then [xs[0].value] + rest else rest
  }

  lemma {:induction false} SomesAppend<T>(a: seq<Option<T>>, b: seq<Option<T>>)
    ensures Somes(a + b) == Somes(a) + Somes(b)
  {
    if |a| > 0 {
      assert (a + b)[1..] == a[1..] + b;
      assert (a + b)[0] == a[0];
      SomesAppend(a[1..], b);
    } else {
      assert a + b == b;
    }
  }

  /** Each present value of a mapped list is the image of some element. */
  lemma SomesOfMap<A, B>(xs: seq<A>, f: A -> Option<B>)
    ensures var ys := Somes(MapSeq(xs, f));
            forall k :: 0 <= k < |ys| ==> exists i :: 0 <= i < |xs| && f(xs[i]) == Some(ys[k])
  {
    var m := MapSeq(xs, f);
    var ys := Somes(m);
    forall k | 0 <= k < |ys| ensures exists i :: 0 <= i < |xs| && f(xs[i]) == Some(ys[k]) {
      var i :| 0 <= i < |m| && m[i] == Some(ys[k]);
      assert f(xs[i]) == Some(ys[k]);
    }
  }

  function ChartRowOf(parse: TimeParser, normKey: string -> string, js: Js): Option<Row> -> Option<Point> {
    (row: Option<Row>) => ChartRowWith(parse, row, normKey, js)
  }

  /** `buildChartData(rows)` with rows timed by `parse`: the candles of the
      rows that give one, in row order. */
  function BuildChartDataWith(parse: TimeParser, rows: seq<Option<Row>>, normKey: string -> string, js: Js): (ps: seq<Point>)
    ensures |ps| <= |rows|
    ensures forall k :: 0 <= k < |ps| ==> exists i :: 0 <= i < |rows| && ChartRowOf(parse, normKey, js)(rows[i]) == Some(ps[k])
  {
    SomesOfMap(rows, ChartRowOf(parse, normKey, js));
    Somes(MapSeq(rows, ChartRowOf(parse, normKey, js)))
  }

  /** `buildChartData(rows)` as written: no more candles than rows, each
      the candle of some row. */
  function BuildChartData(rows: seq<Option<Row>>, normKey: string -> string, js: Js): (ps: seq<Point>)
    ensures |ps| <= |rows|
    ensures forall k :: 0 <= k < |ps| ==> exists i :: 0 <= i < |rows| && ChartRow(rows[i], normKey, js) == Some(ps[k])
  {
    BuildChartDataRows(rows, normKey, js);
    BuildChartDataWith(ParseTimeAsWritten, rows, normKey, js)
  }

  /** Each candle of `BuildChartData` is the `ChartRow` of some row. */
  lemma BuildChartDataRows(rows: seq<Option<Row>>, normKey: string -> string, js: Js)
    ensures var ps := BuildChartDataWith(ParseTimeAsWritten, rows, normKey, js);
            forall k :: 0 <= k < |ps| ==> exists i :: 0 <= i < |rows| && ChartRow(rows[i], normKey, js) == Some(ps[k])
  {
    var ps := BuildChartDataWith(ParseTimeAsWritten, rows, normKey, js);
    forall k | 0 <= k < |ps| ensures exists i :: 0 <= i < |rows| && ChartRow(rows[i], normKey, js) == Some(ps[k]) {
      var i :| 0 <= i < |rows| && ChartRowOf(ParseTimeAsWritten, normKey, js)(rows[i]) == Some(ps[k]);
      ChartRowStep(rows[i], normKey, js);
    }
  }

  /** `buildChartData(rows)` with the intended `parseTime`. */
  function BuildChartDataIntended(rows: seq<Option<Row>>, normKey: string -> string, js: Js): (ps: seq<Point>)
    ensures |ps| <= |rows|
    ensures forall k :: 0 <= k < |ps| ==> exists i :: 0 <= i < |rows| && ChartRowIntended(rows[i], normKey, js) == Some(ps[k])
  {
    BuildChartDataIntendedRows(rows, normKey, js);
    BuildChartDataWith(ParseTime, rows, normKey, js)
  }

  /** Each candle of `BuildChartDataIntended` is the `ChartRowIntended` of some row. */
  lemma BuildChartDataIntendedRows(rows: seq<Option<Row>>, normKey: string -> string, js: Js)
    ensures var ps := BuildChartDataWith(ParseTime, rows, normKey, js);
            forall k :: 0 <= k < |ps| ==> exists i :: 0 <= i < |rows| && ChartRowIntended(rows[i], normKey, js) == Some(ps[k])
  {
    var ps := BuildChartDataWith(ParseTime, rows, normKey, js);
    forall k | 0 <= k < |ps| ensures exists i :: 0 <= i < |rows| && ChartRowIntended(rows[i], normKey, js) == Some(ps[k]) {
      var i :| 0 <= i < |rows| && ChartRowOf(ParseTime, normKey, js)(rows[i]) == Some(ps[k]);
      ChartRowIntendedStep(rows[i], normKey, js);
    }
  }

  /** Every candle kept has a truthy time and no NaN price, and comes from
      a row. */
  lemma ChartDataKept(rows: seq<Option<Row>>, normKey: string -> string, js: Js)
    ensures var ps := BuildChartData(rows, normKey, js);
            forall k :: 0 <= k < |ps| ==> Kept(ps[k])
  {
    var ps := BuildChartData(rows, normKey, js);
    forall k | 0 <= k < |ps| ensures Kept(ps[k]) {
      var i :| 0 <= i < |rows| && ChartRow(rows[i], normKey, js) == Some(ps[k]);
    }
  }

  /** The filter works row by row: the candles of two row lists are the
      candles of each, in order. */
  lemma BuildChartDataAppend(a: seq<Option<Row>>, b: seq<Option<Row>>, normKey: string -> string, js: Js)
    ensures BuildChartData(a + b, normKey, js) == BuildChartData(a, normKey, js) + BuildChartData(b, normKey, js)
  {
    SomesOfMapAppend(a, b, ChartRowOf(ParseTimeAsWritten, normKey, js));
  }

  /** A single row contributes its candle, or nothing. */
  lemma BuildChartDataSingle(row: Option<Row>, normKey: string -> string, js: Js)
    ensures BuildChartData([row], normKey, js)
            == if ChartRow(row, normKey, js).Some? then [ChartRow(row, normKey, js).value] else []
  {
    SomesOfMapSingle(row, ChartRowOf(ParseTimeAsWritten, normKey, js));
  }

  /** The same for the intended definition. */
  lemma BuildChartDataIntendedSingle(row: Option<Row>, normKey: string -> string, js: Js)
    ensures BuildChartDataIntended([row], normKey, js)
            == if ChartRowIntended(row, normKey, js).Some? then [ChartRowIntended(row, normKey, js).value] else []
  {
    SomesOfMapSingle(row, ChartRowOf(ParseTime, normKey, js));
  }

  lemma SomesOfMapAppend<A, B>(a: seq<A>, b: seq<A>, f: A -> Option<B>)
    ensures Somes(MapSeq(a + b, f)) == Somes(MapSeq(a, f)) + Somes(MapSeq(b, f))
  {
    assert MapSeq(a + b, f) == MapSeq(a, f) + MapSeq(b, f);
    SomesAppend(MapSeq(a, f), MapSeq(b, f));
  }

  lemma SomesOfMapSingle<A, B>(x: A, f: A -> Option<B>)
    ensures Somes(MapSeq([x], f)) == if f(x).Some? then [f(x).value] else []
  {
    var m := MapSeq([x], f);
    assert m == [f(x)];
    assert m[1..] == [];
  }

  /** A row without date and date-time columns whose time column holds a
      number of seconds, and whose four prices are numbers, becomes a
      candle at that time under the intended definition. */
  lemma TimeOnlyRowKept(row: Row, normKey: string -> string, time: string, secs: int, js: Js)
    requires GetField(Some(row), DateNames, normKey) == CNull
    requires GetField(Some(row), DateTimeNames, normKey) == CNull
    requires GetField(Some(row), TimeNames, normKey) == CText(time)
    requires js.toNumber(time) == Finite(secs as real) && 0 < secs <= 1000000000000
    requires PricesRead(Some(row), normKey, js)
    ensures BuildChartDataIntended([Some(row)], normKey, js)
            == [Point(Finite(secs as real), ParseNumber(GetField(Some(row), OpenNames, normKey), js),
                      ParseNumber(GetField(Some(row), HighNames, normKey), js),
                      ParseNumber(GetField(Some(row), LowNames, normKey), js),
                      ParseNumber(GetField(Some(row), CloseNames, normKey), js))]
  {
    TimeOnlyParsed(time, secs, js);
    TimedRowKept(ParseTime, Some(row), normKey, js, Finite(secs as real));
    ChartRowIntendedStep(Some(row), normKey, js);
    BuildChartDataIntendedSingle(Some(row), normKey, js);
  }

  /** A row timed truthily whose prices read gives the candle of its time
      and prices. */
  lemma TimedRowKept(parse: TimeParser, row: Option<Row>, normKey: string -> string, js: Js, t: Num)
    requires parse(GetField(row, DateNames, normKey), GetField(row, TimeNames, normKey),
                   GetField(row, DateTimeNames, normKey), js) == Some(t)
    requires t.Truthy() && PricesRead(row, normKey, js)
    ensures ChartRowOf(parse, normKey, js)(row)
            == Some(Point(t, ParseNumber(GetField(row, OpenNames, normKey), js),
                          ParseNumber(GetField(row, HighNames, normKey), js),
                          ParseNumber(GetField(row, LowNames, normKey), js),
                          ParseNumber(GetField(row, CloseNames, normKey), js)))
  {
  }

  /** A time of a number of seconds and no date columns: the intended
      `parseTime` reads the seconds, the code as written reads 0. */
  lemma TimeOnlyParsed(time: string, secs: int, js: Js)
    requires time != ""
    requires js.toNumber(time) == Finite(secs as real) && 0 < secs <= 1000000000000
    ensures ParseTime(CNull, CText(time), CNull, js) == Some(Finite(secs as real))
    ensures ParseTimeAsWritten(CNull, CText(time), CNull, js) == Some(Finite(0.0))
  {
  }

  /** As written, the same row gets time 0, which is falsy, and
      `buildChartData` drops it. */
  lemma TimeOnlyRowDropped(row: Row, normKey: string -> string, time: string, secs: int, js: Js)
    requires GetField(Some(row), DateNames, normKey) == CNull
    requires GetField(Some(row), DateTimeNames, normKey) == CNull
    requires GetField(Some(row), TimeNames, normKey) == CText(time)
    requires js.toNumber(time) == Finite(secs as real) && 0 < secs <= 1000000000000
    ensures ParseTimeAsWritten(CNull, CText(time), CNull, js) == Some(Finite(0.0))
    ensures BuildChartData([Some(row)], normKey, js) == []
  {
    TimeOnlyParsed(time, secs, js);
    UntimedRowDropped(Some(row), normKey, js);
    BuildChartDataSingle(Some(row), normKey, js);
  }

  /** A row that `parseTime` as written times 0 gives no candle. */
  lemma UntimedRowDropped(row: Option<Row>, normKey: string -> string, js: Js)
    requires ParseTimeAsWritten(GetField(row, DateNames, normKey), GetField(row, TimeNames, normKey),
                                GetField(row, DateTimeNames, normKey), js) == Some(Finite(0.0))
    ensures ChartRow(row, normKey, js).None?
  {
  }

  /** None of the four prices of a row reads as NaN. */
  predicate PricesRead(row: Option<Row>, normKey: string -> string, js: Js) {
    && !ParseNumber(GetField(row, OpenNames, normKey), js).NaN?
    && !ParseNumber(GetField(row, HighNames, normKey), js).NaN?
    && !ParseNumber(GetField(row, LowNames, normKey), js).NaN?
    && !ParseNumber(GetField(row, CloseNames, normKey), js).NaN?
  }

  /** A CSV row with a `time` column holding 1700000000 and four prices
      of 1, under column names that are already normal. */
  const TimeOnlyRow: Row := [("time", CText("1700000000")), ("open", CText("1")), ("high", CText("1")),
                             ("low", CText("1")), ("close", CText("1"))]

  /** The concrete row: the code as written drops it, the intended code
      keeps it at second 1700000000. */
  lemma TimeOnlyRowExample(js: Js)
    requires js.toNumber("1700000000") == Finite(1700000000.0)
    requires js.toNumber("1") == Finite(1.0)
    ensures BuildChartData([Some(TimeOnlyRow)], IdentityKey, js) == []
    ensures BuildChartDataIntended([Some(TimeOnlyRow)], IdentityKey, js)
            == [Point(Finite(1700000000.0), Finite(1.0), Finite(1.0), Finite(1.0), Finite(1.0))]
  {
    TimeOnlyRowFields();
    TimeOnlyRowPrices(js);
    TimeOnlyRowDropped(TimeOnlyRow, IdentityKey, "1700000000", 1700000000, js);
    TimeOnlyRowKept(TimeOnlyRow, IdentityKey, "1700000000", 1700000000, js);
  }

  /** The fields `buildChartData` looks up in the concrete row. */
  lemma TimeOnlyRowFields()
    ensures GetField(Some(TimeOnlyRow), DateNames, IdentityKey) == CNull
    ensures GetField(Some(TimeOnlyRow), DateTimeNames, IdentityKey) == CNull
    ensures GetField(Some(TimeOnlyRow), TimeNames, IdentityKey) == CText("1700000000")
    ensures GetField(Some(TimeOnlyRow), OpenNames, IdentityKey) == CText("1")
    ensures GetField(Some(TimeOnlyRow), HighNames, IdentityKey) == CText("1")
    ensures GetField(Some(TimeOnlyRow), LowNames, IdentityKey) == CText("1")
    ensures GetField(Some(TimeOnlyRow), CloseNames, IdentityKey) == CText("1")
  {
    TimeOnlyRowNoDate();
    TimeOnlyRowNoDateTime();
    TimeOnlyRowColumn(TimeNames, 0);
    TimeOnlyRowColumn(OpenNames, 1);
    TimeOnlyRowColumn(HighNames, 2);
    TimeOnlyRowColumn(LowNames, 3);
    TimeOnlyRowColumn(CloseNames, 4);
  }

  /** A field of the concrete row whose first name is column `j`'s. */
  lemma TimeOnlyRowColumn(names: seq<string>, j: nat)
    requires j < |TimeOnlyRow| && |names| > 0 && names[0] == TimeOnlyRow[j].0
    ensures GetField(Some(TimeOnlyRow), names, IdentityKey) == TimeOnlyRow[j].1
  {
    LaterColumnWins(TimeOnlyRow, names, IdentityKey, j);
  }

  /** The concrete row has no date column. */
  lemma TimeOnlyRowNoDate()
    ensures GetField(Some(TimeOnlyRow), DateNames, IdentityKey) == CNull
  {
    AbsentField(TimeOnlyRow, DateNames, IdentityKey);
  }

  /** The concrete row has no date-time column. */
  lemma TimeOnlyRowNoDateTime()
    ensures GetField(Some(TimeOnlyRow), DateTimeNames, IdentityKey) == CNull
  {
    AbsentField(TimeOnlyRow, DateTimeNames, IdentityKey);
  }

  /** When no column of a row is named like any of `names`, the field is
      `null`. */
  lemma AbsentField(row: Row, names: seq<string>, normKey: string -> string)
    requires forall i, j :: 0 <= i < |row| && 0 <= j < |names| ==> normKey(row[i].0) != normKey(names[j])
    ensures GetField(Some(row), names, normKey) == CNull
  {
    var m := NormalizedMap(row, normKey);
    forall j | 0 <= j < |names| ensures Lookup(m, normKey(names[j])) == CNull {
      assert normKey(names[j]) !in m;
    }
  }

  /** Each price of the concrete row reads as 1. */
  lemma TimeOnlyRowPrices(js: Js)
    requires js.toNumber("1") == Finite(1.0)
    ensures ParseNumber(CText("1"), js) == Finite(1.0)
  {
    assert Trimmed("1") && ',' !in "1";
    PlainNumberRead("1", js);
  }

  /** Trimmed text without a comma is handed to `Number()` unchanged. */
  lemma PlainNumberRead(t: string, js: Js)
    requires t != "" && Trimmed(t) && ',' !in t
    ensures ParseNumber(CText(t), js) == js.toNumber(t)
  {
    TrimTrimmed(t);
  }

  /** The identity, which is what `normalizeKey` does to lower-case
      ASCII column names. */
  function IdentityKey(s: string): string { s }

  // ---------------------------------------------------------------------
  // getLevel

  /** `getLevel(ratio)`: the price at `ratio` of the way from the lowest
      low to the highest high of the (non-empty) chart data. */
  function GetLevel(data: seq<Bar>, ratio: real): real
    requires |data| > 0
  {
    RecipeValues.Lerp(Min(Lows(data)), Max(Highs(data)), ratio)
  }

  /** Ratio 0 is the lowest low and ratio 1 the highest high. */
  lemma GetLevelEnds(data: seq<Bar>)
    requires |data| > 0
    ensures forall i :: 0 <= i < |data| ==> GetLevel(data, 0.0) <= data[i].low && data[i].high <= GetLevel(data, 1.0)
    ensures exists i :: 0 <= i < |data| && GetLevel(data, 0.0) == data[i].low
    ensures exists i :: 0 <= i < |data| && GetLevel(data, 1.0) == data[i].high
  {
    var lo := Min(Lows(data));
    var hi := Max(Highs(data));
    assert GetLevel(data, 0.0) == lo;
    assert GetLevel(data, 1.0) == hi;
    var j :| 0 <= j < |data| && Lows(data)[j] == lo;
    var k :| 0 <= k < |data| && Highs(data)[k] == hi;
  }

  /** When every bar's low is at most its high, the level rises with the
      ratio. */
  lemma GetLevelMonotone(data: seq<Bar>, r1: real, r2: real)
    requires |data| > 0
    requires forall i :: 0 <= i < |data| ==> data[i].low <= data[i].high
    requires r1 <= r2
    ensures GetLevel(data, r1) <= GetLevel(data, r2)
  {
    var lo := Min(Lows(data));
    var hi := Max(Highs(data));
    assert lo <= Lows(data)[0] <= Highs(data)[0] <= hi;
    LerpMonotone(lo, hi, r1, r2);
  }

  lemma LerpMonotone(lo: real, hi: real, r1: real, r2: real)
    requires lo <= hi && r1 <= r2
    ensures RecipeValues.Lerp(lo, hi, r1) <= RecipeValues.Lerp(lo, hi, r2)
  {
    if lo < hi {
      Levels.ScaleMonotone(hi - lo, r1, r2);
    }
  }
}

=== FILE: highlights.dfy ===
/** The six highlight flags comparing the last unit with the one before
    it (`computeHighlights` in src/lib/indicator/model.js). */
module Highlights {
  import opened Prelude
  import opened Units

  datatype HighlightKey = PrevBreakHL | InsideHL | InsideShortHL | BothSidesBreak | Weak123 | BackInsideShort

  /** `{ key, enabled }` */
  datatype Highlight = Highlight(key: HighlightKey, enabled: bool)

  /** The order in which the flags are listed. */
  const KeyOrder: seq<HighlightKey> :=
    [PrevBreakHL, InsideHL, InsideShortHL, BothSidesBreak, Weak123, BackInsideShort]

  /** The key's name, as the labels print it. */
  function KeyName(k: HighlightKey): string {
    match k
    case PrevBreakHL => "PrevBreakHL"
    case InsideHL => "InsideHL"
    case InsideShortHL => "InsideShortHL"
    case BothSidesBreak => "BothSidesBreak"
    case Weak123 => "Weak123"
    case BackInsideShort => "BackInsideShort"
  }

  /** The six flags by name. */
  datatype Flags = Flags(prevBreak: bool, inside: bool, insideShort: bool,
                         bothSides: bool, weak: bool, backInsideShort: bool)

  function MaxReal(a: real, b: real): real {
    if a >= b then a else b
  }

  /** `unit.range || (unit.high - unit.low)`: a zero range falls back to
      the high-low difference. */
  function RangeOrSpan(u: Unit): real {
    if u.range != 0.0 then u.range else u.high - u.low
  }

  /** The previous unit's range, never below 1e-9 so that it can divide. */
  function PrevRange(prev: Unit): (r: real)
    ensures r > 0.0
  {
    MaxReal(0.000000001, RangeOrSpan(prev))
  }

  /** The current unit's range, never negative. */
  function CurrRange(cur: Unit): (r: real)
    ensures r >= 0.0
  {
    MaxReal(0.0, RangeOrSpan(cur))
  }

  /** `Math.abs(close - open) / prevRange < 0.236`; false when open or
      close is not a finite number (the quotient is then NaN or infinite). */
  predicate WeakBody(open: Num, close: Num, prevRange: real)
    requires prevRange > 0.0
  {
    open.Finite? && close.Finite?
    && (if close.v >= open.v then close.v - open.v else open.v - close.v) / prevRange < 0.236
  }

  function ComputeFlags(prev: Unit, cur: Unit): Flags {
    var prevRange := PrevRange(prev);
    var currRange := CurrRange(cur);
    var inside := cur.high <= prev.high && cur.low >= prev.low;
    var breakHigh := cur.high > prev.high;
    var breakLow := cur.low < prev.low;
    Flags(
      breakHigh || breakLow,
      inside,
      inside && currRange < prevRange * 0.5,
      breakHigh && breakLow,
      WeakBody(cur.open, cur.close, prevRange),
      prevRange < currRange * 0.5 && cur.high >= prev.high && cur.low <= prev.low)
  }

  function FlagOf(f: Flags, k: HighlightKey): bool {
    match k
    case PrevBreakHL => f.prevBreak
    case InsideHL => f.inside
    case InsideShortHL => f.insideShort
    case BothSidesBreak => f.bothSides
    case Weak123 => f.weak
    case BackInsideShort => f.backInsideShort
  }

  /** `computeHighlights(prevUnit, currentUnit)`: nothing unless both units
      exist, else the six flags in `KeyOrder`. */
  function ComputeHighlights(prev: Option<Unit>, cur: Option<Unit>): (r: seq<Highlight>)
    ensures r == [] <==> prev.None? || cur.None?
    ensures r != [] ==> |r| == 6
    ensures r != [] ==> forall i :: 0 <= i < 6 ==>
              r[i].key == KeyOrder[i] && r[i].enabled == FlagOf(ComputeFlags(prev.value, cur.value), KeyOrder[i])
  {
    if prev.None? || cur.None? then []
    else
      var f := ComputeFlags(prev.value, cur.value);
      seq(6, i requires 0 <= i < 6 => Highlight(KeyOrder[i], FlagOf(f, KeyOrder[i])))
  }

  /** The closed price interval a unit spans. */
  predicate Within(x: real, u: Unit) {
    u.low <= x <= u.high
  }

  /** How the flags relate: a unit either breaks the previous one or lies
      inside it, never both; the short and both-sides flags refine those
      two; a short inside unit and a wide engulfing one exclude each other. */
  lemma FlagsRelations(prev: Unit, cur: Unit)
    ensures var f := ComputeFlags(prev, cur);
            && (f.prevBreak <==> !f.inside)
            && (f.insideShort ==> f.inside)
            && (f.bothSides ==> f.prevBreak)
            && !(f.insideShort && f.backInsideShort)
  {
  }

  /** `InsideHL` is containment: for a unit whose low is not above its
      high, it is set exactly when every price the unit spans is also
      spanned by the previous unit. */
  lemma InsideIsContainment(prev: Unit, cur: Unit)
    requires cur.low <= cur.high
    ensures ComputeFlags(prev, cur).inside <==> forall x :: Within(x, cur) ==> Within(x, prev)
  {
    if !ComputeFlags(prev, cur).inside {
      if cur.high > prev.high {
        assert Within(cur.high, cur) && !Within(cur.high, prev);
      } else {
        assert Within(cur.low, cur) && !Within(cur.low, prev);
      }
    }
  }

  /** A unit spanning 90..110 followed by one spanning 95..115 breaks the
      previous high: `PrevBreakHL` on, `InsideHL` and `BothSidesBreak` off. */
  lemma BreakHighExample(prev: Unit, cur: Unit)
    requires prev.low == 90.0 && prev.high == 110.0 && prev.range == 20.0
    requires cur.low == 95.0 && cur.high == 115.0 && cur.range == 20.0
    ensures var f := ComputeFlags(prev, cur);
            f.prevBreak && !f.inside && !f.insideShort && !f.bothSides && !f.backInsideShort
  {
  }
}

=== FILE: indicator.dfy ===
/** The indicator model and the baseline plan every law shares
    (`buildIndicatorModel` and `buildIndicatorBaselinePlan` in
    src/lib/indicator/model.js). */
module Indicator {
  import opened Prelude
  import opened Ohlcv
  import opened Units
  import opened Levels
  import opened Highlights

  /** `options`: `unitSize` is 0 when absent (the code reads it with `||`,
      so 0 and absent agree), and `levels` is `None` when absent. */
  datatype Options = Options(unitSize: int, levels: Option<seq<real>>)

  /** `options.unitSize || 48`: only 0 (or absence) falls back to 48; any
      other size is kept, a negative one included. */
  function UnitSizeOf(options: Options): (size: int)
    ensures size != 0
    ensures options.unitSize != 0 ==> size == options.unitSize
    ensures options.unitSize == 0 ==> size == DefaultUnitSize
    ensures size > 0 <==> options.unitSize >= 0
  {
    if options.unitSize != 0 then options.unitSize else DefaultUnitSize
  }

  /** `buildIndicatorModel(bars, options)` returns: there are no bars, or
      the unit size is positive. Otherwise `segmentUnits` never leaves
      its loop (`Units.SegmentNeverEnds`). */
  predicate Returns(bars: seq<RawBar>, options: Options) {
    SegmentUnits(bars, UnitSizeOf(options)).Some?
  }

  /** The model returns exactly when there are no bars or the `unitSize`
      option is not negative. */
  lemma ReturnsExactly(bars: seq<RawBar>, options: Options)
    ensures Returns(bars, options) <==> |bars| == 0 || options.unitSize >= 0
  {
  }

  /** The units `buildIndicatorModel` segments the bars into. */
  function UnitsFor(bars: seq<RawBar>, options: Options): (units: seq<Unit>)
    requires Returns(bars, options)
    ensures |bars| == 0 ==> units == []
    ensures |bars| > 0 ==> UnitSizeOf(options) > 0 && units == Segment(bars, UnitSizeOf(options))
  {
    SegmentUnits(bars, UnitSizeOf(options)).value
  }

  /** Without a `unitSize` option the model always returns. */
  lemma DefaultSizeReturns(bars: seq<RawBar>, levels: Option<seq<real>>)
    ensures Returns(bars, Options(0, levels))
    ensures |bars| > 0 ==> UnitsFor(bars, Options(0, levels)) == Segment(bars, 48)
  {
  }

  /** `options.levels || DEFAULT_FIB_LEVELS`; an empty list is kept, since
      an empty array is truthy. */
  function LevelsOf(options: Options): seq<real> {
    if options.levels.Some? then options.levels.value else DefaultFibLevels
  }

  /** `{ units, lastUnit, prevUnit, fib, highlights, htfUnit, htfFib }` */
  datatype Model = Model(
    units: seq<Unit>,
    lastUnit: Option<Unit>,
    prevUnit: Option<Unit>,
    fib: seq<Level>,
    highlights: seq<Highlight>,
    htfUnit: Option<Unit>,
    htfFib: seq<Level>)

  /** The levels of a unit, or none without a unit. */
  function LevelsFor(u: Option<Unit>, levels: seq<real>): seq<Level> {
    if u.Some? then FibLevels(u.value.low, u.value.high, levels) else []
  }

  /** `buildIndicatorModel(bars, options)`: the last unit, the one before it,
      their highlights, and the levels of the last unit and of the
      higher-timeframe unit. */
  function BuildModel(bars: seq<RawBar>, options: Options): (m: Model)
    requires Returns(bars, options)
    ensures m.units == UnitsFor(bars, options)
    ensures m.lastUnit.Some? <==> |m.units| >= 1
    ensures m.prevUnit.Some? <==> |m.units| >= 2
    ensures m.lastUnit.Some? ==> m.lastUnit.value == m.units[|m.units| - 1]
    ensures m.prevUnit.Some? ==> m.prevUnit.value == m.units[|m.units| - 2]
    ensures m.htfUnit.Some? <==> m.lastUnit.Some?
    ensures m.fib == LevelsFor(m.lastUnit, LevelsOf(options))
    ensures m.highlights == ComputeHighlights(m.prevUnit, m.lastUnit)
    ensures m.htfFib == LevelsFor(m.htfUnit, HtfFibLevels)
  {
    ModelOf(UnitsFor(bars, options), LevelsOf(options))
  }

  /** The model of a list of units, the last one's levels at `levels`. */
  function ModelOf(units: seq<Unit>, levels: seq<real>): (m: Model)
    ensures m.units == units
    ensures m.lastUnit.Some? <==> |units| >= 1
    ensures m.prevUnit.Some? <==> |units| >= 2
    ensures m.lastUnit.Some? ==> m.lastUnit.value == units[|units| - 1]
    ensures m.prevUnit.Some? ==> m.prevUnit.value == units[|units| - 2]
    ensures m.htfUnit.Some? <==> m.lastUnit.Some?
    ensures m.fib == LevelsFor(m.lastUnit, levels)
    ensures m.highlights == ComputeHighlights(m.prevUnit, m.lastUnit)
    ensures m.htfFib == LevelsFor(m.htfUnit, HtfFibLevels)
  {
    var n := |units|;
    var lastUnit := if n >= 1 then Some(units[n - 1]) else None;
    var prevUnit := if n >= 2 then Some(units[n - 2]) else None;
    var htfUnit := if n > 2 then Some(units[n - 2]) else lastUnit;
    Model(units, lastUnit, prevUnit, LevelsFor(lastUnit, levels),
          ComputeHighlights(prevUnit, lastUnit), htfUnit, LevelsFor(htfUnit, HtfFibLevels))
  }

  /** The higher-timeframe unit is the previous unit from three units on,
      but with exactly two units it is the last one (the test is
      `units.length > 2`), and with one unit it is that unit. */
  lemma HtfUnitChoice(bars: seq<RawBar>, options: Options)
    requires Returns(bars, options)
    ensures var m := BuildModel(bars, options);
            && (|m.units| > 2 ==> m.htfUnit == m.prevUnit)
            && (|m.units| <= 2 ==> m.htfUnit == m.lastUnit)
            && (|m.units| == 2 ==> m.htfUnit != m.prevUnit)
  {
    var m := BuildModel(bars, options);
    if |m.units| == 2 {
      assert m.units[1].id == 2 && m.units[0].id == 1;
    }
  }

  /** Without any unit the model is empty. */
  lemma ModelWithoutUnits(bars: seq<RawBar>, options: Options)
    requires Returns(bars, options) && |UnitsFor(bars, options)| == 0
    ensures BuildModel(bars, options)
            == Model([], None, None, [], [], None, [])
  {
  }

  datatype Direction = Up | Down

  /** A caption: a fixed text, or a text followed by a number as the code
      prints it (`${text}${number}`; the number's digits are left abstract). */
  datatype Caption = Plain(text: string) | WithNumber(text: string, number: real)

  /** A horizontal price line. */
  datatype Line = Line(price: real, caption: Caption, color: string, lineStyle: LineStyle,
                       lineWidth: nat, lawSpecific: bool)

  /** A price band `from`..`to`. */
  datatype Band = Band(from: real, to: real, caption: string, color: string, lawSpecific: bool)

  /** A marker at a bar. */
  datatype Marker = Marker(time: Num, price: Num, text: string, color: string, lawSpecific: bool)

  /** A text label. */
  datatype Label = Label(text: string, lawSpecific: bool)

  /** A unit separator `{ key: 'sep-U<id>', time }`. */
  datatype Separator = Separator(unitId: nat, time: Num)

  /** A highlight arrow `{ key: 'baseline-arrow-<key>', direction }`. */
  datatype Arrow = Arrow(key: HighlightKey, direction: Direction)

  datatype BaselinePlan = BaselinePlan(
    model: Model,
    lines: seq<Line>,
    bands: seq<Band>,
    markers: seq<Marker>,
    labels: seq<Label>,
    separators: seq<Separator>,
    arrows: seq<Arrow>)

  const HlColor := "#334155"
  const FibColor := "#60a5fa"
  const FibGoldenColor := "#f97316"
  const HtfColor := "#64748b"
  const BaselineColor := "#22c55e"
  const GoldenZoneLabel := "المنطقة الذهبية"
  const BaselineMarkerText := "BASELINE"

  predicate IsEnabled(h: Highlight) { h.enabled }

  /** `highlights.filter((h) => h.enabled)` */
  function EnabledOf(hs: seq<Highlight>): seq<Highlight> {
    Filter(hs, IsEnabled)
  }

  /** The baseline line of one level. */
  function FibLine(f: Level): Line {
    Line(f.price, WithNumber("Fib ", f.ratio),
         if Abs(f.ratio) == 0.236 then FibGoldenColor else FibColor,
         f.lineStyle, f.lineWidth, false)
  }

  /** The line of one higher-timeframe level. */
  function HtfLine(f: Level): Line {
    Line(f.price, WithNumber("HTF ", f.ratio), HtfColor, Dotted, 1, false)
  }

  function FibLines(fs: seq<Level>): (ls: seq<Line>)
    ensures |ls| == |fs|
    ensures forall i :: 0 <= i < |fs| ==> ls[i] == FibLine(fs[i])
  {
    seq(|fs|, i requires 0 <= i < |fs| => FibLine(fs[i]))
  }

  function HtfLines(fs: seq<Level>): (ls: seq<Line>)
    ensures |ls| == |fs|
    ensures forall i :: 0 <= i < |fs| ==> ls[i] == HtfLine(fs[i])
  {
    seq(|fs|, i requires 0 <= i < |fs| => HtfLine(fs[i]))
  }

  /** `idx % 2 ? 'up' : 'down'` */
  function DirectionAt(idx: nat): Direction {
    if idx % 2 == 1 then Up else Down
  }

  /** The baseline plan of a model: nothing but the model when there is no
      unit; otherwise the two range lines, the level lines, the golden zone
      band, the closing marker, one label and one arrow per enabled
      highlight, and one separator per unit. */
  function BaselineOf(model: Model): (p: BaselinePlan)
    ensures p.model == model
    ensures model.lastUnit.None? ==> p == BaselinePlan(model, [], [], [], [], [], [])
    ensures model.lastUnit.Some? ==>
              && |p.lines| == 2 + |model.fib| + |model.htfFib|
              && |p.bands| == 1
              && |p.markers| == 1
              && |p.labels| == |p.arrows| == Count(model.highlights, IsEnabled)
              && |p.separators| == |model.units|
    ensures model.lastUnit.Some? ==> forall i :: 0 <= i < |model.units| ==>
              p.separators[i] == Separator(model.units[i].id, model.units[i].startTime)
  {
    if model.lastUnit.None? then BaselinePlan(model, [], [], [], [], [], [])
    else
      var last := model.lastUnit.value;
      var enabled := EnabledOf(model.highlights);
      BaselinePlan(
        model,
        HlLines(last) + FibLines(model.fib) + HtfLines(model.htfFib),
        [Band(last.low + last.range * 0.236, last.low + last.range * 0.382, GoldenZoneLabel, BaselineColor, false)],
        [Marker(last.endTime, last.close, BaselineMarkerText, BaselineColor, false)],
        seq(|enabled|, i requires 0 <= i < |enabled| => Label(KeyName(enabled[i].key), false)),
        seq(|model.units|, i requires 0 <= i < |model.units| =>
          Separator(model.units[i].id, model.units[i].startTime)),
        seq(|enabled|, i requires 0 <= i < |enabled| => Arrow(enabled[i].key, DirectionAt(i))))
  }

  /** The two dashed lines at the unit's high and low. */
  function HlLines(last: Unit): seq<Line> {
    [Line(last.high, Plain("HL High"), HlColor, Dashed, 1, false),
     Line(last.low, Plain("HL Low"), HlColor, Dashed, 1, false)]
  }

  /** `buildIndicatorBaselinePlan(bars, options)`: an empty plan when the
      bars form no unit; otherwise the two range lines and one line per
      level of the last unit and of the higher-timeframe unit, the golden
      zone of the last unit, a marker on its closing bar, one label and
      one arrow per enabled highlight, and one separator per unit. */
  function BuildBaselinePlan(bars: seq<RawBar>, options: Options): (p: BaselinePlan)
    requires Returns(bars, options)
    ensures p.model.units == UnitsFor(bars, options)
    ensures |p.model.units| == 0 ==>
              p.lines == [] && p.bands == [] && p.markers == [] && p.labels == [] && p.separators == [] && p.arrows == []
    ensures |p.model.units| > 0 ==> BaselineOfUnits(p, p.model.units, LevelsOf(options))
  {
    var model := BuildModel(bars, options);
    if |model.units| == 0 then BaselineOf(model)
    else
      BaselineWithUnits(model, LevelsOf(options));
      BaselineOf(model)
  }

  /** A plan with units: the range lines and one line per level of the last
      unit and of the higher-timeframe unit, the golden zone of the last
      unit, a marker on its closing bar, one label and one arrow per
      enabled highlight, and one separator per unit. */
  predicate BaselineOfUnits(p: BaselinePlan, units: seq<Unit>, levels: seq<real>)
    requires |units| > 0
  {
    var last := units[|units| - 1];
    && p.model.fib == FibLevels(last.low, last.high, levels)
    && |p.lines| == 2 + |p.model.fib| + |p.model.htfFib|
    && p.bands == [Band(last.low + 0.236 * (last.high - last.low), last.low + 0.382 * (last.high - last.low),
                        GoldenZoneLabel, BaselineColor, false)]
    && p.markers == [Marker(last.endTime, last.close, BaselineMarkerText, BaselineColor, false)]
    && |p.labels| == |p.arrows| == Count(p.model.highlights, IsEnabled)
    && |p.separators| == |units|
  }

  /** The plan of a model with units, in terms of its units. */
  lemma BaselineWithUnits(model: Model, levels: seq<real>)
    requires |model.units| > 0
    requires model.lastUnit == Some(model.units[|model.units| - 1])
    requires model.fib == LevelsFor(model.lastUnit, levels)
    requires model.lastUnit.value.range == model.lastUnit.value.high - model.lastUnit.value.low
    ensures BaselineOfUnits(BaselineOf(model), model.units, levels)
  {
    BaselineZone(model);
  }

  /** With a unit, the plan's one band is the golden zone of the last
      unit and its one marker sits on that unit's close. */
  lemma BaselineZone(model: Model)
    requires model.lastUnit.Some?
    ensures var last := model.lastUnit.value;
            && BaselineOf(model).bands
               == [Band(last.low + last.range * 0.236, last.low + last.range * 0.382, GoldenZoneLabel, BaselineColor, false)]
            && BaselineOf(model).markers == [Marker(last.endTime, last.close, BaselineMarkerText, BaselineColor, false)]
  {
  }

  /** The golden zone runs from 23.6% to 38.2% of the last unit's range
      above its low; it is ordered bottom to top exactly when the range is
      not negative. The marker sits on the last unit's closing bar. */
  lemma BaselineBandAndMarker(bars: seq<RawBar>, options: Options)
    requires Returns(bars, options)
    requires BuildModel(bars, options).lastUnit.Some?
    ensures var p := BuildBaselinePlan(bars, options);
            var last := p.model.lastUnit.value;
            && p.bands[0].from == last.low + 0.236 * (last.high - last.low)
            && p.bands[0].to == last.low + 0.382 * (last.high - last.low)
            && (p.bands[0].from <= p.bands[0].to <==> last.low <= last.high)
            && p.markers[0].time == last.endTime
            && p.markers[0].price == last.close
  {
    var p := BuildBaselinePlan(bars, options);
    var last := p.model.lastUnit.value;
    var units := p.model.units;
    assert last == units[|units| - 1];
  }

  /** The lines, in order: the last unit's high and low, then one line per
      level of the last unit at that level's price, then one dotted line per
      higher-timeframe level. A level line is orange exactly at ratio
      +-0.236. */
  lemma BaselineLinesLayout(model: Model)
    requires model.lastUnit.Some?
    ensures var p := BaselineOf(model);
            var last := p.model.lastUnit.value;
            var nf := |p.model.fib|;
            && p.lines[0].price == last.high && p.lines[0].caption == Plain("HL High")
            && p.lines[1].price == last.low && p.lines[1].caption == Plain("HL Low")
            && (forall i :: 0 <= i < nf ==>
                  && p.lines[2 + i].price == p.model.fib[i].price
                  && p.lines[2 + i].caption == WithNumber("Fib ", p.model.fib[i].ratio)
                  && (p.lines[2 + i].color == FibGoldenColor <==> Abs(p.model.fib[i].ratio) == 0.236))
            && (forall j :: 0 <= j < |p.model.htfFib| ==>
                  && p.lines[2 + nf + j].price == p.model.htfFib[j].price
                  && p.lines[2 + nf + j].lineStyle == Dotted)
            && (forall i :: 0 <= i < |p.lines| ==> !p.lines[i].lawSpecific)
  {
    var p := BaselineOf(model);
    var last := p.model.lastUnit.value;
    var head := HlLines(last);
    var fl := FibLines(p.model.fib);
    var hl := HtfLines(p.model.htfFib);
    assert p.lines == head + fl + hl;
    forall i | 0 <= i < |p.lines| ensures !p.lines[i].lawSpecific {
      if i < 2 {
        assert p.lines[i] == head[i];
      } else if i < 2 + |fl| {
        assert p.lines[i] == fl[i - 2];
      } else {
        assert p.lines[i] == hl[i - 2 - |fl|];
      }
    }
  }

  /** The labels name exactly the enabled highlights, in key order, and
      the arrows point down, up, down, ... along them. */
  lemma BaselineLabelsAndArrows(model: Model)
    requires model.lastUnit.Some?
    ensures var p := BaselineOf(model);
            var enabled := EnabledOf(p.model.highlights);
            && (forall i :: 0 <= i < |p.labels| ==>
                  p.labels[i].text == KeyName(enabled[i].key) && p.arrows[i].key == enabled[i].key)
            && (forall i :: 0 <= i < |p.arrows| ==> p.arrows[i].direction == (if i % 2 == 1 then Up else Down))
            && (forall h :: h in p.model.highlights ==> (h.enabled <==> h in enabled))
  {
    FilterMembers(model.highlights, IsEnabled);
  }
}

=== FILE: law_mapping.dfy ===
/** The law-to-feature classifier (`keywordFeatureRules`, `hasAny` and
    `buildLawIndicatorMap` in src/lib/lawEngine/lawMapping.js), over a law
    list given as a parameter. */
module LawMapping {
  import opened Prelude
  import opened Text
  import opened Laws
  import opened Ohlcv
  import opened Indicator
  import opened LawPlan

  /** `{ keys, feature }` of a keyword rule; its `indicatorPointer` and
      `bookPointer` strings are documentation only. */
  datatype Rule = Rule(keys: seq<string>, feature: string)

  const KeywordFeatureRules: seq<Rule> := [
    Rule(["كسر", "Break"], "PrevBreakHL"),
    Rule(["داخل", "Inside", "تداخل"], "InsideHL"),
    Rule(["ضعيف", "Weak"], "Weak123"),
    Rule(["0.236", "0.382", "0.5", "0.618", "0.764", "1.236", "1.382", "الذهبية", "حد الأمان", "اتزان"], "fibGrid")
  ]

  const RecipeMode := "ATTEMPT_A_RECIPE"
  const FeatureMode := "ATTEMPT_B_INDICATOR_FEATURE"
  const CategoryMode := "ATTEMPT_C_CATEGORY_HEURISTIC"

  const RecipeReason := "Attempt A: direct recipe mapping exists; merged with indicator baseline and law-specific geometry."
  const FeatureReason := "Attempt B: mapped to indicator features by keyword semantics; no invented signal trigger added."
  const CategoryReason := "Attempt C: category-driven mapping to closest indicator feature family without inventing trade signal conditions."

  /** `hasAny(text, keys)`: some key is a substring of the text. */
  predicate HasAny(text: string, keys: seq<string>) {
    exists i | 0 <= i < |keys| :: Contains(text, keys[i])
  }

  /** The text the keywords are looked for in. */
  function SearchText(law: Law): string {
    law.title + " " + law.summary + " " + law.details + " " + law.chartRecipeSources
  }

  /** The features of the rules whose keys occur in `text`, in rule order. */
  function MatchedFeatures(rules: seq<Rule>, text: string): (fs: seq<string>)
    ensures |fs| <= |rules|
    ensures forall f :: f in fs <==> exists i :: 0 <= i < |rules| && rules[i].feature == f && HasAny(text, rules[i].keys)
  {
    if |rules| == 0 then []
    else
      var rest := MatchedFeatures(rules[1..], text);
      assert forall f :: (exists i :: 1 <= i < |rules| && rules[i].feature == f && HasAny(text, rules[i].keys))
                         ==> f in rest by {
        forall f | exists i :: 1 <= i < |rules| && rules[i].feature == f && HasAny(text, rules[i].keys)
          ensures f in rest
        {
          var i :| 1 <= i < |rules| && rules[i].feature == f && HasAny(text, rules[i].keys);
          assert rules[1..][i - 1] == rules[i];
        }
      }
      (if HasAny(text, rules[0].keys) then [rules[0].feature] else []) + rest
  }

  /** No element occurs twice. */
  predicate NoDup<T(==)>(xs: seq<T>) {
    forall i, j :: 0 <= i < j < |xs| ==> xs[i] != xs[j]
  }

  function FeaturesOfRules(rules: seq<Rule>): seq<string> {
    seq(|rules|, i requires 0 <= i < |rules| => rules[i].feature)
  }

  /** Rules with distinct features match distinct features. */
  lemma {:induction false} MatchedFeaturesNoDup(rules: seq<Rule>, text: string)
    requires NoDup(FeaturesOfRules(rules))
    ensures NoDup(MatchedFeatures(rules, text))
  {
    if |rules| > 0 {
      var rest := MatchedFeatures(rules[1..], text);
      assert FeaturesOfRules(rules[1..]) == FeaturesOfRules(rules)[1..];
      MatchedFeaturesNoDup(rules[1..], text);
      if HasAny(text, rules[0].keys) {
        var fs := [rules[0].feature] + rest;
        assert fs == MatchedFeatures(rules, text);
        forall j | 0 < j < |fs| ensures fs[0] != fs[j] {
          assert fs[j] in rest;
          var i :| 0 <= i < |rules[1..]| && rules[1..][i].feature == fs[j] && HasAny(text, rules[1..][i].keys);
          assert FeaturesOfRules(rules)[0] != FeaturesOfRules(rules)[i + 1];
        }
      }
    }
  }

  /** `[...new Set(xs)]`: the first occurrence of each element, in order. */
  function Distinct<T(==)>(xs: seq<T>): (d: seq<T>)
    ensures NoDup(d)
    ensures forall i :: 0 <= i < |d| ==> d[i] in xs
    ensures forall i :: 0 <= i < |xs| ==> xs[i] in d
    decreases |xs|
  {
    if |xs| == 0 then []
    else
      var init := Distinct(xs[..|xs| - 1]);
      var last := xs[|xs| - 1];
      assert xs == xs[..|xs| - 1] + [last];
      if last in init then init else init + [last]
  }

  /** A list without duplicates is its own set. */
  lemma {:induction false} DistinctOfNoDup<T>(xs: seq<T>)
    requires NoDup(xs)
    ensures Distinct(xs) == xs
    decreases |xs|
  {
    if |xs| > 0 {
      var init := xs[..|xs| - 1];
      DistinctOfNoDup(init);
      assert xs[|xs| - 1] !in init;
      assert xs == init + [xs[|xs| - 1]];
    }
  }

  /** The category heuristic's feature. */
  function CategoryFeature(category: string): string {
    if category == "المؤشر" then "fibGrid"
    else if category == "المدرسة الكونية" then "BothSidesBreak"
    else if category == "الذكاء الاصطناعي" then "InsideShortHL"
    else "unitHL"
  }

  /** The law-specific feature tag. */
  function LawTag(id: string): string {
    "lawSpecific:" + id
  }

  /** The entry of one law: by recipe when it has overlays, else by
      keyword when some rule matches, else by category. */
  function EntryOf(law: Law): (e: MappingEntry)
    ensures e.features.Some?
    ensures |e.features.value| >= 2 && e.features.value[0] == "baseline"
            && e.features.value[|e.features.value| - 1] == LawTag(law.id)
    ensures e.reason != ""
    ensures e.mode == RecipeMode || e.mode == FeatureMode || e.mode == CategoryMode
  {
    var matched := Distinct(MatchedFeatures(KeywordFeatureRules, SearchText(law)));
    if |RecipeOverlays(law)| > 0 then
      MappingEntry(RecipeMode, Some(["baseline"] + matched + ["recipeOverlay", LawTag(law.id)]), RecipeReason, 1)
    else if |matched| > 0 then
      MappingEntry(FeatureMode, Some(["baseline"] + matched + [LawTag(law.id)]), FeatureReason, 2)
    else
      MappingEntry(CategoryMode, Some(["baseline", CategoryFeature(law.category), LawTag(law.id)]), CategoryReason, 3)
  }

  /** The keyword rules have distinct features, so the matched features
      are exactly the matching rules' features, once each, in rule order. */
  lemma MatchedInRuleOrder(law: Law)
    ensures Distinct(MatchedFeatures(KeywordFeatureRules, SearchText(law)))
            == MatchedFeatures(KeywordFeatureRules, SearchText(law))
  {
    var fs := FeaturesOfRules(KeywordFeatureRules);
    assert fs == ["PrevBreakHL", "InsideHL", "Weak123", "fibGrid"];
    MatchedFeaturesNoDup(KeywordFeatureRules, SearchText(law));
    DistinctOfNoDup(MatchedFeatures(KeywordFeatureRules, SearchText(law)));
  }

  /** The three tiers: a recipe with overlays wins whatever the keywords
      say; then any keyword match; then the category table, which gives
      exactly one feature between the two tags. */
  lemma EntryTiers(law: Law)
    ensures var e := EntryOf(law);
            var matched := MatchedFeatures(KeywordFeatureRules, SearchText(law));
            && (|RecipeOverlays(law)| > 0 ==>
                  e.mode == RecipeMode && e.attempts == 1
                  && e.features == Some(["baseline"] + matched + ["recipeOverlay", LawTag(law.id)]))
            && (|RecipeOverlays(law)| == 0 && |matched| > 0 ==>
                  e.mode == FeatureMode && e.attempts == 2
                  && e.features == Some(["baseline"] + matched + [LawTag(law.id)]))
            && (|RecipeOverlays(law)| == 0 && |matched| == 0 ==>
                  e.mode == CategoryMode && e.attempts == 3
                  && e.features == Some(["baseline", CategoryFeature(law.category), LawTag(law.id)]))
  {
    MatchedInRuleOrder(law);
  }

  /** The category table: three named categories, and `unitHL` for every
      other one. */
  lemma CategoryTable(category: string)
    ensures category == "المؤشر" ==> CategoryFeature(category) == "fibGrid"
    ensures category == "المدرسة الكونية" ==> CategoryFeature(category) == "BothSidesBreak"
    ensures category == "الذكاء الاصطناعي" ==> CategoryFeature(category) == "InsideShortHL"
    ensures category !in {"المؤشر", "المدرسة الكونية", "الذكاء الاصطناعي"} ==> CategoryFeature(category) == "unitHL"
  {
  }

  /** A text without some character of `part` does not contain `part`. */
  lemma MissingCharNotContained(text: string, part: string, c: char)
    requires c in part && c !in text
    ensures !Contains(text, part)
  {
  }

  /** None of the three modes has a 'K', so none mentions UNKNOWN. */
  lemma KnownModes()
    ensures !Contains(RecipeMode, "UNKNOWN")
    ensures !Contains(FeatureMode, "UNKNOWN")
    ensures !Contains(CategoryMode, "UNKNOWN")
  {
    assert 'K' == "UNKNOWN"[2];
    MissingCharNotContained(RecipeMode, "UNKNOWN", 'K');
    MissingCharNotContained(FeatureMode, "UNKNOWN", 'K');
    MissingCharNotContained(CategoryMode, "UNKNOWN", 'K');
  }

  /** No mode of this classifier mentions UNKNOWN. */
  lemma ModeNeverUnknown(law: Law)
    ensures !Contains(EntryOf(law).mode, "UNKNOWN")
  {
    KnownModes();
  }

  /** The ids of a law list. */
  function IdsOf(laws: seq<Law>): set<string>
    decreases |laws|
  {
    if |laws| == 0 then {} else IdsOf(laws[..|laws| - 1]) + {laws[|laws| - 1].id}
  }

  /** An id is in `IdsOf(laws)` exactly when some law has it. */
  lemma {:induction false} IdsOfMeaning(laws: seq<Law>, id: string)
    ensures id in IdsOf(laws) <==> exists i :: 0 <= i < |laws| && laws[i].id == id
    decreases |laws|
  {
    if |laws| > 0 {
      var init := laws[..|laws| - 1];
      IdsOfMeaning(init, id);
      if id in IdsOf(init) {
        var i :| 0 <= i < |init| && init[i].id == id;
        assert laws[i] == init[i];
      } else if exists i :: 0 <= i < |laws| && laws[i].id == id {
        var i :| 0 <= i < |laws| && laws[i].id == id;
        if i < |init| {
          assert init[i] == laws[i];
        }
      }
    }
  }

  /** Every law in turn writes `entry(law)` under its id, so a later law
      overwrites an earlier one with the same id. */
  function WriteEach(laws: seq<Law>, entry: Law -> MappingEntry): (m: map<string, MappingEntry>)
    ensures m.Keys == IdsOf(laws)
    decreases |laws|
  {
    if |laws| == 0 then map[]
    else
      var last := laws[|laws| - 1];
      WriteEach(laws[..|laws| - 1], entry)[last.id := entry(last)]
  }

  /** The value under an id is the one written by the last law with that id. */
  lemma {:induction false} WrittenByLast(laws: seq<Law>, entry: Law -> MappingEntry, k: nat)
    requires k < |laws|
    requires forall j :: k < j < |laws| ==> laws[j].id != laws[k].id
    ensures laws[k].id in WriteEach(laws, entry) && WriteEach(laws, entry)[laws[k].id] == entry(laws[k])
    decreases |laws|
  {
    if k < |laws| - 1 {
      var init := laws[..|laws| - 1];
      assert init[k] == laws[k];
      WrittenByLast(init, entry, k);
    }
  }

  /** Every value written is the entry of some law `i` with that id. */
  lemma {:induction false} WrittenBySome(laws: seq<Law>, entry: Law -> MappingEntry, id: string) returns (i: nat)
    requires id in WriteEach(laws, entry)
    ensures i < |laws| && laws[i].id == id && WriteEach(laws, entry)[id] == entry(laws[i])
    decreases |laws|
  {
    var n := |laws| - 1;
    if laws[n].id == id {
      i := n;
    } else {
      var init := laws[..n];
      i := WrittenBySome(init, entry, id);
      assert laws[i] == init[i];
    }
  }

  /** Every law's id is written. */
  lemma {:induction false} EveryIdWritten(laws: seq<Law>, entry: Law -> MappingEntry, i: nat)
    requires i < |laws|
    ensures laws[i].id in WriteEach(laws, entry)
    decreases |laws|
  {
    var n := |laws| - 1;
    if i < n {
      var init := laws[..n];
      EveryIdWritten(init, entry, i);
      assert init[i] == laws[i];
    }
  }

  /** `buildLawIndicatorMap()`: every law in turn writes its entry under
      its id; the map has one entry per distinct id. */
  function BuildLawIndicatorMap(laws: seq<Law>): (m: map<string, MappingEntry>)
    ensures m.Keys == IdsOf(laws)
  {
    WriteEach(laws, EntryOf)
  }

  /** The entry under an id is the one of the last law with that id. */
  lemma MapEntryIsLastLaw(laws: seq<Law>, k: nat)
    requires k < |laws|
    requires forall j :: k < j < |laws| ==> laws[j].id != laws[k].id
    ensures laws[k].id in BuildLawIndicatorMap(laws) && BuildLawIndicatorMap(laws)[laws[k].id] == EntryOf(laws[k])
  {
    WrittenByLast(laws, EntryOf, k);
  }

  /** Every mapped entry is the entry of some law with that id. */
  lemma MapEntryOfSomeLaw(laws: seq<Law>, id: string) returns (i: nat)
    requires id in BuildLawIndicatorMap(laws)
    ensures i < |laws| && laws[i].id == id && BuildLawIndicatorMap(laws)[id] == EntryOf(laws[i])
  {
    i := WrittenBySome(laws, EntryOf, id);
  }

  /** Every mapped entry is one the classifier produced, so none is unknown. */
  lemma MapNeverUnknown(laws: seq<Law>, id: string)
    requires id in BuildLawIndicatorMap(laws)
    ensures exists i :: 0 <= i < |laws| && laws[i].id == id && BuildLawIndicatorMap(laws)[id] == EntryOf(laws[i])
    ensures !Contains(BuildLawIndicatorMap(laws)[id].mode, "UNKNOWN")
  {
    var i := MapEntryOfSomeLaw(laws, id);
    ModeNeverUnknown(laws[i]);
    assert laws[i].id == id && BuildLawIndicatorMap(laws)[id] == EntryOf(laws[i]);
  }

  /** Drawn with the classifier's own map, no law of the list is drawn as
      an unknown mapping. */
  lemma MappedPlansAreKnown(laws: seq<Law>, i: nat, bars: seq<RawBar>, options: Options, toNumber: string -> Num)
    requires Returns(bars, options)
    requires i < |laws|
    ensures !BuildLawDrawPlan(laws[i], bars, BuildLawIndicatorMap(laws), options, toNumber).unknownMapping
  {
    var m := BuildLawIndicatorMap(laws);
    LawIdMapped(laws, i);
    var j := MapEntryOfSomeLaw(laws, laws[i].id);
    ModeNeverUnknown(laws[j]);
    EntryNeverUnknown(laws[i], bars, m, options, toNumber);
  }

  /** Every law's id is a key of the map. */
  lemma LawIdMapped(laws: seq<Law>, i: nat)
    requires i < |laws|
    ensures laws[i].id in BuildLawIndicatorMap(laws)
  {
    EveryIdWritten(laws, EntryOf, i);
  }

  /** A plan is drawn as an unknown mapping only when its entry says so. */
  lemma EntryNeverUnknown(law: Law, bars: seq<RawBar>, m: map<string, MappingEntry>, options: Options, toNumber: string -> Num)
    requires Returns(bars, options)
    requires law.id in m && !Contains(m[law.id].mode, "UNKNOWN")
    ensures !BuildLawDrawPlan(law, bars, m, options, toNumber).unknownMapping
  {
    assert EntryFor(law.id, m) == m[law.id];
  }
}

=== FILE: law_plan.dfy ===
/** The per-law part of the draw plan (`lawNumber`, `hasFeature`,
    `buildLawSpecificGeometry`, `buildLawDrawPlan` and
    `buildMergedRenderPlan` in src/lib/indicator/model.js). */
module LawPlan {
  import opened Prelude
  import opened Text
  import opened Ohlcv
  import opened Laws
  import opened Units
  import opened Highlights
  import opened Levels
  import opened Indicator

  /** `(entry?.features || []).some((f) => String(f).includes(key))` */
  predicate HasFeature(entry: MappingEntry, key: string) {
    entry.features.Some? && exists i | 0 <= i < |entry.features.value| :: Contains(entry.features.value[i], key)
  }

  /** `lawNumber(law)`: the number after the first underscore of the id, if
      it is a positive finite number, else 1. `toNumber` is JavaScript's
      `Number()` on strings, which this model leaves abstract. */
  function LawNumber(id: string, toNumber: string -> Num): (n: real)
    ensures n > 0.0
  {
    var parts := Split(id, '_');
    var v := if |parts| < 2 then NaN else toNumber(parts[1]);
    if v.Finite? && v.v > 0.0 then v.v else 1.0
  }

  /** An id `a_b_...` numbers its law with `Number(b)`, falling back to 1. */
  lemma LawNumberReadsSecondPart(parts: seq<string>, toNumber: string -> Num)
    requires |parts| >= 2
    requires forall i :: 0 <= i < |parts| ==> '_' !in parts[i]
    ensures var v := toNumber(parts[1]);
            LawNumber(Join(parts, '_'), toNumber) == if v.Finite? && v.v > 0.0 then v.v else 1.0
  {
    SplitJoin(parts, '_');
  }

  /** An id without an underscore numbers its law 1. */
  lemma LawNumberWithoutUnderscore(id: string, toNumber: string -> Num)
    requires '_' !in id
    ensures LawNumber(id, toNumber) == 1.0
  {
    SplitJoin([id], '_');
  }

  /** `n % 2` is truthy: JavaScript's remainder, `n - 2 * trunc(n / 2)`,
      is not zero (for the positive numbers `LawNumber` returns). */
  predicate IsOdd(n: real)
    requires n > 0.0
  {
    n - 2.0 * (n / 2.0).Floor as real != 0.0
  }

  /** Odd whole numbers are odd and even ones are not. */
  lemma IsOddOnIntegers(k: nat)
    requires k > 0
    ensures IsOdd(k as real) <==> k % 2 == 1
  {
    var n := k as real;
    assert (n / 2.0).Floor == k / 2;
  }

  /** The five feature flags the geometry reads. */
  datatype Features = Features(prevBreak: bool, inside: bool, weak: bool, fibGrid: bool, unitHL: bool)

  function FeaturesOf(entry: MappingEntry): Features {
    Features(HasFeature(entry, "PrevBreakHL"), HasFeature(entry, "InsideHL"), HasFeature(entry, "Weak123"),
             HasFeature(entry, "fibGrid"), HasFeature(entry, "unitHL"))
  }

  /** The target ratio, by the first feature present among Weak123,
      InsideHL, PrevBreakHL, fibGrid and unitHL. */
  function TargetRatio(f: Features, last: Unit, n: real): (ratio: real)
    requires n > 0.0
    ensures 0.0 <= ratio <= 1.0
  {
    var mid := last.low + last.range * 0.5;
    if f.weak then 0.236
    else if f.inside then 0.5
    else if f.prevBreak then (if NumGe(last.close, Finite(mid)) then 1.0 else 0.0)
    else if f.fibGrid then (if IsOdd(n) then 0.382 else 0.618)
    else if f.unitHL then (if NumGe(last.close, last.open) then 0.786 else 0.236)
    else 0.5
  }

  /** The ratio each feature asks for on its own. */
  function RatioFor(key: nat, last: Unit, n: real): real
    requires key < 5 && n > 0.0
  {
    match key
    case 0 => 0.236
    case 1 => 0.5
    case 2 => if NumGe(last.close, Finite(last.low + last.range * 0.5)) then 1.0 else 0.0
    case 3 => if IsOdd(n) then 0.382 else 0.618
    case _ => if NumGe(last.close, last.open) then 0.786 else 0.236
  }

  /** The features in priority order. */
  function Ranked(f: Features): seq<bool> {
    [f.weak, f.inside, f.prevBreak, f.fibGrid, f.unitHL]
  }

  /** The first feature present in priority order, if any. */
  function FirstPresent(flags: seq<bool>): (k: nat)
    ensures k <= |flags|
    ensures k < |flags| ==> flags[k]
    ensures forall j :: 0 <= j < k ==> !flags[j]
  {
    if |flags| == 0 then 0
    else if flags[0] then 0
    else 1 + FirstPresent(flags[1..])
  }

  /** The target ratio is the ratio of the highest-priority feature
      present, and 0.5 when none is. */
  lemma TargetRatioIsFirstPresent(f: Features, last: Unit, n: real)
    requires n > 0.0
    ensures var k := FirstPresent(Ranked(f));
            TargetRatio(f, last, n) == if k < 5 then RatioFor(k, last, n) else 0.5
  {
    var r := Ranked(f);
    var k := FirstPresent(r);
    assert r[0] == f.weak && r[1] == f.inside && r[2] == f.prevBreak && r[3] == f.fibGrid && r[4] == f.unitHL;
  }

  /** `{ lines, bands, markers, labels }` of the law-specific geometry. */
  datatype Geometry = Geometry(lines: seq<Line>, bands: seq<Band>, markers: seq<Marker>, labels: seq<Label>)

  const NoGeometry := Geometry([], [], [], [])
  const UnknownModeLabel := "ATTEMPT_E_UNKNOWN_MAPPING"
  const UnknownColor := "#a78bfa"
  const LawColor := "#14b8a6"

  /** `mapEntry?.mode || 'ATTEMPT_E_UNKNOWN_MAPPING'` */
  function ModeLabel(entry: MappingEntry): string {
    if entry.mode != "" then entry.mode else UnknownModeLabel
  }

  /** `range * (fInside ? 0.05 : 0.025)` */
  function HalfWidth(f: Features, range: real): real {
    range * (if f.inside then 0.05 else 0.025)
  }

  /** The colour of a mode label: violet when it mentions UNKNOWN, teal
      otherwise. */
  function ModeColor(modeLabel: string): string {
    if Contains(modeLabel, "UNKNOWN") then UnknownColor else LawColor
  }

  /** The four shapes drawn for law `id` on unit `u`. */
  function GeometryAt(id: string, u: Unit, f: Features, n: real, modeLabel: string): (g: Geometry)
    requires n > 0.0
    ensures |g.lines| == |g.bands| == |g.markers| == |g.labels| == 1
  {
    var ratio := TargetRatio(f, u, n);
    var center := u.low + u.range * ratio;
    var half := HalfWidth(f, u.range);
    var color := ModeColor(modeLabel);
    Geometry(
      [Line(center, WithNumber(id + " ", ratio), color, if f.weak then Dashed else Solid, 2, true)],
      [Band(center - half, center + half, id + (if f.inside then " inside-zone" else " law-zone"), color, true)],
      [Marker(u.endTime, Finite(center), if f.prevBreak then id + " break-ref" else id, color, true)],
      [Label(id + " · " + modeLabel, true)])
  }

  /** `buildLawSpecificGeometry`: nothing without a last unit of positive
      range; otherwise one line, one band, one marker and one label around
      the target level of the last unit, every one of them marked as
      law-specific. */
  function LawGeometry(id: string, baseline: BaselinePlan, entry: MappingEntry, toNumber: string -> Num): (g: Geometry)
    ensures g == NoGeometry <==> baseline.model.lastUnit.None? || baseline.model.lastUnit.value.range <= 0.0
    ensures g != NoGeometry ==>
              g == GeometryAt(id, baseline.model.lastUnit.value, FeaturesOf(entry),
                              LawNumber(id, toNumber), ModeLabel(entry))
  {
    var last := baseline.model.lastUnit;
    if last.None? || last.value.range <= 0.0 then NoGeometry
    else GeometryAt(id, last.value, FeaturesOf(entry), LawNumber(id, toNumber), ModeLabel(entry))
  }

  /** Where the geometry is drawn: its line sits at the target ratio of
      the unit's range, inside the unit, and its band is centred on that
      line, 5% of the range wide on each side for an inside unit and 2.5%
      otherwise; the marker sits on the line at the unit's end; every shape
      is law-specific and shares one colour. */
  lemma GeometryPlacement(id: string, u: Unit, f: Features, n: real, modeLabel: string)
    requires n > 0.0
    requires u.range > 0.0 && u.range == u.high - u.low
    ensures var g := GeometryAt(id, u, f, n, modeLabel);
            var center := g.lines[0].price;
            && center == u.low + u.range * TargetRatio(f, u, n)
            && u.low <= center <= u.high
            && g.bands[0].from < center < g.bands[0].to
            && center - g.bands[0].from == g.bands[0].to - center
               == u.range * (if f.inside then 0.05 else 0.025)
            && g.markers[0].time == u.endTime && g.markers[0].price == Finite(center)
            && g.lines[0].lawSpecific && g.bands[0].lawSpecific && g.markers[0].lawSpecific && g.labels[0].lawSpecific
            && g.bands[0].color == g.markers[0].color == g.lines[0].color == ModeColor(modeLabel)
  {
    var ratio := TargetRatio(f, u, n);
    assert 0.0 <= u.range * ratio <= u.range by {
      ScaleMonotone(u.range, 0.0, ratio);
      ScaleMonotone(u.range, ratio, 1.0);
    }
  }

  /** The geometry is violet exactly when the mode (or its fallback, when
      the mode is empty) mentions UNKNOWN, and teal otherwise. */
  lemma ModeColorOfEntry(entry: MappingEntry)
    ensures ModeColor(ModeLabel(entry)) == UnknownColor <==> entry.mode == "" || Contains(entry.mode, "UNKNOWN")
    ensures ModeColor(ModeLabel(entry)) == LawColor <==> entry.mode != "" && !Contains(entry.mode, "UNKNOWN")
  {
    if entry.mode == "" {
      assert OccursAt(UnknownModeLabel, "UNKNOWN", 10);
    }
  }

  /** `{ lawId, mappingAttempt, mappingMode, features, unknownMapping,
      unknownReason, baseline, lawSpecific, linesCount, boxesCount,
      labelsCount, markersCount, baselineCount, lawSpecificCount }` */
  datatype DrawPlan = DrawPlan(
    lawId: string,
    mappingAttempt: int,
    mappingMode: string,
    features: seq<string>,
    unknownMapping: bool,
    unknownReason: string,
    baseline: BaselinePlan,
    lawSpecific: Geometry,
    linesCount: nat,
    boxesCount: nat,
    labelsCount: nat,
    markersCount: nat,
    baselineCount: nat,
    lawSpecificCount: nat)

  /** The entry used for a law the mapping does not list. */
  const MissingEntry := MappingEntry("UNKNOWN_MAPPING", Some(["baseline"]), "missing mapping entry", 5)

  /** `mapping?.[law?.id] || MissingEntry`; an absent mapping is the empty map. */
  function EntryFor(id: string, mapping: map<string, MappingEntry>): MappingEntry {
    if id in mapping then mapping[id] else MissingEntry
  }

  predicate IsPriceLine(o: RecipeOverlay) { o.kind == PriceLineOverlay }
  predicate IsZone(o: RecipeOverlay) { o.kind == ZoneOverlay }
  predicate IsMarker(o: RecipeOverlay) { o.kind == MarkerOverlay }

  /** The number of shapes of a geometry. */
  function GeometrySize(g: Geometry): nat {
    |g.lines| + |g.bands| + |g.markers| + |g.labels|
  }

  /** `buildLawDrawPlan({ law, bars, mapping, options })`: the baseline, the
      law's own geometry, and the shape counts, to which each recipe overlay
      adds one line, band or marker according to its type. */
  function BuildLawDrawPlan(law: Law, bars: seq<RawBar>, mapping: map<string, MappingEntry>,
                            options: Options, toNumber: string -> Num): (p: DrawPlan)
    requires Returns(bars, options)
    ensures p.lawId == law.id
    ensures p.baseline == BuildBaselinePlan(bars, options)
    ensures p.lawSpecific == LawGeometry(law.id, p.baseline, EntryFor(law.id, mapping), toNumber)
    ensures p.linesCount == |p.baseline.lines| + |p.lawSpecific.lines| + Count(RecipeOverlays(law), IsPriceLine)
    ensures p.boxesCount == |p.baseline.bands| + |p.lawSpecific.bands| + Count(RecipeOverlays(law), IsZone)
    ensures p.labelsCount == |p.baseline.labels| + |p.lawSpecific.labels|
    ensures p.markersCount == |p.baseline.markers| + |p.lawSpecific.markers| + Count(RecipeOverlays(law), IsMarker)
    ensures p.lawSpecificCount == GeometrySize(p.lawSpecific)
    ensures p.mappingMode == EntryFor(law.id, mapping).mode
    ensures p.unknownMapping <==> Contains(p.mappingMode, "UNKNOWN")
    ensures p.mappingAttempt != 0
    ensures EntryFor(law.id, mapping).features.Some? ==> p.features == EntryFor(law.id, mapping).features.value
    ensures EntryFor(law.id, mapping).features.None? ==> p.features == ["baseline"]
  {
    PlanFrom(law.id, RecipeOverlays(law), BuildBaselinePlan(bars, options), EntryFor(law.id, mapping), toNumber)
  }

  /** The plan of law `id` with recipe overlays `overlays`. */
  function PlanFrom(id: string, overlays: seq<RecipeOverlay>, baseline: BaselinePlan, entry: MappingEntry,
                    toNumber: string -> Num): DrawPlan
  {
    var g := LawGeometry(id, baseline, entry, toNumber);
    DrawPlan(
      id,
      if entry.attempts != 0 then entry.attempts else 5,
      entry.mode,
      if entry.features.Some? then entry.features.value else ["baseline"],
      Contains(entry.mode, "UNKNOWN"),
      entry.reason,
      baseline,
      g,
      |baseline.lines| + |g.lines| + Count(overlays, IsPriceLine),
      |baseline.bands| + |g.bands| + Count(overlays, IsZone),
      |baseline.labels| + |g.labels|,
      |baseline.markers| + |g.markers| + Count(overlays, IsMarker),
      |baseline.lines| + |baseline.bands| + |baseline.markers| + |baseline.labels|,
      GeometrySize(g))
  }

  /** As soon as the bars form one unit, every law's plan has at least two
      lines, one band and one marker; without a unit, every count but the
      recipe's is zero. */
  lemma DrawPlanRenderable(law: Law, bars: seq<RawBar>, mapping: map<string, MappingEntry>,
                           options: Options, toNumber: string -> Num)
    requires Returns(bars, options)
    ensures var p := BuildLawDrawPlan(law, bars, mapping, options, toNumber);
            var some := |UnitsFor(bars, options)| > 0;
            && (some ==> p.linesCount >= 2 && p.boxesCount >= 1 && p.markersCount >= 1)
            && (!some ==> p.baselineCount == 0 && p.lawSpecificCount == 0 && p.labelsCount == 0)
  {
  }

  /** The law's own geometry is all or nothing: four shapes when the last
      unit has a positive range, none otherwise. */
  lemma LawSpecificAllOrNothing(law: Law, bars: seq<RawBar>, mapping: map<string, MappingEntry>,
                                options: Options, toNumber: string -> Num)
    requires Returns(bars, options)
    ensures var p := BuildLawDrawPlan(law, bars, mapping, options, toNumber);
            var m := p.baseline.model;
            p.lawSpecificCount == if m.lastUnit.Some? && m.lastUnit.value.range > 0.0 then 4 else 0
  {
  }

  /** A law the mapping does not list is drawn as an unknown mapping, on
      attempt 5, with the baseline feature only. */
  lemma MissingMappingIsUnknown(law: Law, bars: seq<RawBar>, mapping: map<string, MappingEntry>,
                                options: Options, toNumber: string -> Num)
    requires Returns(bars, options)
    requires law.id !in mapping
    ensures var p := BuildLawDrawPlan(law, bars, mapping, options, toNumber);
            && p.unknownMapping
            && p.mappingAttempt == 5
            && p.mappingMode == "UNKNOWN_MAPPING"
            && p.features == ["baseline"]
            && p.unknownReason == "missing mapping entry"
  {
    assert OccursAt("UNKNOWN_MAPPING", "UNKNOWN", 0);
  }

  /** A listed entry's attempt number is kept unless it is 0. */
  lemma ListedMappingAttempt(law: Law, bars: seq<RawBar>, mapping: map<string, MappingEntry>,
                             options: Options, toNumber: string -> Num)
    requires Returns(bars, options)
    requires law.id in mapping
    ensures var p := BuildLawDrawPlan(law, bars, mapping, options, toNumber);
            && p.mappingMode == mapping[law.id].mode
            && (mapping[law.id].attempts != 0 ==> p.mappingAttempt == mapping[law.id].attempts)
            && (mapping[law.id].attempts == 0 ==> p.mappingAttempt == 5)
  {
  }

  /** The recipe's `inputs` play no part in the plan. */
  lemma RecipeInputsIgnored(law: Law, inputs: seq<string>, bars: seq<RawBar>,
                            mapping: map<string, MappingEntry>, options: Options, toNumber: string -> Num)
    requires Returns(bars, options)
    requires law.chartRecipe.Some?
    ensures var other := law.(chartRecipe := Some(law.chartRecipe.value.(inputs := inputs)));
            BuildLawDrawPlan(other, bars, mapping, options, toNumber)
            == BuildLawDrawPlan(law, bars, mapping, options, toNumber)
  {
    var other := law.(chartRecipe := Some(law.chartRecipe.value.(inputs := inputs)));
    assert other.id == law.id;
    assert RecipeOverlays(other) == RecipeOverlays(law);
  }

  /** `{ baseline, stats }` */
  datatype MergedPlan = MergedPlan(baseline: BaselinePlan, stats: seq<DrawPlan>)

  /** `buildMergedRenderPlan({ laws, bars, mapping, options })`: the shared
      baseline and one plan per law, in the laws' order, with no
      de-duplication. */
  function BuildMergedPlan(laws: seq<Law>, bars: seq<RawBar>, mapping: map<string, MappingEntry>,
                           options: Options, toNumber: string -> Num): (r: MergedPlan)
    requires Returns(bars, options)
    ensures |r.stats| == |laws|
    ensures forall i :: 0 <= i < |laws| ==> r.stats[i].lawId == laws[i].id
    ensures forall i :: 0 <= i < |laws| ==> r.stats[i].baseline == r.baseline
    ensures forall i :: 0 <= i < |laws| ==> r.stats[i] == BuildLawDrawPlan(laws[i], bars, mapping, options, toNumber)
  {
    MergedPlan(BuildBaselinePlan(bars, options),
               seq(|laws|, i requires 0 <= i < |laws| => BuildLawDrawPlan(laws[i], bars, mapping, options, toNumber)))
  }

  /** The merged plan keeps repeated laws: two equal laws get two equal
      entries, and each entry is the law's own plan. */
  lemma MergedKeepsDuplicates(laws: seq<Law>, bars: seq<RawBar>, mapping: map<string, MappingEntry>,
                              options: Options, toNumber: string -> Num, i: nat, j: nat)
    requires Returns(bars, options)
    requires i < |laws| && j < |laws| && laws[i] == laws[j]
    ensures var r := BuildMergedPlan(laws, bars, mapping, options, toNumber);
            && r.stats[i] == r.stats[j]
            && r.stats[i] == BuildLawDrawPlan(laws[i], bars, mapping, options, toNumber)
  {
  }
}

=== FILE: laws.dfy ===
/** The law records the core reads, and the mapping entries it derives
    from them. The law catalog itself (src/data/laws.js) is not part of
    this model: every operation takes the laws as a parameter. */
module Laws {
  import opened Prelude

  /** The `type` of a chart-recipe overlay. */
  datatype OverlayKind = PriceLineOverlay | ZoneOverlay | MarkerOverlay | OtherOverlay

  /** `{ type, value | price | from | to, ... }`; the values are resolved by
      `RecipeValues.Resolve` and never counted by the draw-plan builder. */
  datatype RecipeOverlay = RecipeOverlay(kind: OverlayKind)

  /** `chartRecipe: { inputs, overlays }`; a missing or non-array
      `overlays` field is the empty list. */
  datatype Recipe = Recipe(inputs: seq<string>, overlays: seq<RecipeOverlay>)

  /** A law of the catalog; a missing text field is the empty string and a
      missing list the empty list. */
  datatype Law = Law(
    id: string,
    title: string,
    summary: string,
    details: string,
    category: string,
    conditions: seq<string>,
    expectedResults: seq<string>,
    example: string,
    sources: seq<string>,
    chartRecipe: Option<Recipe>,
    chartRecipeSources: string)

  /** `{ mode, attempts, features, reason }` of the law-to-feature map
      (its `references` block is documentation and is not modelled); an
      entry may lack its `features` list. */
  datatype MappingEntry = MappingEntry(mode: string, features: Option<seq<string>>, reason: string, attempts: int)

  /** The overlays of a law's recipe, empty when it has none. */
  function RecipeOverlays(law: Law): seq<RecipeOverlay> {
    if law.chartRecipe.Some? then law.chartRecipe.value.overlays else []
  }
}

=== FILE: laws_page.dfy ===
/** The law register page (src/pages/LawsPage.jsx): filtering by category
    and by a plain substring query, grouping the result under category
    headers, and the colour and label of each category. */
module LawsPage {
  import opened Prelude
  import opened Text
  import opened Laws

  /** The category of every filter button but the first. */
  const Categories: seq<string> := [
    "\U{0645}\U{062F}\U{0631}\U{0633}\U{0629}",
    "\U{0645}\U{0624}\U{0634}\U{0631}",
    "\U{0643}\U{0648}\U{0646}\U{064A}",
    "\U{0630}\U{0643}\U{0627}\U{0621} \U{0627}\U{0635}\U{0637}\U{0646}\U{0627}\U{0639}\U{064A}",
    "\U{0645}\U{0634}\U{062A}\U{0631}\U{0643}",
    "\U{062A}\U{0637}\U{0628}\U{064A}\U{0642}"]

  /** The first filter button, which selects every category. */
  const All: string := "all"

  /** The condition of `filteredLaws`: the selected category or 'all', and
      the query inside the title, the summary or the id. */
  predicate Shown(law: Law, selected: string, query: string) {
    && (selected == All || law.category == selected)
    && (Contains(law.title, query) || Contains(law.summary, query) || Contains(law.id, query))
  }

  /** `filteredLaws`: the catalog's laws that are shown, and only those. */
  function FilteredLaws(laws: seq<Law>, selected: string, query: string): (r: seq<Law>)
    ensures |r| <= |laws|
    ensures forall i :: 0 <= i < |r| ==> r[i] in laws && Shown(r[i], selected, query)
    ensures forall i :: 0 <= i < |laws| && Shown(laws[i], selected, query) ==> laws[i] in r
  {
    var p := (law: Law) => Shown(law, selected, query);
    FilterMembers(laws, p);
    Filter(laws, p)
  }

  /** With 'all' selected and an empty query the whole catalog shows, in
      its own order. */
  lemma {:induction false} FilterNothing(laws: seq<Law>)
    ensures FilteredLaws(laws, All, "") == laws
  {
    forall i | 0 <= i < |laws| ensures Shown(laws[i], All, "") {
      ContainsEmptyAndSelf(laws[i].title);
    }
    FilterAll(laws, (law: Law) => Shown(law, All, ""));
  }

  /** With an empty query only the category decides: the whole category
      shows, in catalog order. */
  lemma {:induction false} EmptyQueryKeepsCategory(laws: seq<Law>, selected: string)
    ensures FilteredLaws(laws, selected, "") == Filter(laws, (law: Law) => selected == All || law.category == selected)
  {
    forall i | 0 <= i < |laws| ensures Contains(laws[i].title, "") {
      ContainsEmptyAndSelf(laws[i].title);
    }
    FilterSame(laws, (law: Law) => Shown(law, selected, ""),
               (law: Law) => selected == All || law.category == selected);
  }

  /** The filter keeps catalog order: the laws shown from the front of the
      catalog come before those shown from the rest. */
  lemma FilteredInOrder(front: seq<Law>, rest: seq<Law>, selected: string, query: string)
    ensures FilteredLaws(front + rest, selected, query)
            == FilteredLaws(front, selected, query) + FilteredLaws(rest, selected, query)
  {
    FilterAppend(front, rest, (law: Law) => Shown(law, selected, query));
  }

  /** A row of the grid. */
  datatype Entry = Header(category: string) | LawItem(law: Law)

  /** The laws of the rows, in order. */
  function LawsOf(es: seq<Entry>): (ls: seq<Law>)
    ensures |ls| <= |es|
  {
    if |es| == 0 then []
    else (if es[0].LawItem? then [es[0].law] else []) + LawsOf(es[1..])
  }

  lemma {:induction false} LawsOfAppend(a: seq<Entry>, b: seq<Entry>)
    ensures LawsOf(a + b) == LawsOf(a) + LawsOf(b)
    decreases |a|
  {
    if |a| > 0 {
      assert (a + b)[1..] == a[1..] + b;
      LawsOfAppend(a[1..], b);
    } else {
      assert a + b == b;
    }
  }

  /** The rows `groupedLaws` pushes for the law at `index`: a header when
      it is the first law or its category differs from the previous law's,
      then the law. */
  function Rows(ls: seq<Law>, index: nat): (es: seq<Entry>)
    requires index < |ls|
  {
    (if index == 0 || ls[index - 1].category != ls[index].category
     then [Header(ls[index].category)] else [])
      + [LawItem(ls[index])]
  }

  /** Rows grouped by category: the grid opens with a header; each header
      is followed by a law of its category; a header after the first comes
      where the category changes; two laws in a row share a category. */
  predicate Grouped(es: seq<Entry>) {
    && (|es| > 0 ==> es[0].Header?)
    && (forall i :: 0 <= i < |es| && es[i].Header? ==>
          i + 1 < |es| && es[i + 1].LawItem? && es[i + 1].law.category == es[i].category)
    && (forall i :: 0 < i < |es| && es[i].Header? ==>
          es[i - 1].LawItem? && es[i - 1].law.category != es[i].category)
    && (forall i :: 0 < i < |es| && es[i].LawItem? && es[i - 1].LawItem? ==>
          es[i - 1].law.category == es[i].law.category)
  }

  /** The rows of a law keep that law, and only it. */
  lemma RowsLaws(ls: seq<Law>, index: nat)
    requires index < |ls|
    ensures LawsOf(Rows(ls, index)) == [ls[index]]
  {
    var rows := Rows(ls, index);
    if |rows| == 2 {
      assert rows[1..] == [LawItem(ls[index])];
    }
  }

  /** Appending the rows of the next law keeps the rows grouped. */
  lemma {:induction false} RowsExtend(ls: seq<Law>, prev: seq<Entry>)
    requires |ls| > 0 && Grouped(prev)
    requires |ls| == 1 ==> prev == []
    requires |ls| > 1 ==> |prev| > 0 && prev[|prev| - 1] == LawItem(ls[|ls| - 2])
    ensures Grouped(prev + Rows(ls, |ls| - 1))
  {
    var n := |ls| - 1;
    var es := prev + Rows(ls, n);
    if n == 0 {
      assert es == [Header(ls[0].category), LawItem(ls[0])];
    } else if ls[n - 1].category != ls[n].category {
      assert es == prev + [Header(ls[n].category), LawItem(ls[n])];
      assert es[|prev| - 1] == LawItem(ls[n - 1]);
    } else {
      assert es == prev + [LawItem(ls[n])];
      assert es[|prev| - 1] == LawItem(ls[n - 1]);
    }
  }

  /** `groupedLaws`, the left fold of `filteredLaws.reduce`: the laws are
      kept in order, and they come grouped under category headers. */
  function GroupedLaws(ls: seq<Law>): (es: seq<Entry>)
    ensures LawsOf(es) == ls
    ensures Grouped(es)
    ensures |ls| > 0 ==> |es| > 0 && es[|es| - 1] == LawItem(ls[|ls| - 1])
    decreases |ls|
  {
    if |ls| == 0 then []
    else
      var init := ls[..|ls| - 1];
      var prev := GroupedLaws(init);
      var rows := Rows(ls, |ls| - 1);
      LawsOfAppend(prev, rows);
      RowsLaws(ls, |ls| - 1);
      RowsExtend(ls, prev);
      assert ls == init + [ls[|ls| - 1]];
      prev + rows
  }

  /** Every law sits under a header of its own category: going back from
      it, the first header names its category. */
  lemma {:induction false} UnderOwnHeader(es: seq<Entry>, i: nat)
    requires Grouped(es) && i < |es| && es[i].LawItem?
    ensures exists j :: 0 <= j < i && es[j] == Header(es[i].law.category)
                        && forall k :: j < k <= i ==> es[k].LawItem?
    decreases i
  {
    assert i > 0;
    if es[i - 1].Header? {
      assert es[i - 1] == Header(es[i].law.category);
    } else {
      UnderOwnHeader(es, i - 1);
      var j :| 0 <= j < i - 1 && es[j] == Header(es[i - 1].law.category)
               && forall k :: j < k <= i - 1 ==> es[k].LawItem?;
      assert es[j] == Header(es[i].law.category);
    }
  }

  /** The shown rows of the page: the filtered laws, grouped, with every
      shown law present. */
  lemma PageRows(laws: seq<Law>, selected: string, query: string)
    ensures var es := GroupedLaws(FilteredLaws(laws, selected, query));
            && Grouped(es)
            && forall i :: 0 <= i < |laws| && Shown(laws[i], selected, query) ==> laws[i] in LawsOf(es)
  {
  }

  const DefaultColor: string := "#6366f1"

  /** The colour of each category's badge, in the order of `Categories`. */
  const Palette: seq<string> := ["#6366f1", "#10b981", "#f97316", "#22c55e", "#a855f7", "#f59e0b"]

  /** The header label of each category, in the order of `Categories`: an
      emoji and the Arabic title. */
  const Titles: seq<string> := [
    "\U{1F4D7} \U{0642}\U{0648}\U{0627}\U{0646}\U{064A}\U{0646} \U{0627}\U{0644}\U{0645}\U{062F}\U{0631}\U{0633}\U{0629}",
    "\U{1F4D8} \U{0642}\U{0648}\U{0627}\U{0646}\U{064A}\U{0646} \U{0627}\U{0644}\U{0645}\U{0624}\U{0634}\U{0631}",
    "\U{1FA90} \U{0642}\U{0648}\U{0627}\U{0646}\U{064A}\U{0646} \U{0627}\U{0644}\U{0646}\U{0638}\U{0627}\U{0645} \U{0627}\U{0644}\U{0643}\U{0648}\U{0646}\U{064A}",
    "\U{1F916} \U{0642}\U{0648}\U{0627}\U{0646}\U{064A}\U{0646} \U{0627}\U{0644}\U{0630}\U{0643}\U{0627}\U{0621} \U{0627}\U{0644}\U{0627}\U{0635}\U{0637}\U{0646}\U{0627}\U{0639}\U{064A}",
    "\U{1F517} \U{0627}\U{0644}\U{0642}\U{0648}\U{0627}\U{0646}\U{064A}\U{0646} \U{0627}\U{0644}\U{0645}\U{0634}\U{062A}\U{0631}\U{0643}\U{0629}",
    "\U{1F9E9} \U{0642}\U{0648}\U{0627}\U{0646}\U{064A}\U{0646} \U{0627}\U{0644}\U{062A}\U{0637}\U{0628}\U{064A}\U{0642}"]

  /** The position of a category in `Categories`, or 6 for any other
      category: the key lookup of the two tables. */
  function CategoryIndex(category: string): (k: nat)
    ensures k <= |Categories|
    ensures k < |Categories| ==> Categories[k] == category
    ensures k == |Categories| <==> category !in Categories
  {
    if category == Categories[0] then 0
    else if category == Categories[1] then 1
    else if category == Categories[2] then 2
    else if category == Categories[3] then 3
    else if category == Categories[4] then 4
    else if category == Categories[5] then 5
    else 6
  }

  /** A CSS colour `#rrggbb`. */
  predicate HexColor(s: string) {
    |s| == 7 && s[0] == '#'
    && forall i :: 1 <= i < 7 ==> ('0' <= s[i] <= '9' || 'a' <= s[i] <= 'f')
  }

  /** `getCategoryColor(category)`: the category's colour, indigo for any
      other category. */
  function CategoryColor(category: string): (c: string)
    ensures category !in Categories ==> c == DefaultColor
    ensures category in Categories ==> c == Palette[CategoryIndex(category)]
  {
    var k := CategoryIndex(category);
    if k < |Palette| then Palette[k] else DefaultColor
  }

  /** `getCategoryLabel(category)`: the category's title, or the category
      itself for any other category. */
  function CategoryLabel(category: string): (l: string)
    ensures category !in Categories ==> l == category
    ensures category in Categories ==> l == Titles[CategoryIndex(category)]
  {
    var k := CategoryIndex(category);
    if k < |Titles| then Titles[k] else category
  }

  /** Every badge colour is a CSS hex colour. */
  lemma ColorsAreHex(category: string)
    ensures HexColor(CategoryColor(category))
  {
    var k := CategoryIndex(category);
    assert HexColor(DefaultColor);
    assert forall i :: 0 <= i < |Palette| ==> HexColor(Palette[i]);
  }

  /** The six categories are distinct, and no two share a colour or a
      label. */
  lemma CategoriesDistinguished(i: nat, j: nat)
    requires i < j < |Categories|
    ensures Categories[i] != Categories[j]
    ensures CategoryColor(Categories[i]) != CategoryColor(Categories[j])
    ensures CategoryLabel(Categories[i]) != CategoryLabel(Categories[j])
  {
    assert Categories[i][0] != Categories[j][0] || Categories[i][1] != Categories[j][1];
    assert CategoryIndex(Categories[i]) == i;
    assert CategoryIndex(Categories[j]) == j;
    assert Palette[i][1] != Palette[j][1] || Palette[i][2] != Palette[j][2];
    assert Titles[i][0] != Titles[j][0];
  }
}

=== FILE: learn_page.dfy ===
/** The step-by-step learning page (src/pages/LearnPage.jsx) as a state
    machine over a non-empty catalog: the position in the catalog, the ids
    marked complete, and the law applied to the chart. The two
    `localStorage` writes of mark-complete are returned as values. */
module LearnPage {
  import opened Prelude
  import opened Laws
  import Progress

  datatype State = State(index: nat, completed: seq<string>, applied: Option<Law>)

  /** What mark-complete writes under 'trading-book-progress'. */
  datatype ProgressRecord = ProgressRecord(completed: nat, total: nat)

  predicate Distinct(ids: seq<string>) {
    forall i, j :: 0 <= i < j < |ids| ==> ids[i] != ids[j]
  }

  /** The states the page can be in: a position inside the catalog and a
      list of completed ids without repeats. */
  predicate Valid(laws: seq<Law>, s: State) {
    s.index < |laws| && Distinct(s.completed)
  }

  /** The first render: the first law, nothing completed, nothing
      applied. */
  function Initial(laws: seq<Law>): (s: State)
    requires |laws| > 0
    ensures Valid(laws, s) && s.index == 0 && s.completed == [] && s.applied.None?
  {
    State(0, [], None)
  }

  /** The mount effect: a saved list replaces the completed ids. The
      stored list is taken as it is, so the state stays valid only when
      that list has no repeats. */
  function Load(s: State, saved: Option<seq<string>>): (r: State)
    ensures saved.None? ==> r == s
    ensures saved.Some? ==> r == s.(completed := saved.value)
    ensures r.index == s.index && r.applied == s.applied
    ensures Distinct(r.completed) <==> (if saved.Some? then Distinct(saved.value) else Distinct(s.completed))
  {
    if saved.Some? then s.(completed := saved.value) else s
  }

  /** `handleNext`: one law on, clearing the applied law, unless at the
      last law. */
  function Next(laws: seq<Law>, s: State): (r: State)
    requires Valid(laws, s)
    ensures Valid(laws, r)
    ensures s.index < |laws| - 1 ==> r == State(s.index + 1, s.completed, None)
    ensures s.index == |laws| - 1 ==> r == s
  {
    if s.index < |laws| - 1 then s.(index := s.index + 1, applied := None) else s
  }

  /** `handlePrevious`: one law back, clearing the applied law, unless at
      the first law. */
  function Previous(laws: seq<Law>, s: State): (r: State)
    requires Valid(laws, s)
    ensures Valid(laws, r)
    ensures s.index > 0 ==> r == State(s.index - 1, s.completed, None)
    ensures s.index == 0 ==> r == s
  {
    if s.index > 0 then s.(index := s.index - 1, applied := None) else s
  }

  /** `handleMarkComplete`: the current law's id is added once; when it is
      added, the new list and a progress record are written. */
  function MarkComplete(laws: seq<Law>, s: State): (r: (State, Option<(seq<string>, ProgressRecord)>))
    requires Valid(laws, s)
    ensures Valid(laws, r.0)
    ensures laws[s.index].id in r.0.completed
    ensures laws[s.index].id in s.completed <==> r.0 == s && r.1.None?
    ensures laws[s.index].id !in s.completed ==>
              r.0.completed == s.completed + [laws[s.index].id] && r.0.index == s.index && r.0.applied == s.applied
    ensures r.1.Some? ==> (r.1.value.0 == r.0.completed
                           && r.1.value.1 == ProgressRecord(|r.0.completed|, |laws|))
  {
    var id := laws[s.index].id;
    if id in s.completed then (s, None)
    else
      var updated := s.completed + [id];
      (s.(completed := updated), Some((updated, ProgressRecord(|updated|, |laws|))))
  }

  /** The list mark-complete writes under 'completed-laws' has no
      repeats, so loading it back on a later visit gives a valid state. */
  lemma WrittenListLoads(laws: seq<Law>, s: State, later: State)
    requires Valid(laws, s) && later.index < |laws|
    requires MarkComplete(laws, s).1.Some?
    ensures Valid(laws, Load(later, Some(MarkComplete(laws, s).1.value.0)))
  {
  }

  /** `handleApplyToChart`: the current law goes to the chart. */
  function Apply(laws: seq<Law>, s: State): (r: State)
    requires Valid(laws, s)
    ensures Valid(laws, r) && r.applied == Some(laws[s.index])
    ensures r.index == s.index && r.completed == s.completed
  {
    s.(applied := Some(laws[s.index]))
  }

  /** The percentage shown: the position counted from 1 over the catalog
      size. */
  function LearnProgress(laws: seq<Law>, s: State): (p: int)
    requires Valid(laws, s)
    ensures 0 <= p <= 100
    ensures s.index == |laws| - 1 ==> p == 100
  {
    Progress.PercentageBounds(s.index + 1, |laws|);
    Progress.Percentage(s.index + 1, |laws|)
  }

  /** Moving on never lowers the percentage shown. */
  lemma NextRaisesProgress(laws: seq<Law>, s: State)
    requires Valid(laws, s)
    ensures LearnProgress(laws, s) <= LearnProgress(laws, Next(laws, s))
  {
    Progress.PercentageMonotone(s.index + 1, Next(laws, s).index + 1, |laws|);
  }

  /** The user actions of the page. */
  datatype Action = NextLaw | PreviousLaw | MarkLaw | ApplyLaw

  function Step(laws: seq<Law>, s: State, a: Action): (r: State)
    requires Valid(laws, s)
    ensures Valid(laws, r)
  {
    match a
    case NextLaw => Next(laws, s)
    case PreviousLaw => Previous(laws, s)
    case MarkLaw => MarkComplete(laws, s).0
    case ApplyLaw => Apply(laws, s)
  }

  function Run(laws: seq<Law>, s: State, actions: seq<Action>): (r: State)
    requires Valid(laws, s)
    ensures Valid(laws, r)
    decreases |actions|
  {
    if |actions| == 0 then s else Run(laws, Step(laws, s, actions[0]), actions[1..])
  }

  /** Whatever the user does, the position stays in the catalog and the
      completed list keeps every id it had, in order, and gains no
      repeats. */
  lemma {:induction false} RunKeepsCompleted(laws: seq<Law>, s: State, actions: seq<Action>)
    requires Valid(laws, s)
    ensures var r := Run(laws, s, actions);
            && r.index < |laws|
            && Distinct(r.completed)
            && |s.completed| <= |r.completed|
            && r.completed[..|s.completed|] == s.completed
    decreases |actions|
  {
    if |actions| > 0 {
      var t := Step(laws, s, actions[0]);
      assert |s.completed| <= |t.completed| && t.completed[..|s.completed|] == s.completed;
      RunKeepsCompleted(laws, t, actions[1..]);
    }
  }
}

=== FILE: levels.dfy ===
/** Fibonacci levels of a unit (`styleForRatio`, `computeFibLevels` and
    the level lists in src/lib/indicator/model.js). */
module Levels {

  datatype LineStyle = Solid | Dashed | Dotted

  /** `{ lineStyle, lineWidth }` */
  datatype Style = Style(lineStyle: LineStyle, lineWidth: nat)

  /** `{ ratio, price, lineStyle, lineWidth }` */
  datatype Level = Level(ratio: real, price: real, lineStyle: LineStyle, lineWidth: nat)

  /** `DEFAULT_FIB_LEVELS` */
  const DefaultFibLevels: seq<real> :=
    [0.0, 0.236, 0.382, 0.5, 0.618, 0.764, 1.0, 1.236, 1.382, -0.236, -0.382]

  /** The ratios drawn for the higher-timeframe unit. */
  const HtfFibLevels: seq<real> := [0.0, 0.236, 0.382, 0.5, 0.618, 0.764, 1.0]

  function Abs(x: real): real {
    if x < 0.0 then -x else x
  }

  /** Solid for the range ends, dashed for the 0.236 and 0.764 family,
      dotted for everything else. */
  function StyleForRatio(ratio: real): (s: Style)
    ensures s.lineWidth == 2 <==> s.lineStyle != Dotted
    ensures s.lineWidth == 1 <==> s.lineStyle == Dotted
  {
    if ratio == 0.0 || ratio == 1.0 then Style(Solid, 2)
    else if Abs(ratio) == 0.236 || Abs(ratio) == 0.764 then Style(Dashed, 2)
    else Style(Dotted, 1)
  }

  /** The styles of the default level list, in order. */
  lemma DefaultStyles()
    ensures forall i :: 0 <= i < |DefaultFibLevels| ==>
              StyleForRatio(DefaultFibLevels[i]).lineStyle
              == [Solid, Dashed, Dotted, Dotted, Dotted, Dashed, Solid, Dotted, Dotted, Dashed, Dotted][i]
  {
  }

  /** `computeFibLevels(low, high, levels)`: nothing for an empty or
      inverted range; otherwise one level per ratio, in order, whose price
      sits at that fraction of the range above `low`. */
  function FibLevels(low: real, high: real, levels: seq<real>): (r: seq<Level>)
    ensures high - low <= 0.0 ==> r == []
    ensures high - low > 0.0 ==> |r| == |levels|
    ensures forall i :: 0 <= i < |r| ==>
              && r[i].ratio == levels[i]
              && Style(r[i].lineStyle, r[i].lineWidth) == StyleForRatio(levels[i])
              && (r[i].price - low) / (high - low) == levels[i]
  {
    var diff := high - low;
    if diff <= 0.0 then []
    else
      seq(|levels|, i requires 0 <= i < |levels| =>
        var s := StyleForRatio(levels[i]);
        Level(levels[i], low + diff * levels[i], s.lineStyle, s.lineWidth))
  }

  /** Prices follow ratios: a larger ratio is a higher price. */
  lemma FibLevelsOrdered(low: real, high: real, levels: seq<real>, i: nat, j: nat)
    requires high - low > 0.0
    requires i < |levels| && j < |levels|
    ensures levels[i] < levels[j] <==> FibLevels(low, high, levels)[i].price < FibLevels(low, high, levels)[j].price
  {
    var r := FibLevels(low, high, levels);
    var d := high - low;
    Unscale(r[i].price, low, d, levels[i]);
    Unscale(r[j].price, low, d, levels[j]);
    ScaleMonotone(d, levels[i], levels[j]);
    ScaleMonotone(d, levels[j], levels[i]);
  }

  /** Ratio 0 is the low, ratio 1 the high, and a level lies within the
      range exactly when its ratio lies within [0, 1]. */
  lemma FibLevelsWithinRange(low: real, high: real, levels: seq<real>, i: nat)
    requires high - low > 0.0
    requires i < |levels|
    ensures levels[i] == 0.0 ==> FibLevels(low, high, levels)[i].price == low
    ensures levels[i] == 1.0 ==> FibLevels(low, high, levels)[i].price == high
    ensures low <= FibLevels(low, high, levels)[i].price <= high <==> 0.0 <= levels[i] <= 1.0
  {
    var r := FibLevels(low, high, levels);
    var d := high - low;
    var x := levels[i];
    Unscale(r[i].price, low, d, x);
    ScaleMonotone(d, 0.0, x);
    ScaleMonotone(d, x, 0.0);
    ScaleMonotone(d, x, 1.0);
    ScaleMonotone(d, 1.0, x);
  }

  lemma Unscale(p: real, low: real, d: real, x: real)
    requires d > 0.0 && (p - low) / d == x
    ensures p == low + d * x
  {
  }

  lemma ScaleMonotone(d: real, x: real, y: real)
    requires d > 0.0
    ensures x < y ==> d * x < d * y
    ensures x == y ==> d * x == d * y
    ensures d * 0.0 == 0.0 && d * 1.0 == d
  {
  }
}

=== FILE: market_service.dfy ===
/** The market-data service (src/services/marketData/index.js): the
    provider table and the fallback that picks a provider for an id. The
    providers themselves talk to the network and are left abstract; a
    provider is known here only by which of the three it is. */
module MarketService {

  datatype Provider = TwelveData | Binance | Csv

  /** The `providers` object: its own keys and what each names. */
  const Providers: map<string, Provider> :=
    map["twelvedata" := TwelveData, "binance" := Binance, "csv" := Csv]

  /** `getProvider(providerId)`: the provider registered under the id, or
      twelvedata for any other id. */
  function GetProvider(providerId: string): (p: Provider)
    ensures providerId in Providers ==> p == Providers[providerId]
    ensures providerId !in Providers ==> p == TwelveData
  {
    if providerId in Providers then Providers[providerId] else Providers["twelvedata"]
  }

  /** What `fetchCandles` forwards to the provider it picked: every field
      of the request except the provider id. */
  datatype CandleRequest = CandleRequest(providerId: string, symbol: string, interval: string, limit: int, apiKey: string)
  datatype CandleQuery = CandleQuery(symbol: string, interval: string, limit: int, apiKey: string)

  function QueryOf(req: CandleRequest): CandleQuery {
    CandleQuery(req.symbol, req.interval, req.limit, req.apiKey)
  }

  /** `fetchCandles(req)`: the answer of the chosen provider to the query.
      `fetch` stands for the providers' own `fetchCandles`. */
  function FetchCandles<R>(req: CandleRequest, fetch: (Provider, CandleQuery) -> R): (r: R)
    ensures r == fetch(GetProvider(req.providerId), CandleQuery(req.symbol, req.interval, req.limit, req.apiKey))
  {
    var provider := if req.providerId in Providers then Providers[req.providerId] else Providers["twelvedata"];
    fetch(provider, QueryOf(req))
  }

  /** Twelvedata is chosen exactly for its own id and for every id that
      names no provider; each other provider only for its own id. */
  lemma ProviderChoice(providerId: string)
    ensures GetProvider(providerId) == TwelveData <==> providerId != "binance" && providerId != "csv"
    ensures GetProvider(providerId) == Binance <==> providerId == "binance"
    ensures GetProvider(providerId) == Csv <==> providerId == "csv"
  {
    assert Providers.Keys == {"twelvedata", "binance", "csv"};
  }

  /** Two requests that differ only in the provider id, both naming no
      provider, get the same answer. */
  lemma UnknownIdsAgree<R>(req: CandleRequest, other: string, fetch: (Provider, CandleQuery) -> R)
    requires req.providerId !in Providers && other !in Providers
    ensures FetchCandles(req.(providerId := other), fetch) == FetchCandles(req, fetch)
            == FetchCandles(req.(providerId := "twelvedata"), fetch)
  {
  }
}

=== FILE: ohlcv.dfy ===
/** Bar normalisation (src/lib/ohlcv/normalizeBars.js): raw provider
    records become a canonical, strictly time-ascending bar series. */
module Ohlcv {
  import opened Prelude
  import opened StableSort

  /** A record as it reaches `normalizeBars`: `time` is the record's own
      field, the prices are what `Number(...)` made of its fields. `time` is
      not converted, so a `time` that is not a JavaScript number (a numeric
      string such as "1700000000" included) is passed as `NaN`, and the
      record is dropped. */
  datatype RawBar = RawBar(time: Num, open: Num, high: Num, low: Num, close: Num)

  /** A canonical bar: every field finite, `time` in seconds. */
  datatype Bar = Bar(time: real, open: real, high: real, low: real, close: real)

  /** The argument of `normalizeBars`, which may be something other than an array. */
  datatype BarsInput = NotArray | Records(items: seq<RawBar>)

  /** `{ bars, error }`; `error` is `null` on success. */
  datatype Normalized = Normalized(bars: seq<Bar>, error: Option<string>)

  const BarsNotArray: string := "Bars not array"
  const NotEnoughValidBars: string := "Not enough valid bars"

  /** Times above this are read as milliseconds. */
  const MillisecondThreshold: real := 1000000000000.0

  function TimeOf(b: Bar): real { b.time }

  /** The highs of a list of bars, in order. */
  function Highs(s: seq<Bar>): (hs: seq<real>)
    ensures |hs| == |s|
    ensures forall i :: 0 <= i < |s| ==> hs[i] == s[i].high
  {
    seq(|s|, i requires 0 <= i < |s| => s[i].high)
  }

  /** The lows of a list of bars, in order. */
  function Lows(s: seq<Bar>): (ls: seq<real>)
    ensures |ls| == |s|
    ensures forall i :: 0 <= i < |s| ==> ls[i] == s[i].low
  {
    seq(|s|, i requires 0 <= i < |s| => s[i].low)
  }

  predicate StrictlyIncreasing(bars: seq<Bar>) {
    forall i, j :: 0 <= i < j < |bars| ==> bars[i].time < bars[j].time
  }

  /** A finite time above 1e12 is taken as milliseconds and floored to seconds. */
  function CoerceTime(t: Num): Num {
    if t.Finite? && t.v > MillisecondThreshold then Finite((t.v / 1000.0).Floor as real) else t
  }

  /** A millisecond time becomes the whole number of seconds it falls in;
      every other time is left alone. */
  lemma CoerceTimeMeaning(t: Num)
    ensures t.Finite? && t.v > MillisecondThreshold ==>
              && CoerceTime(t).Finite?
              && CoerceTime(t).v == CoerceTime(t).v.Floor as real
              && CoerceTime(t).v * 1000.0 <= t.v < (CoerceTime(t).v + 1.0) * 1000.0
    ensures !(t.Finite? && t.v > MillisecondThreshold) ==> CoerceTime(t) == t
  {
  }

  /** One loop iteration: the record's bar, or nothing when any field is not finite. */
  function Coerce(raw: RawBar): (r: Option<Bar>)
    ensures r.Some? <==> CoerceTime(raw.time).Finite? && raw.open.Finite? && raw.high.Finite?
                         && raw.low.Finite? && raw.close.Finite?
    ensures r.Some? ==> r.value.open == raw.open.v && r.value.high == raw.high.v
                        && r.value.low == raw.low.v && r.value.close == raw.close.v
  {
    var time := CoerceTime(raw.time);
    if time.Finite? && raw.open.Finite? && raw.high.Finite? && raw.low.Finite? && raw.close.Finite?
    then Some(Bar(time.v, raw.open.v, raw.high.v, raw.low.v, raw.close.v))
    else None
  }

  /** The first loop: the valid records, coerced, in input order. */
  function Collect(items: seq<RawBar>): (bars: seq<Bar>)
    ensures |bars| <= |items|
    ensures forall b :: b in bars ==> exists i :: 0 <= i < |items| && Coerce(items[i]) == Some(b)
    ensures forall i :: 0 <= i < |items| && Coerce(items[i]).Some? ==> Coerce(items[i]).value in bars
  {
    if |items| == 0 then []
    else
      var rest := Collect(items[1..]);
      assert forall b :: b in rest ==> exists i :: 1 <= i < |items| && Coerce(items[i]) == Some(b) by {
        forall b | b in rest ensures exists i :: 1 <= i < |items| && Coerce(items[i]) == Some(b) {
          var j :| 0 <= j < |items[1..]| && Coerce(items[1..][j]) == Some(b);
          assert Coerce(items[j + 1]) == Some(b);
        }
      }
      match Coerce(items[0])
      case Some(b) => [b] + rest
      case None => rest
  }

  /** The second loop over a time-sorted list: a bar whose time equals the
      last kept bar's time replaces it, any other bar is appended. */
  function Dedup(s: seq<Bar>): (d: seq<Bar>)
    ensures |d| <= |s|
    ensures |d| == 0 <==> |s| == 0
    ensures |s| > 0 ==> d[|d| - 1] == s[|s| - 1]
    ensures forall b :: b in d ==> b in s
    ensures SortedBy(s, TimeOf) ==> StrictlyIncreasing(d)
  {
    if |s| == 0 then []
    else
      var d := Dedup(s[..|s| - 1]);
      var b := s[|s| - 1];
      assert forall x :: x in s[..|s| - 1] ==> x in s;
      if |d| > 0 && d[|d| - 1].time == b.time then
        ReplaceLastStrict(d, b);
        d[..|d| - 1] + [b]
      else
        assert SortedBy(s, TimeOf) && |d| > 0 ==> d[|d| - 1].time < b.time by {
          if SortedBy(s, TimeOf) && |d| > 0 {
            assert d[|d| - 1] == s[|s| - 2];
            assert TimeOf(s[|s| - 2]) <= TimeOf(s[|s| - 1]);
          }
        }
        AppendStrict(d, b);
        d + [b]
  }

  /** Replacing the last bar by one of the same time keeps the times
      strictly increasing. */
  lemma ReplaceLastStrict(d: seq<Bar>, b: Bar)
    requires |d| > 0 && d[|d| - 1].time == b.time
    ensures StrictlyIncreasing(d) ==> StrictlyIncreasing(d[..|d| - 1] + [b])
  {
    var r := d[..|d| - 1] + [b];
    if StrictlyIncreasing(d) {
      forall i, j | 0 <= i < j < |r| ensures r[i].time < r[j].time {
        assert r[i] == d[i];
        if j < |r| - 1 {
          assert r[j] == d[j];
        }
      }
    }
  }

  /** Appending a bar later than the last keeps the times strictly
      increasing. */
  lemma AppendStrict(d: seq<Bar>, b: Bar)
    ensures StrictlyIncreasing(d) && (|d| > 0 ==> d[|d| - 1].time < b.time) ==> StrictlyIncreasing(d + [b])
  {
    var r := d + [b];
    if StrictlyIncreasing(d) && (|d| > 0 ==> d[|d| - 1].time < b.time) {
      forall i, j | 0 <= i < j < |r| ensures r[i].time < r[j].time {
        assert r[i] == d[i];
        if j < |r| - 1 {
          assert r[j] == d[j];
        } else if i < |d| - 1 {
          assert d[i].time < d[|d| - 1].time;
        }
      }
    }
  }

  /** The bars that passed the first loop, sorted and de-duplicated. */
  function Deduped(items: seq<RawBar>): seq<Bar> {
    Dedup(Sort(Collect(items), TimeOf))
  }

  /** `normalizeBars(input)` */
  function Normalize(input: BarsInput): (r: Normalized)
    ensures input.NotArray? ==> r == Normalized([], Some(BarsNotArray))
    ensures input.Records? ==> (r.error.None? <==> |Deduped(input.items)| >= 2)
    ensures input.Records? && r.error.Some? ==> r == Normalized([], Some(NotEnoughValidBars))
    ensures r.error.None? ==> |r.bars| >= 2 && StrictlyIncreasing(r.bars)
    ensures input.Records? ==> |r.bars| <= |input.items|
    ensures forall b :: b in r.bars ==>
              exists i :: 0 <= i < |input.items| && Coerce(input.items[i]) == Some(b)
  {
    match input
    case NotArray => Normalized([], Some(BarsNotArray))
    case Records(items) =>
      var collected := Collect(items);
      var sorted := Sort(collected, TimeOf);
      var deduped := Dedup(sorted);
      assert forall b :: b in sorted ==> b in collected by {
        forall b | b in sorted ensures b in collected {
          assert b in multiset(sorted);
        }
      }
      if |deduped| < 2 then Normalized([], Some(NotEnoughValidBars))
      else Normalized(deduped, None)
  }

  /** The last bar of `s` carrying time `t`, if any. */
  function LastWithTime(s: seq<Bar>, t: real): Option<Bar> {
    var w := WithKey(s, TimeOf, t);
    if |w| == 0 then None else Some(w[|w| - 1])
  }

  lemma LastWithTimeSnoc(s: seq<Bar>, b: Bar, t: real)
    ensures LastWithTime(s + [b], t) == if b.time == t then Some(b) else LastWithTime(s, t)
  {
    FilterAppend(s, [b], KeyIs(TimeOf, t));
    WithKeySingle(b, TimeOf, t);
  }

  /** Over a time-sorted list, each bar `Dedup` keeps is the last one with its time. */
  lemma {:induction false} DedupKeepsLast(s: seq<Bar>)
    requires SortedBy(s, TimeOf)
    ensures forall i :: 0 <= i < |Dedup(s)| ==> LastWithTime(s, Dedup(s)[i].time) == Some(Dedup(s)[i])
  {
    if |s| > 0 {
      var init := s[..|s| - 1];
      var b := s[|s| - 1];
      assert s == init + [b];
      DedupKeepsLast(init);
      var d := Dedup(init);
      forall i | 0 <= i < |Dedup(s)|
        ensures LastWithTime(s, Dedup(s)[i].time) == Some(Dedup(s)[i])
      {
        var x := Dedup(s)[i];
        LastWithTimeSnoc(init, b, x.time);
        if x != b {
          assert x in d && x.time != b.time by {
            if |d| > 0 && d[|d| - 1].time == b.time {
              assert x == d[i];
              assert d[i].time < d[|d| - 1].time;
            } else {
              assert x == d[i];
              assert d[i].time <= d[|d| - 1].time;
              assert d[|d| - 1] == init[|init| - 1];
              assert TimeOf(init[|init| - 1]) <= TimeOf(b);
            }
          }
        }
      }
    }
  }

  /** Some bar of `bars` has time `t`. */
  predicate HasTime(bars: seq<Bar>, t: real) {
    exists j :: 0 <= j < |bars| && bars[j].time == t
  }

  /** Over a time-sorted list, every time present survives `Dedup`. */
  lemma {:induction false} DedupKeepsEveryTime(s: seq<Bar>)
    requires SortedBy(s, TimeOf)
    ensures forall i :: 0 <= i < |s| ==> HasTime(Dedup(s), s[i].time)
  {
    if |s| > 0 {
      var init := s[..|s| - 1];
      var b := s[|s| - 1];
      DedupKeepsEveryTime(init);
      var d := Dedup(init);
      var ds := Dedup(s);
      forall i | 0 <= i < |s|
        ensures HasTime(ds, s[i].time)
      {
        if i == |s| - 1 {
          assert ds[|ds| - 1] == b;
        } else {
          assert s[i] == init[i];
          assert HasTime(d, init[i].time);
          var j :| 0 <= j < |d| && d[j].time == init[i].time;
          if |d| > 0 && d[|d| - 1].time == b.time && j == |d| - 1 {
            assert ds[|ds| - 1].time == s[i].time;
          } else {
            assert ds[j] == d[j];
          }
        }
      }
    }
  }

  /** Last write wins: among the valid records sharing a time, the output
      keeps the one latest in input order (stable sort, then overwrite). */
  lemma NormalizeLastWriteWins(items: seq<RawBar>)
    ensures var r := Normalize(Records(items));
            forall i :: 0 <= i < |r.bars| ==> LastWithTime(Collect(items), r.bars[i].time) == Some(r.bars[i])
  {
    var r := Normalize(Records(items));
    var collected := Collect(items);
    var sorted := Sort(collected, TimeOf);
    NormalizedBars(items);
    if r.error.None? {
      DedupKeepsLast(sorted);
      forall i | 0 <= i < |r.bars|
        ensures LastWithTime(collected, r.bars[i].time) == Some(r.bars[i])
      {
        LastWithTimeSorted(collected, r.bars[i].time);
      }
    }
  }

  /** Sorting keeps the last bar of each time. */
  lemma LastWithTimeSorted(s: seq<Bar>, t: real)
    ensures LastWithTime(Sort(s, TimeOf), t) == LastWithTime(s, t)
  {
    SortStable(s, TimeOf, t);
  }

  /** The bars of a successful normalisation are the deduplicated ones, and
      a failed one has none. */
  lemma NormalizedBars(items: seq<RawBar>)
    ensures var r := Normalize(Records(items));
            r.bars == if r.error.None? then Deduped(items) else []
  {
  }

  /** Nothing valid is lost: when normalisation succeeds, every valid
      record's time is the time of some output bar. */
  lemma NormalizeKeepsEveryTime(items: seq<RawBar>)
    ensures var r := Normalize(Records(items));
            r.error.None? ==>
              forall i :: 0 <= i < |items| && Coerce(items[i]).Some? ==>
                HasTime(r.bars, Coerce(items[i]).value.time)
  {
    var collected := Collect(items);
    var sorted := Sort(collected, TimeOf);
    DedupKeepsEveryTime(sorted);
    forall i | 0 <= i < |items| && Coerce(items[i]).Some?
      ensures exists k :: 0 <= k < |sorted| && sorted[k] == Coerce(items[i]).value
    {
      var b := Coerce(items[i]).value;
      assert b in multiset(collected);
      assert b in sorted;
    }
  }

  /** Empty input is an error, not an empty success. */
  lemma NormalizeEmpty()
    ensures Normalize(Records([])) == Normalized([], Some(NotEnoughValidBars))
  {
  }
}

=== FILE: overlay_registry.dfy ===
/** The per-law overlay registry (`createOverlayRegistry` in
    src/lib/chart/overlayRegistry.js): a JavaScript `Map`, kept in insertion
    order, from a law id to the price lines, markers and HTML bands drawn
    for it. The registry's state is a value and every method a function
    from the old state to the new one. */
module OverlayRegistry {
  import opened Prelude

  /** The chart objects the registry holds, by identity. */
  datatype PriceLineRef = PriceLineRef(handle: nat)
  datatype MarkerRef = MarkerRef(handle: nat)

  /** A band element; `hidden` when its `style.display` is 'none'. */
  datatype BandRef = BandRef(handle: nat, hidden: bool)

  /** `{ priceLines, markers, htmlBands }` */
  datatype Entry = Entry(priceLines: seq<PriceLineRef>, markers: seq<MarkerRef>, htmlBands: seq<BandRef>)

  const EmptyEntry := Entry([], [], [])

  /** One key of the map with its value. */
  datatype Slot = Slot(lawId: string, entry: Entry)

  /** The map as its entries in insertion order. */
  type Registry = seq<Slot>

  /** A map holds each key once. */
  predicate Valid(r: Registry) {
    forall i, j :: 0 <= i < j < |r| ==> r[i].lawId != r[j].lawId
  }

  /** Where `id` sits, or `|r|` when it is absent. */
  function Find(r: Registry, id: string): (k: nat)
    ensures k <= |r|
    ensures k < |r| ==> r[k].lawId == id
    ensures forall i :: 0 <= i < k ==> r[i].lawId != id
  {
    if |r| == 0 then 0
    else if r[0].lawId == id then 0
    else 1 + Find(r[1..], id)
  }

  /** `has(lawId)` */
  predicate Has(r: Registry, id: string) {
    Find(r, id) < |r|
  }

  lemma HasMeaning(r: Registry, id: string)
    ensures Has(r, id) <==> exists i :: 0 <= i < |r| && r[i].lawId == id
  {
  }

  /** `state.get(lawId)` */
  function Get(r: Registry, id: string): (e: Option<Entry>)
    ensures e.Some? <==> Has(r, id)
  {
    var k := Find(r, id);
    if k < |r| then Some(r[k].entry) else None
  }

  /** The entry of `id`, a fresh empty one when absent (`ensure`). */
  function EntryOf(r: Registry, id: string): Entry {
    var k := Find(r, id);
    if k < |r| then r[k].entry else EmptyEntry
  }

  /** `size()` */
  function Size(r: Registry): nat {
    |r|
  }

  /** The keys of the map. */
  function Ids(r: Registry): (ids: set<string>)
    ensures forall i :: 0 <= i < |r| ==> r[i].lawId in ids
    ensures forall id :: id in ids ==> Has(r, id)
  {
    if |r| == 0 then {} else {r[0].lawId} + Ids(r[1..])
  }

  /** In a map, the size is the number of distinct keys. */
  lemma {:induction false} SizeCountsIds(r: Registry)
    requires Valid(r)
    ensures |Ids(r)| == Size(r)
  {
    if |r| > 0 {
      SizeCountsIds(r[1..]);
    }
  }

  /** `state.set(lawId, e)`: an existing key keeps its place, a new key goes
      last; no other key changes. */
  function Put(r: Registry, id: string, e: Entry): (r': Registry)
    requires Valid(r)
    ensures Valid(r')
    ensures Get(r', id) == Some(e)
    ensures forall other :: other != id ==> Get(r', other) == Get(r, other)
    ensures Has(r, id) ==> |r'| == |r| && forall i :: 0 <= i < |r| ==> r'[i].lawId == r[i].lawId
    ensures !Has(r, id) ==> r' == r + [Slot(id, e)]
  {
    var k := Find(r, id);
    if k < |r| then
      var r' := r[k := Slot(id, e)];
      assert forall other :: Find(r', other) == Find(r, other) by {
        forall other ensures Find(r', other) == Find(r, other) {
          FindSameKeys(r, r', other);
        }
      }
      r'
    else
      var r' := r + [Slot(id, e)];
      FindNew(r, Slot(id, e));
      assert forall other :: other != id ==> Get(r', other) == Get(r, other) by {
        forall other | other != id ensures Get(r', other) == Get(r, other) {
          FindExtended(r, Slot(id, e), other);
        }
      }
      r'
  }

  /** Lookup sees only the keys. */
  lemma {:induction false} FindSameKeys(r: Registry, s: Registry, id: string)
    requires |r| == |s|
    requires forall i :: 0 <= i < |r| ==> r[i].lawId == s[i].lawId
    ensures Find(r, id) == Find(s, id)
  {
    if |r| > 0 && r[0].lawId != id {
      FindSameKeys(r[1..], s[1..], id);
    }
  }

  lemma {:induction false} FindExtended(r: Registry, x: Slot, id: string)
    requires x.lawId != id
    ensures Find(r + [x], id) == Find(r, id) || (Find(r, id) == |r| && Find(r + [x], id) == |r| + 1)
    ensures Find(r, id) < |r| ==> Find(r + [x], id) == Find(r, id)
    ensures Find(r, id) == |r| ==> Find(r + [x], id) == |r| + 1
  {
    if |r| > 0 && r[0].lawId != id {
      assert (r + [x])[1..] == r[1..] + [x];
      FindExtended(r[1..], x, id);
    }
  }

  lemma {:induction false} FindNew(r: Registry, x: Slot)
    requires Find(r, x.lawId) == |r|
    ensures Find(r + [x], x.lawId) == |r|
  {
    if |r| > 0 {
      assert (r + [x])[1..] == r[1..] + [x];
      FindNew(r[1..], x);
    }
  }

  /** `addPriceLine(lawId, line)` */
  function AddPriceLine(r: Registry, id: string, line: PriceLineRef): (r': Registry)
    requires Valid(r)
    ensures Valid(r') && Has(r', id)
    ensures var e := EntryOf(r, id);
            Get(r', id) == Some(e.(priceLines := e.priceLines + [line]))
    ensures forall other :: other != id ==> Get(r', other) == Get(r, other)
  {
    var e := EntryOf(r, id);
    Put(r, id, e.(priceLines := e.priceLines + [line]))
  }

  /** `addMarker(lawId, marker)` */
  function AddMarker(r: Registry, id: string, marker: MarkerRef): (r': Registry)
    requires Valid(r)
    ensures Valid(r') && Has(r', id)
    ensures var e := EntryOf(r, id);
            Get(r', id) == Some(e.(markers := e.markers + [marker]))
    ensures forall other :: other != id ==> Get(r', other) == Get(r, other)
  {
    var e := EntryOf(r, id);
    Put(r, id, e.(markers := e.markers + [marker]))
  }

  /** `addHtmlBand(lawId, band)` */
  function AddHtmlBand(r: Registry, id: string, band: BandRef): (r': Registry)
    requires Valid(r)
    ensures Valid(r') && Has(r', id)
    ensures var e := EntryOf(r, id);
            Get(r', id) == Some(e.(htmlBands := e.htmlBands + [band]))
    ensures forall other :: other != id ==> Get(r', other) == Get(r, other)
  {
    var e := EntryOf(r, id);
    Put(r, id, e.(htmlBands := e.htmlBands + [band]))
  }

  /** The optional removal handlers: `removePriceLine` and `hideBand` are
      called only when the caller supplies them. */
  datatype Handlers = Handlers(canRemovePriceLine: bool, canHideBand: bool)

  /** A handler call made while clearing. No variant carries a marker:
      markers are dropped without a handler. */
  datatype Call = RemovePriceLine(line: PriceLineRef) | HideBand(band: BandRef)

  function RemoveCalls(lines: seq<PriceLineRef>): (cs: seq<Call>)
    ensures |cs| == |lines|
    ensures forall i :: 0 <= i < |lines| ==> cs[i] == RemovePriceLine(lines[i])
  {
    if |lines| == 0 then [] else [RemovePriceLine(lines[0])] + RemoveCalls(lines[1..])
  }

  function HideCalls(bands: seq<BandRef>): (cs: seq<Call>)
    ensures |cs| == |bands|
    ensures forall i :: 0 <= i < |bands| ==> cs[i] == HideBand(bands[i])
  {
    if |bands| == 0 then [] else [HideBand(bands[0])] + HideCalls(bands[1..])
  }

  /** The calls clearing one entry makes: every line, then every band, in
      the order they were added. */
  function EntryCalls(e: Entry, h: Handlers): (cs: seq<Call>)
    ensures |cs| == (if h.canRemovePriceLine then |e.priceLines| else 0)
                   + (if h.canHideBand then |e.htmlBands| else 0)
  {
    (if h.canRemovePriceLine then RemoveCalls(e.priceLines) else [])
    + (if h.canHideBand then HideCalls(e.htmlBands) else [])
  }

  /** The `handlers` argument of `clearLaw` and `clearAll`. `?.` guards only
      the method, so `None` stands for a `handlers` that is `undefined` or
      `null` (the argument left out): reading a method off it throws a
      TypeError. Any other value acts as an object, a primitive as one with
      neither method. */
  type HandlersArg = Option<Handlers>

  /** Clearing the entry reads a handler: it holds a line or a band. */
  predicate HasShapes(e: Entry) {
    |e.priceLines| > 0 || |e.htmlBands| > 0
  }

  /** Clearing `e` throws before its first handler call. */
  predicate Throws(e: Entry, h: HandlersArg) {
    h.None? && HasShapes(e)
  }

  /** The calls clearing `e` makes when it does not throw. */
  function CallsOf(e: Entry, h: HandlersArg): (cs: seq<Call>)
    ensures h.None? ==> cs == []
  {
    if h.Some? then EntryCalls(e, h.value) else []
  }

  /** The state after a clear, with the handler calls it made in order, and
      whether it ended by throwing. */
  datatype Cleared = Cleared(registry: Registry, calls: seq<Call>, threw: bool)

  /** `state.delete(lawId)` for the key at `k`. */
  function RemoveAt(r: Registry, k: nat): (r': Registry)
    requires Valid(r) && k < |r|
    ensures Valid(r') && |r'| == |r| - 1
    ensures !Has(r', r[k].lawId)
    ensures forall other :: other != r[k].lawId ==> Get(r', other) == Get(r, other)
  {
    var r' := r[..k] + r[k + 1..];
    assert forall other :: other != r[k].lawId ==> Get(r', other) == Get(r, other) by {
      forall other | other != r[k].lawId ensures Get(r', other) == Get(r, other) {
        RemoveAtFind(r, k, other);
      }
    }
    RemoveAtFind(r, k, r[k].lawId);
    r'
  }

  lemma RemoveAtFind(r: Registry, k: nat, id: string)
    requires Valid(r) && k < |r|
    ensures var r' := r[..k] + r[k + 1..];
            && (id != r[k].lawId ==> Get(r', id) == Get(r, id))
            && (id == r[k].lawId ==> !Has(r', id))
  {
    var r' := r[..k] + r[k + 1..];
    var j := Find(r, id);
    var j' := Find(r', id);
    if j' < |r'| {
      if j' < k {
        assert r'[j'] == r[j'];
      } else {
        assert r'[j'] == r[j' + 1];
      }
    }
    if j < |r| && j != k {
      if j < k {
        assert r'[j] == r[j];
      } else {
        assert r'[j - 1] == r[j];
      }
    }
  }

  /** `clearLaw(lawId, handlers)`: an absent id changes nothing and calls
      nothing. A present one has its lines and then its bands passed to the
      handlers and is then deleted, leaving every other law as it was;
      without a handlers object, an entry with a line or a band throws
      before any call and stays. */
  function ClearLaw(r: Registry, id: string, h: HandlersArg): (c: Cleared)
    requires Valid(r)
    ensures Valid(c.registry)
    ensures !Has(r, id) ==> c == Cleared(r, [], false)
    ensures c.threw <==> Has(r, id) && Throws(EntryOf(r, id), h)
    ensures c.threw ==> c.registry == r && c.calls == []
    ensures Has(r, id) && !c.threw ==>
              c.calls == CallsOf(EntryOf(r, id), h) && Size(c.registry) == Size(r) - 1
    ensures !c.threw ==> !Has(c.registry, id)
    ensures forall other :: other != id ==> Get(c.registry, other) == Get(r, other)
  {
    var k := Find(r, id);
    if k < |r| then
      if Throws(r[k].entry, h) then Cleared(r, [], true)
      else Cleared(RemoveAt(r, k), CallsOf(r[k].entry, h), false)
    else Cleared(r, [], false)
  }

  /** The calls clearing every entry makes, entry by entry. */
  function AllCalls(r: Registry, h: Handlers): seq<Call> {
    if |r| == 0 then [] else EntryCalls(r[0].entry, h) + AllCalls(r[1..], h)
  }

  /** Where clearing every entry stops: the first entry whose clearing
      throws, or `|r|` when none does. */
  function StopAt(r: Registry, h: HandlersArg): (k: nat)
    ensures k <= |r|
    ensures k < |r| ==> Throws(r[k].entry, h)
    ensures forall i :: 0 <= i < k ==> !Throws(r[i].entry, h)
    ensures h.Some? ==> k == |r|
  {
    if |r| == 0 then 0
    else if Throws(r[0].entry, h) then 0
    else 1 + StopAt(r[1..], h)
  }

  /** `clearAll(handlers)`: the entries are cleared in insertion order. With
      a handlers object the registry ends empty; without one, the leading
      entries with no line and no band are deleted and the first entry with
      one throws, leaving it and every later entry in place. */
  function ClearAll(r: Registry, h: HandlersArg): (c: Cleared)
    requires Valid(r)
    ensures Valid(c.registry)
    ensures c.threw <==> StopAt(r, h) < |r|
    ensures c.registry == r[StopAt(r, h)..]
    ensures !c.threw ==> Size(c.registry) == 0 && forall id :: !Has(c.registry, id)
    ensures h.Some? ==> c.calls == AllCalls(r, h.value)
    ensures h.None? ==> c.calls == []
    ensures r == [] ==> c == Cleared([], [], false)
  {
    if |r| == 0 then Cleared([], [], false)
    else if Throws(r[0].entry, h) then Cleared(r, [], true)
    else
      var rest := ClearAll(r[1..], h);
      assert r[1..][StopAt(r[1..], h)..] == r[StopAt(r, h)..];
      Cleared(rest.registry, CallsOf(r[0].entry, h) + rest.calls, rest.threw)
  }

  /** Clearing again calls no handler and ends the same way: empty after a
      clear that finished, at the same entry after one that threw. */
  lemma ClearAllIdempotent(r: Registry, h: HandlersArg)
    requires Valid(r)
    ensures var once := ClearAll(r, h);
            ClearAll(once.registry, h) == Cleared(once.registry, [], once.threw)
  {
  }

  /** Clearing everything is clearing the laws one after another, first
      added first: the same handler calls in the same order, and a throw on
      the first law is the throw of the whole clear. */
  lemma {:induction false} ClearAllIsClearLawInOrder(r: Registry, h: HandlersArg)
    requires Valid(r) && |r| > 0
    ensures var first := ClearLaw(r, r[0].lawId, h);
            var rest := ClearAll(first.registry, h);
            && (first.threw <==> Throws(r[0].entry, h))
            && (first.threw ==> ClearAll(r, h) == first)
            && (!first.threw ==>
                  && first.registry == r[1..]
                  && ClearAll(r, h) == Cleared(rest.registry, first.calls + rest.calls, rest.threw))
  {
    assert Find(r, r[0].lawId) == 0;
    assert r[..0] + r[1..] == r[1..];
  }

  /** Without handlers: an empty entry first is deleted, the entry with a
      line after it throws, and it and the entry after it stay. */
  lemma ClearAllWithoutHandlersExample()
    ensures var r := [Slot("a", EmptyEntry), Slot("b", Entry([PriceLineRef(0)], [], [])), Slot("c", EmptyEntry)];
            && Valid(r)
            && ClearAll(r, None) == Cleared(r[1..], [], true)
            && ClearLaw(r, "b", None) == Cleared(r, [], true)
            && ClearLaw(r, "a", None) == Cleared(r[1..], [], false)
  {
  }

  /** `{ lawId, priceLines, markers, bands }`; bands hidden with
      `display: none` are not counted. */
  datatype StatRow = StatRow(lawId: string, priceLines: nat, markers: nat, bands: nat)

  predicate Visible(b: BandRef) { !b.hidden }

  function StatOf(s: Slot): StatRow {
    StatRow(s.lawId, |s.entry.priceLines|, |s.entry.markers|, Count(s.entry.htmlBands, Visible))
  }

  /** `getStats()`: one row per law, in insertion order. */
  function GetStats(r: Registry): (rows: seq<StatRow>)
    ensures |rows| == Size(r)
    ensures forall i :: 0 <= i < |r| ==>
              && rows[i].lawId == r[i].lawId
              && rows[i].priceLines == |r[i].entry.priceLines|
              && rows[i].markers == |r[i].entry.markers|
              && rows[i].bands <= |r[i].entry.htmlBands|
              && rows[i].bands == Count(r[i].entry.htmlBands, Visible)
  {
    seq(|r|, i requires 0 <= i < |r| => StatOf(r[i]))
  }

  /** A band counts in the stats exactly when it is not hidden. */
  lemma BandStatsCountVisible(r: Registry, id: string, band: BandRef)
    requires Valid(r)
    ensures var r' := AddHtmlBand(r, id, band);
            var k := Find(r', id);
            k < |r'| && GetStats(r')[k].bands == Count(EntryOf(r, id).htmlBands, Visible) + (if band.hidden then 0 else 1)
  {
    var e := EntryOf(r, id);
    FilterAppend(e.htmlBands, [band], Visible);
  }

  /** `getMarkers()`: every law's markers, law by law in insertion order. */
  function GetMarkers(r: Registry): (ms: seq<MarkerRef>)
    ensures forall i, m :: 0 <= i < |r| && m in r[i].entry.markers ==> m in ms
    ensures forall m :: m in ms ==> exists i :: 0 <= i < |r| && m in r[i].entry.markers
  {
    if |r| == 0 then [] else r[0].entry.markers + GetMarkers(r[1..])
  }

  /** A marker added under a new law comes last. */
  lemma {:induction false} MarkersOfNewLaw(r: Registry, id: string, m: MarkerRef)
    requires Valid(r) && !Has(r, id)
    ensures GetMarkers(AddMarker(r, id, m)) == GetMarkers(r) + [m]
  {
    assert EntryOf(r, id) == EmptyEntry;
    assert EmptyEntry.(markers := EmptyEntry.markers + [m]) == Entry([], [m], []);
    MarkersAppend(r, Slot(id, Entry([], [m], [])));
  }

  /** A marker added under a known law follows that law's earlier markers,
      and the markers of the laws before and after it are unchanged. */
  lemma MarkersOfKnownLaw(r: Registry, id: string, m: MarkerRef)
    requires Valid(r) && Has(r, id)
    ensures var k := Find(r, id);
            GetMarkers(AddMarker(r, id, m))
              == GetMarkers(r[..k]) + (r[k].entry.markers + [m]) + GetMarkers(r[k + 1..])
  {
    var k := Find(r, id);
    var s := Slot(id, r[k].entry.(markers := r[k].entry.markers + [m]));
    assert AddMarker(r, id, m) == r[k := s];
    assert r[k := s] == r[..k] + [s] + r[k + 1..];
    MarkersConcat(r[..k] + [s], r[k + 1..]);
    MarkersAppend(r[..k], s);
  }

  /** The markers of two registries laid end to end. */
  lemma {:induction false} MarkersConcat(a: Registry, b: Registry)
    ensures GetMarkers(a + b) == GetMarkers(a) + GetMarkers(b)
  {
    if |a| > 0 {
      assert (a + b)[1..] == a[1..] + b;
      MarkersConcat(a[1..], b);
    } else {
      assert a + b == b;
    }
  }

  lemma {:induction false} MarkersAppend(r: Registry, s: Slot)
    ensures GetMarkers(r + [s]) == GetMarkers(r) + s.entry.markers
  {
    if |r| > 0 {
      assert (r + [s])[1..] == r[1..] + [s];
      MarkersAppend(r[1..], s);
    } else {
      assert GetMarkers([s][1..]) == [];
    }
  }

  /** One operation on the registry, as the chart issues them. */
  datatype Op =
    | AddLineOp(id: string, line: PriceLineRef)
    | AddMarkerOp(id: string, marker: MarkerRef)
    | AddBandOp(id: string, band: BandRef)
    | ClearLawOp(id: string)
    | ClearAllOp

  /** One operation, with a handlers object passed to the clears: none of
      them throws. */
  function Step(r: Registry, op: Op, h: Handlers): (r': Registry)
    requires Valid(r)
    ensures Valid(r')
  {
    if op.AddLineOp? then AddPriceLine(r, op.id, op.line)
    else if op.AddMarkerOp? then AddMarker(r, op.id, op.marker)
    else if op.AddBandOp? then AddHtmlBand(r, op.id, op.band)
    else if op.ClearLawOp? then ClearLaw(r, op.id, Some(h)).registry
    else ClearAll(r, Some(h)).registry
  }

  /** The registry after a sequence of operations from `createOverlayRegistry()`. */
  function Run(ops: seq<Op>, h: Handlers): (r: Registry)
    ensures Valid(r)
  {
    if |ops| == 0 then [] else Step(Run(ops[..|ops| - 1], h), ops[|ops| - 1], h)
  }

  /** The ids added and not cleared since. */
  function Live(ops: seq<Op>): set<string> {
    if |ops| == 0 then {}
    else
      var op := ops[|ops| - 1];
      var before := Live(ops[..|ops| - 1]);
      if op.ClearAllOp? then {}
      else if op.ClearLawOp? then before - {op.id}
      else before + {op.id}
  }

  /** One step adds its id, removes it, or removes every id. */
  lemma StepHas(r: Registry, op: Op, h: Handlers, id: string)
    requires Valid(r)
    ensures Has(Step(r, op, h), id)
            <==> if op.ClearAllOp? then false
                 else if op.ClearLawOp? then Has(r, id) && id != op.id
                 else Has(r, id) || id == op.id
  {
    var r' := Step(r, op, h);
    if !op.ClearAllOp? && id != op.id {
      assert Get(r', id) == Get(r, id);
    }
  }

  /** `has` answers for exactly the ids added and not cleared since, and
      `size()` is their number. */
  lemma {:induction false} RunTracksLive(ops: seq<Op>, h: Handlers)
    ensures forall id :: Has(Run(ops, h), id) <==> id in Live(ops)
    ensures Size(Run(ops, h)) == |Live(ops)|
  {
    var r := Run(ops, h);
    if |ops| > 0 {
      var init := ops[..|ops| - 1];
      RunTracksLive(init, h);
      forall id ensures Has(r, id) <==> id in Live(ops) {
        StepHas(Run(init, h), ops[|ops| - 1], h, id);
      }
    }
    assert Ids(r) == Live(ops) by {
      forall id | id in Live(ops) ensures id in Ids(r) {
        assert r[Find(r, id)].lawId == id;
      }
    }
    SizeCountsIds(r);
  }
}

=== FILE: overlays.dfy ===
/** The three overlay adapters of src/lib/chart/overlays/: each turns a
    plan into the ordered list of drawing calls it makes on the chart
    (`addPriceLine`, `drawFibLines`, `addZoneBand`, `addMarker`), and
    reports whether it drew. */
module Overlays {
  import opened Prelude
  import opened Ohlcv
  import opened Levels
  import opened Units
  import opened Indicator
  import opened LawPlan

  datatype Shape = Circle | Square

  /** One drawing call, with the law id every call is tagged with. */
  datatype Command =
    | PriceLineCmd(price: real, color: string, lineStyle: LineStyle, lineWidth: Option<nat>, title: Caption,
                   lawId: string)
    | FibLinesCmd(low: real, high: real, color: string, lineStyle: LineStyle, includeEquilibrium: bool,
                  lawId: string)
    | ZoneBandCmd(from: real, to: real, caption: string, color: string, lawId: string)
    | MarkerCmd(markTime: Option<Num>, markPrice: Option<Num>, shape: Shape, color: string, text: string, lawId: string)
  {
    function LawIdOf(): string {
      match this
      case PriceLineCmd(_, _, _, _, _, id) => id
      case FibLinesCmd(_, _, _, _, _, id) => id
      case ZoneBandCmd(_, _, _, _, id) => id
      case MarkerCmd(_, _, _, _, _, id) => id
    }
  }

  /** `getDataRange()`'s result: `null`, or `{ low, high }`. */
  datatype Range = Range(low: real, high: real)

  /** What an adapter did: whether it drew, and the calls it made. */
  datatype Drawn = Drawn(drew: bool, commands: seq<Command>)

  const UnknownLaw := "unknown-law"

  /** `law?.id || 'unknown-law'`; a missing law or id is the empty string. */
  function EffectiveId(rawId: string): (id: string)
    ensures id != ""
    ensures rawId != "" ==> id == rawId
  {
    if rawId != "" then rawId else UnknownLaw
  }

  /** `low + (high - low) * ratio` */
  function At(r: Range, ratio: real): real {
    r.low + (r.high - r.low) * ratio
  }

  /** `applyBaselineIndicatorOverlay`: without a range or a bar it draws
      nothing; otherwise the two range lines, the level lines, the
      23.6%-38.2% zone and a circle on the last bar's close. */
  function ApplyBaseline(rawId: string, data: seq<RawBar>, range: Option<Range>): (d: Drawn)
    ensures !d.drew <==> range.None? || |data| == 0
    ensures !d.drew ==> d.commands == []
    ensures forall i :: 0 <= i < |d.commands| ==> d.commands[i].LawIdOf() == EffectiveId(rawId)
  {
    var id := EffectiveId(rawId);
    if range.None? || |data| == 0 then Drawn(false, [])
    else
      var r := range.value;
      var last := data[|data| - 1];
      Drawn(true, [
        PriceLineCmd(r.low, HlColor, Dashed, None, Plain(id + " HL-Low"), id),
        PriceLineCmd(r.high, HlColor, Dashed, None, Plain(id + " HL-High"), id),
        FibLinesCmd(r.low, r.high, FibColor, Dotted, true, id),
        ZoneBandCmd(At(r, 0.236), At(r, 0.382), id + " baseline zone", BaselineColor, id),
        MarkerCmd(Some(last.time), Some(last.close), Circle, BaselineColor, id, id)])
  }

  /** `applyUnknownMappingFallback`: the same five calls as the baseline
      overlay, in slate and violet, with a square marker. */
  function ApplyUnknownFallback(rawId: string, data: seq<RawBar>, range: Option<Range>): (d: Drawn)
    ensures !d.drew <==> range.None? || |data| == 0
    ensures !d.drew ==> d.commands == []
    ensures forall i :: 0 <= i < |d.commands| ==> d.commands[i].LawIdOf() == EffectiveId(rawId)
  {
    var id := EffectiveId(rawId);
    if range.None? || |data| == 0 then Drawn(false, [])
    else
      var r := range.value;
      var last := data[|data| - 1];
      Drawn(true, [
        PriceLineCmd(r.low, HtfColor, Dashed, None, Plain(id + " SAFE_UNKNOWN LOW"), id),
        PriceLineCmd(r.high, HtfColor, Dashed, None, Plain(id + " SAFE_UNKNOWN HIGH"), id),
        FibLinesCmd(r.low, r.high, UnknownColor, Dotted, true, id),
        ZoneBandCmd(At(r, 0.236), At(r, 0.382), "SAFE_UNKNOWN " + id, UnknownColor, id),
        MarkerCmd(Some(last.time), Some(last.close), Square, UnknownColor, id + " SAFE_UNKNOWN", id)])
  }

  /** Where a command draws, leaving out colours and texts. */
  datatype Place =
    | LineAt(level: real)
    | FibBetween(low: real, high: real)
    | ZoneBetween(from: real, to: real)
    | MarkerAt(markTime: Option<Num>, markPrice: Option<Num>)

  function PlaceOf(c: Command): Place {
    match c
    case PriceLineCmd(p, _, _, _, _, _) => LineAt(p)
    case FibLinesCmd(l, h, _, _, _, _) => FibBetween(l, h)
    case ZoneBandCmd(f, t, _, _, _) => ZoneBetween(f, t)
    case MarkerCmd(t, p, _, _, _, _) => MarkerAt(t, p)
  }

  function Places(cs: seq<Command>): (ps: seq<Place>)
    ensures |ps| == |cs|
    ensures forall i :: 0 <= i < |cs| ==> ps[i] == PlaceOf(cs[i])
  {
    seq(|cs|, i requires 0 <= i < |cs| => PlaceOf(cs[i]))
  }

  /** When it draws, the baseline overlay makes five calls in a fixed
      order: a line at the low, a line at the high, the level lines between
      them, the zone from 23.6% to 38.2% of the range (bottom to top exactly
      when low <= high), and a marker on the last bar's close. The unknown
      fallback draws at exactly the same places. */
  lemma FallbacksDrawAlike(rawId: string, data: seq<RawBar>, range: Option<Range>)
    requires range.Some? && |data| > 0
    ensures var b := ApplyBaseline(rawId, data, range);
            var r := range.value;
            var last := data[|data| - 1];
            && Places(b.commands) == [
                 LineAt(r.low), LineAt(r.high), FibBetween(r.low, r.high),
                 ZoneBetween(r.low + 0.236 * (r.high - r.low), r.low + 0.382 * (r.high - r.low)),
                 MarkerAt(Some(last.time), Some(last.close))]
            && (b.commands[3].from <= b.commands[3].to <==> r.low <= r.high)
            && Places(ApplyUnknownFallback(rawId, data, range).commands) == Places(b.commands)
  {
    var r := range.value;
    if r.low < r.high {
      ScaleMonotone(r.high - r.low, 0.236, 0.382);
    } else if r.low > r.high {
      ScaleMonotone(r.low - r.high, 0.236, 0.382);
    }
  }

  /** On the range of the last unit, the baseline overlay's zone is the
      baseline plan's golden zone. */
  lemma OverlayZoneIsPlanZone(rawId: string, data: seq<RawBar>, bars: seq<RawBar>, options: Options)
    requires Returns(bars, options)
    requires |data| > 0
    requires BuildModel(bars, options).lastUnit.Some?
    ensures var last := BuildModel(bars, options).lastUnit.value;
            var d := ApplyBaseline(rawId, data, Some(Range(last.low, last.high)));
            var band := BuildBaselinePlan(bars, options).bands[0];
            d.commands[3].from == band.from && d.commands[3].to == band.to
  {
    BaselineBandAndMarker(bars, options);
  }

  /** A law-specific line as the drawing code reads it: every field but
      the price may be missing or falsy. */
  datatype SpecLine = SpecLine(price: real, caption: Caption, color: string, lineStyle: Option<LineStyle>,
                               lineWidth: nat)
  datatype SpecBand = SpecBand(from: real, to: real, caption: string, color: string)
  datatype SpecMarker = SpecMarker(time: Option<Num>, price: Option<Num>, text: string, color: string)

  /** `plan.lawSpecific`; a missing list is an empty one. */
  datatype SpecPart = SpecPart(lines: seq<SpecLine>, bands: seq<SpecBand>, markers: seq<SpecMarker>)

  /** JavaScript truthiness of an optional number (`undefined` is falsy). */
  predicate TruthyTime(t: Option<Num>) {
    t.Some? && t.value.Truthy()
  }

  function LineCommand(l: SpecLine, id: string): Command {
    PriceLineCmd(l.price,
                 if l.color != "" then l.color else LawColor,
                 if l.lineStyle.Some? then l.lineStyle.value else Solid,
                 Some(if l.lineWidth != 0 then l.lineWidth else 2),
                 if l.caption != Plain("") then l.caption else Plain(id + " specific"),
                 id)
  }

  function BandCommand(b: SpecBand, id: string): Command {
    ZoneBandCmd(b.from, b.to,
                if b.caption != "" then b.caption else id + " zone",
                if b.color != "" then b.color else LawColor,
                id)
  }

  /** `marker.time || lastBar?.time` and `marker.price ?? lastBar?.close`. */
  function MarkerCommand(m: SpecMarker, lastBar: Option<RawBar>, id: string): Command {
    MarkerCmd(if TruthyTime(m.time) then m.time else if lastBar.Some? then Some(lastBar.value.time) else None,
              if m.price.Some? then m.price else if lastBar.Some? then Some(lastBar.value.close) else None,
              Square,
              if m.color != "" then m.color else LawColor,
              if m.text != "" then m.text else id,
              id)
  }

  function LineCommands(ls: seq<SpecLine>, id: string): (cs: seq<Command>)
    ensures |cs| == |ls|
    ensures forall i :: 0 <= i < |ls| ==> cs[i] == LineCommand(ls[i], id)
  {
    seq(|ls|, i requires 0 <= i < |ls| => LineCommand(ls[i], id))
  }

  function BandCommands(bs: seq<SpecBand>, id: string): (cs: seq<Command>)
    ensures |cs| == |bs|
    ensures forall i :: 0 <= i < |bs| ==> cs[i] == BandCommand(bs[i], id)
  {
    seq(|bs|, i requires 0 <= i < |bs| => BandCommand(bs[i], id))
  }

  function MarkerCommands(ms: seq<SpecMarker>, lastBar: Option<RawBar>, id: string): (cs: seq<Command>)
    ensures |cs| == |ms|
    ensures forall i :: 0 <= i < |ms| ==> cs[i] == MarkerCommand(ms[i], lastBar, id)
  {
    seq(|ms|, i requires 0 <= i < |ms| => MarkerCommand(ms[i], lastBar, id))
  }

  /** `applyLawSpecificPlan`: no plan, no call; otherwise one line call per
      line, then one band call per band, then one marker call per marker,
      each list in its own order. */
  function ApplyLawSpecific(rawId: string, plan: Option<SpecPart>, data: seq<RawBar>): (cs: seq<Command>)
    ensures plan.None? ==> cs == []
    ensures plan.Some? ==> |cs| == |plan.value.lines| + |plan.value.bands| + |plan.value.markers|
    ensures forall i :: 0 <= i < |cs| ==> cs[i].LawIdOf() == EffectiveId(rawId)
  {
    var id := EffectiveId(rawId);
    var lastBar := if |data| > 0 then Some(data[|data| - 1]) else None;
    if plan.None? then []
    else LineCommands(plan.value.lines, id) + BandCommands(plan.value.bands, id)
         + MarkerCommands(plan.value.markers, lastBar, id)
  }

  /** Line defaults: teal, solid, width 2, titled after the law, each used
      only where the line leaves that field falsy. */
  lemma LineDefaults(l: SpecLine, id: string)
    ensures var c := LineCommand(l, id);
            && c.price == l.price
            && (c.color == LawColor <==> l.color == "" || l.color == LawColor)
            && (l.lineStyle.None? ==> c.lineStyle == Solid)
            && c.lineWidth.Some? && c.lineWidth.value > 0
            && (l.lineWidth > 0 ==> c.lineWidth.value == l.lineWidth)
            && c.title != Plain("")
  {
  }

  /** A marker without a time, or with time 0 or NaN, takes the last bar's
      time; one without a price takes its close, but a price of 0 or NaN is
      kept. */
  lemma MarkerFallbacks(m: SpecMarker, data: seq<RawBar>, id: string)
    requires |data| > 0
    ensures var last := data[|data| - 1];
            var c := MarkerCommand(m, Some(last), id);
            && (TruthyTime(m.time) ==> c.markTime == m.time)
            && (!TruthyTime(m.time) ==> c.markTime == Some(last.time))
            && (m.price.Some? ==> c.markPrice == m.price)
            && (m.price.None? ==> c.markPrice == Some(last.close))
  {
  }

  /** The law-specific part of a draw plan, as the drawing code receives it. */
  function SpecOf(g: Geometry): SpecPart {
    SpecPart(
      seq(|g.lines|, i requires 0 <= i < |g.lines| =>
        SpecLine(g.lines[i].price, g.lines[i].caption, g.lines[i].color, Some(g.lines[i].lineStyle),
                 g.lines[i].lineWidth)),
      seq(|g.bands|, i requires 0 <= i < |g.bands| =>
        SpecBand(g.bands[i].from, g.bands[i].to, g.bands[i].caption, g.bands[i].color)),
      seq(|g.markers|, i requires 0 <= i < |g.markers| =>
        SpecMarker(Some(g.markers[i].time), Some(g.markers[i].price), g.markers[i].text, g.markers[i].color)))
  }

  /** Drawing a law's own geometry makes three calls, none of them falling
      back to a default: the line at the target level, the band around it,
      and the marker on it at the unit's end (or the last bar's time if the
      unit's end time is falsy). */
  lemma GeometryDrawsThree(rawId: string, u: Unit, f: Features, n: real, modeLabel: string, data: seq<RawBar>)
    requires rawId != "" && n > 0.0
    requires u.range > 0.0 && u.range == u.high - u.low
    ensures var g := GeometryAt(rawId, u, f, n, modeLabel);
            var cs := ApplyLawSpecific(rawId, Some(SpecOf(g)), data);
            && |cs| == 3
            && cs[0] == PriceLineCmd(g.lines[0].price, ModeColor(modeLabel), g.lines[0].lineStyle, Some(2),
                                     g.lines[0].caption, rawId)
            && cs[1] == ZoneBandCmd(g.bands[0].from, g.bands[0].to, g.bands[0].caption, ModeColor(modeLabel), rawId)
            && cs[2].MarkerCmd? && cs[2].markPrice == Some(Finite(g.lines[0].price))
            && (u.endTime.Truthy() ==> cs[2].markTime == Some(u.endTime))
  {
    var g := GeometryAt(rawId, u, f, n, modeLabel);
    GeometryPlacement(rawId, u, f, n, modeLabel);
    assert ModeColor(modeLabel) != "";
    assert g.lines[0].caption != Plain("");
    assert g.bands[0].caption != "";
  }
}

=== FILE: prelude.dfy ===
/** Shared value types used by every other module: optional values,
    JavaScript numbers, rounding, and a few sequence helpers. */
module Prelude {

  /** `undefined`/`null` versus a present value. */
  datatype Option<+T> = None | Some(value: T)

  /** A JavaScript number. Prices are exact reals; the IEEE special values
      are kept apart because the code branches on them (`Number.isFinite`,
      `Number.isNaN`, comparisons that are false for NaN). */
  datatype Num = Finite(v: real) | NaN | Inf(negative: bool) {

    /** `Number.isFinite(this)` */
    predicate IsFinite() { Finite? }

    /** JavaScript truthiness: 0 and NaN are falsy. */
    predicate Truthy() {
      match this
      case Finite(x) => x != 0.0
      case NaN => false
      case Inf(_) => true
    }
  }

  /** `a >= b` on JavaScript numbers: false as soon as either side is NaN. */
  predicate NumGe(a: Num, b: Num) {
    match (a, b)
    case (NaN, _) => false
    case (_, NaN) => false
    case (Inf(na), _) => !na || b == Inf(true)
    case (Finite(x), Finite(y)) => x >= y
    case (Finite(_), Inf(nb)) => nb
  }

  lemma NumGeOnFinite(x: real, y: real)
    ensures NumGe(Finite(x), Finite(y)) <==> x >= y
  {
  }

  /** `Math.round`: the nearest integer, halves going toward +infinity. */
  function Round(x: real): (r: int)
    ensures r as real - 0.5 <= x < r as real + 0.5
  {
    (x + 0.5).Floor
  }

  /** `Math.round` is monotone. */
  lemma RoundMonotone(x: real, y: real)
    requires x <= y
    ensures Round(x) <= Round(y)
  {
  }

  /** `Math.max(...xs)` on a non-empty list. */
  function Max(xs: seq<real>): (m: real)
    requires |xs| > 0
    ensures m in xs
    ensures forall i :: 0 <= i < |xs| ==> xs[i] <= m
  {
    if |xs| == 1 then xs[0]
    else
      var rest := Max(xs[1..]);
      if xs[0] >= rest then xs[0] else rest
  }

  /** `Math.min(...xs)` on a non-empty list. */
  function Min(xs: seq<real>): (m: real)
    requires |xs| > 0
    ensures m in xs
    ensures forall i :: 0 <= i < |xs| ==> m <= xs[i]
  {
    if |xs| == 1 then xs[0]
    else
      var rest := Min(xs[1..]);
      if xs[0] <= rest then xs[0] else rest
  }

  /** `xs.filter(p)`: what it keeps satisfies `p` (`FilterMembers` says
      that it keeps exactly the elements of `xs` that do). */
  function Filter<T>(xs: seq<T>, p: T -> bool): (r: seq<T>)
    ensures |r| <= |xs|
    ensures forall i :: 0 <= i < |r| ==> p(r[i])
  {
    if |xs| == 0 then []
    else (if p(xs[0]) then [xs[0]] else []) + Filter(xs[1..], p)
  }

  /** `xs.filter(p)` keeps exactly the elements of `xs` that satisfy `p`. */
  lemma {:induction false} FilterMembers<T>(xs: seq<T>, p: T -> bool)
    ensures forall i :: 0 <= i < |Filter(xs, p)| ==> Filter(xs, p)[i] in xs
    ensures forall i :: 0 <= i < |xs| && p(xs[i]) ==> xs[i] in Filter(xs, p)
  {
    if |xs| > 0 {
      FilterMembers(xs[1..], p);
      var r := Filter(xs, p);
      var rest := Filter(xs[1..], p);
      assert r == (if p(xs[0]) then [xs[0]] else []) + rest;
      forall i | 0 <= i < |r| ensures r[i] in xs {
        if !(p(xs[0]) && i == 0) {
          var j := if p(xs[0]) then i - 1 else i;
          assert r[i] == rest[j];
          assert rest[j] in xs[1..];
        }
      }
      forall i | 0 <= i < |xs| && p(xs[i]) ensures xs[i] in r {
        if i > 0 {
          assert xs[i] == xs[1..][i - 1];
          assert xs[i] in rest;
        }
      }
    }
  }

  /** Filtering commutes with concatenation. */
  lemma {:induction false} FilterAppend<T>(a: seq<T>, b: seq<T>, p: T -> bool)
    ensures Filter(a + b, p) == Filter(a, p) + Filter(b, p)
  {
    if |a| == 0 {
      assert a + b == b;
    } else {
      assert (a + b)[1..] == a[1..] + b;
      FilterAppend(a[1..], b, p);
    }
  }

  /** Filtering with a predicate every element meets keeps everything. */
  lemma {:induction false} FilterAll<T>(xs: seq<T>, p: T -> bool)
    requires forall i :: 0 <= i < |xs| ==> p(xs[i])
    ensures Filter(xs, p) == xs
  {
    if |xs| > 0 {
      FilterAll(xs[1..], p);
    }
  }

  /** Filtering with a predicate no element meets keeps nothing. */
  lemma {:induction false} FilterNone<T>(xs: seq<T>, p: T -> bool)
    requires forall i :: 0 <= i < |xs| ==> !p(xs[i])
    ensures Filter(xs, p) == []
  {
    if |xs| > 0 {
      FilterNone(xs[1..], p);
    }
  }

  /** Filtering with predicates that agree on every element gives the
      same result. */
  lemma {:induction false} FilterSame<T>(xs: seq<T>, p: T -> bool, q: T -> bool)
    requires forall i :: 0 <= i < |xs| ==> p(xs[i]) == q(xs[i])
    ensures Filter(xs, p) == Filter(xs, q)
  {
    if |xs| > 0 {
      assert forall i :: 0 <= i < |xs| - 1 ==> xs[1..][i] == xs[i + 1];
      FilterSame(xs[1..], p, q);
    }
  }

  /** `xs.filter(p).length` */
  function Count<T>(xs: seq<T>, p: T -> bool): nat {
    |Filter(xs, p)|
  }

  /** `xs.some(p)` */
  predicate Any<T>(xs: seq<T>, p: T -> bool) {
    exists i :: 0 <= i < |xs| && p(xs[i])
  }

  /** `s.map(f)` */
  function MapSeq<A, B>(s: seq<A>, f: A -> B): (r: seq<B>)
    ensures |r| == |s|
    ensures forall i :: 0 <= i < |s| ==> r[i] == f(s[i])
  {
    seq(|s|, i requires 0 <= i < |s| => f(s[i]))
  }
}

=== FILE: progress.dfy ===
/** The progress percentage (src/components/ProgressBar.jsx), which the
    learning page computes the same way for its position in the catalog. */
module Progress {
  import opened Prelude

  /** `total > 0 ? Math.round((completed / total) * 100) : 0` */
  function Percentage(completed: int, total: int): (p: int)
    ensures total <= 0 ==> p == 0
  {
    if total > 0 then Round(completed as real / total as real * 100.0) else 0
  }

  /** The share of `whole` that `part` is, as a real. */
  lemma ShareBounds(part: int, whole: int)
    requires 0 <= part <= whole && whole > 0
    ensures 0.0 <= part as real / whole as real <= 1.0
    ensures part == whole ==> part as real / whole as real == 1.0
    ensures part == 0 ==> part as real / whole as real == 0.0
  {
    var q := part as real / whole as real;
    assert q * whole as real == part as real;
  }

  /** With `0 <= completed <= total` and `total > 0` the percentage lies in
      [0, 100]; it is 0 with nothing completed and 100 with everything. */
  lemma PercentageBounds(completed: int, total: int)
    requires 0 <= completed <= total && total > 0
    ensures 0 <= Percentage(completed, total) <= 100
    ensures completed == 0 ==> Percentage(completed, total) == 0
    ensures completed == total ==> Percentage(completed, total) == 100
  {
    ShareBounds(completed, total);
    var x := completed as real / total as real * 100.0;
    assert 0.0 <= x <= 100.0;
    RoundMonotone(0.0, x);
    RoundMonotone(x, 100.0);
    assert Round(0.0) == 0 && Round(100.0) == 100;
  }

  /** For a fixed total the percentage never falls as more is completed. */
  lemma PercentageMonotone(c1: int, c2: int, total: int)
    requires c1 <= c2 && total > 0
    ensures Percentage(c1, total) <= Percentage(c2, total)
  {
    var q1 := c1 as real / total as real;
    var q2 := c2 as real / total as real;
    assert q1 * total as real == c1 as real && q2 * total as real == c2 as real;
    RoundMonotone(q1 * 100.0, q2 * 100.0);
  }
}

=== FILE: recipe_values.dfy ===
/** Resolution of recipe values (`resolveRecipeValue` in
    src/data/parseRecipe.js): numbers and non-strings pass through, a
    string of the form `ratio(x)` becomes the level at fraction `x` of the
    context's range, and any other string is trimmed. */
module RecipeValues {
  import opened Prelude
  import opened Text

  /** A recipe value: a number, a string, or any other value (an object,
      `null`, ...), kept abstract. */
  datatype Value = NumberValue(n: Num) | StringValue(s: string) | OtherValue(tag: nat)

  /** `context`: `low` and `high`, NaN when absent. */
  datatype Context = Context(low: Num, high: Num)

  predicate IsDigit(c: char) {
    '0' <= c <= '9'
  }

  predicate AllDigits(s: string) {
    forall i :: 0 <= i < |s| ==> IsDigit(s[i])
  }

  /** The token `[0-9]*\.?[0-9]+`: digits, or digits, a dot and at least
      one digit. */
  predicate IsDecimal(t: string) {
    var k := IndexOf(t, '.');
    if k < |t| then AllDigits(t[..k]) && AllDigits(t[k + 1..]) && k + 1 < |t|
    else |t| > 0 && AllDigits(t)
  }

  /** The value of a digit string (0 for the empty one). */
  function DigitsValue(s: string): (v: nat)
    requires AllDigits(s)
    decreases |s|
  {
    if |s| == 0 then 0
    else 10 * DigitsValue(s[..|s| - 1]) + (s[|s| - 1] as int - '0' as int)
  }

  /** The value of the digits after a decimal point: `0.d1d2...`. */
  function FractionValue(s: string): (v: real)
    requires AllDigits(s)
    ensures 0.0 <= v <= 1.0
    decreases |s|
  {
    if |s| == 0 then 0.0
    else ((s[0] as int - '0' as int) as real + FractionValue(s[1..])) / 10.0
  }

  /** `Number(t)` for a token `t`, as an exact decimal. */
  function DecimalValue(t: string): real
    requires IsDecimal(t)
  {
    var k := IndexOf(t, '.');
    if k < |t| then DigitsValue(t[..k]) as real + FractionValue(t[k + 1..])
    else DigitsValue(t) as real
  }

  /** ASCII lower case, which is what the `i` flag compares letters by. */
  function Lower(c: char): char {
    if 'A' <= c <= 'Z' then (c as int + 32) as char else c
  }

  /** `word` is "ratio" in any mix of cases. */
  predicate IsRatioWord(word: string) {
    |word| == 5 && Lower(word[0]) == 'r' && Lower(word[1]) == 'a' && Lower(word[2]) == 't'
    && Lower(word[3]) == 'i' && Lower(word[4]) == 'o'
  }

  /** The match of `/^ratio\(\s*([0-9]*\.?[0-9]+)\s*\)$/i` on a trimmed
      string: the captured token, if the whole string matches. */
  function MatchRatio(t: string): (m: Option<string>)
    ensures m.Some? ==> IsDecimal(m.value)
  {
    if |t| >= 7 && IsRatioWord(t[..5]) && t[5] == '(' && t[|t| - 1] == ')' then
      var tok := Trim(t[6..|t| - 1]);
      if IsDecimal(tok) then Some(tok) else None
    else None
  }

  /** The price at fraction `ratio` of the way from `low` to `high`. */
  function Lerp(low: real, high: real, ratio: real): real {
    low + (high - low) * ratio
  }

  /** A string recipe value: the level of a `ratio(x)` string when the
      context has a finite range, else the trimmed string. */
  function ResolveString(s: string, ctx: Context): Value {
    var t := Trim(s);
    var m := MatchRatio(t);
    if m.Some? && ctx.low.Finite? && ctx.high.Finite? then
      NumberValue(Finite(Lerp(ctx.low.v, ctx.high.v, DecimalValue(m.value))))
    else StringValue(t)
  }

  /** `resolveRecipeValue(expr, context)`: a number or a non-string comes
      back unchanged; a string comes back trimmed unless it resolves to a
      number, which needs a finite range. */
  function Resolve(expr: Value, ctx: Context): (r: Value)
    ensures !expr.StringValue? ==> r == expr
    ensures expr.StringValue? ==>
              r.StringValue? || (r.NumberValue? && r.n.Finite? && ctx.low.Finite? && ctx.high.Finite?)
    ensures r.StringValue? ==> expr.StringValue? && r.s == Trim(expr.s)
    ensures expr.StringValue? && r.NumberValue? ==> MatchRatio(Trim(expr.s)).Some?
    ensures expr.StringValue? && MatchRatio(Trim(expr.s)).None? ==> r == StringValue(Trim(expr.s))
  {
    if expr.StringValue? then ResolveString(expr.s, ctx) else expr
  }

  /** Resolving twice is resolving once: a resolved string is trimmed and
      matches exactly when it did before. */
  lemma ResolveIdempotent(expr: Value, ctx: Context)
    ensures Resolve(Resolve(expr, ctx), ctx) == Resolve(expr, ctx)
  {
    if expr.StringValue? {
      TrimIdempotent(expr.s);
    }
  }

  /** Spaces, then a token, then spaces. */
  lemma DecimalIsTrimmed(tok: string)
    requires IsDecimal(tok)
    ensures |tok| > 0 && Trimmed(tok)
  {
    var k := IndexOf(tok, '.');
    if k < |tok| {
      assert tok[|tok| - 1] == tok[k + 1..][|tok| - k - 2];
      if k > 0 {
        assert tok[0] == tok[..k][0];
      }
    }
  }

  /** The grammar: `ratio` in any case, an opening parenthesis, optional
      white space, a decimal token, optional white space and a closing
      parenthesis, with white space around the whole, resolves to the
      level at that fraction of a finite range. */
  lemma ResolveRatio(word: string, sp1: string, tok: string, sp2: string, pre: string, post: string,
                     low: real, high: real)
    requires IsRatioWord(word) && IsDecimal(tok)
    requires AllSpace(sp1) && AllSpace(sp2) && AllSpace(pre) && AllSpace(post)
    ensures Resolve(StringValue(pre + word + "(" + sp1 + tok + sp2 + ")" + post), Context(Finite(low), Finite(high)))
            == NumberValue(Finite(Lerp(low, high, DecimalValue(tok))))
  {
    var x := pre + word + "(" + sp1 + tok + sp2 + ")" + post;
    RatioCallTrims(word, sp1, tok, sp2, pre, post);
    RatioCallMatches(word, sp1, tok, sp2);
    ResolveMatched(x, Context(Finite(low), Finite(high)), tok);
  }

  /** White space around a `ratio(...)` call is trimmed away. */
  lemma RatioCallTrims(word: string, sp1: string, tok: string, sp2: string, pre: string, post: string)
    requires IsRatioWord(word)
    requires AllSpace(pre) && AllSpace(post)
    ensures Trim(pre + word + "(" + sp1 + tok + sp2 + ")" + post) == word + "(" + (sp1 + tok + sp2) + ")"
  {
    var core := word + "(" + (sp1 + tok + sp2) + ")";
    assert pre + word + "(" + sp1 + tok + sp2 + ")" + post == pre + core + post;
    assert core[0] == word[0];
    assert core[|core| - 1] == ')';
    TrimPadded(pre, core, post);
  }

  /** A `ratio(...)` call around a padded decimal token matches with that
      token. */
  lemma RatioCallMatches(word: string, sp1: string, tok: string, sp2: string)
    requires IsRatioWord(word) && IsDecimal(tok)
    requires AllSpace(sp1) && AllSpace(sp2)
    ensures MatchRatio(word + "(" + (sp1 + tok + sp2) + ")") == Some(tok)
  {
    var inner := sp1 + tok + sp2;
    var core := word + "(" + inner + ")";
    DecimalIsTrimmed(tok);
    TrimPadded(sp1, tok, sp2);
    CallParts(word, inner);
    assert core[..5] == word && Trim(core[6..|core| - 1]) == tok;
  }

  /** The converse of `RatioCallMatches`: whatever matches is `ratio` in
      some case, an opening parenthesis, white space, the decimal token,
      white space and a closing parenthesis. */
  lemma MatchRatioShape(t: string, tok: string) returns (word: string, sp1: string, sp2: string)
    requires MatchRatio(t) == Some(tok)
    ensures IsRatioWord(word) && AllSpace(sp1) && AllSpace(sp2) && IsDecimal(tok)
    ensures t == word + "(" + (sp1 + tok + sp2) + ")"
  {
    MatchRatioParts(t, tok);
    word := t[..5];
    var inner := t[6..|t| - 1];
    CallOfParts(t);
    sp1, sp2 := TrimSplit(inner, tok);
  }

  /** What a match says of the string and its token. */
  lemma MatchRatioParts(t: string, tok: string)
    requires MatchRatio(t) == Some(tok)
    ensures |t| >= 7 && IsRatioWord(t[..5]) && t[5] == '(' && t[|t| - 1] == ')'
    ensures Trim(t[6..|t| - 1]) == tok && IsDecimal(tok)
  {
  }

  /** A string is white space, its trimmed text, and white space. */
  lemma TrimSplit(s: string, tok: string) returns (sp1: string, sp2: string)
    requires Trim(s) == tok
    ensures AllSpace(sp1) && AllSpace(sp2) && s == sp1 + tok + sp2
  {
    var i :| OccursAt(s, tok, i) && AllSpace(s[..i]) && AllSpace(s[i + |tok|..]);
    sp1 := s[..i];
    sp2 := s[i + |tok|..];
    SliceAround(s, tok, i);
  }

  /** A string opening with five characters and '(' and closing with ')'
      is a call of those five characters. */
  lemma CallOfParts(t: string)
    requires |t| >= 7 && t[5] == '(' && t[|t| - 1] == ')'
    ensures t == t[..5] + "(" + t[6..|t| - 1] + ")"
  {
  }

  /** A string is its part before an occurrence, the occurrence, and its
      part after. */
  lemma SliceAround(s: string, part: string, i: int)
    requires OccursAt(s, part, i)
    ensures s == s[..i] + part + s[i + |part|..]
  {
  }

  /** A string that trims to a match resolves to its level. */
  lemma ResolveMatched(x: string, ctx: Context, tok: string)
    requires MatchRatio(Trim(x)) == Some(tok)
    requires ctx.low.Finite? && ctx.high.Finite?
    ensures Resolve(StringValue(x), ctx) == NumberValue(Finite(Lerp(ctx.low.v, ctx.high.v, DecimalValue(tok))))
  {
  }

  /** The pieces of `word(inner)`. */
  lemma CallParts(word: string, inner: string)
    requires |word| == 5
    ensures var core := word + "(" + inner + ")";
            && |core| == |inner| + 7
            && core[..5] == word && core[5] == '(' && core[|core| - 1] == ')'
            && core[6..|core| - 1] == inner
  {
  }

  /** `ratio(0)` is the low of the range. */
  lemma RatioZero(low: real, high: real)
    ensures Resolve(StringValue("ratio(0)"), Context(Finite(low), Finite(high))) == NumberValue(Finite(low))
  {
    assert "ratio(0)"[..5] == "ratio" && "ratio(0)"[5] == '(' && "ratio(0)"[7] == ')';
    assert "ratio(0)"[6..7] == "0";
    assert Trimmed("ratio(0)");
    assert DecimalValue("0") == 0.0 by {
      assert IndexOf("0", '.') == 1;
      assert DigitsValue("0") == 0;
    }
    LiteralMatch("ratio(0)", "0");
    ResolveMatched("ratio(0)", Context(Finite(low), Finite(high)), "0");
    assert Lerp(low, high, 0.0) == low;
  }

  /** `ratio(1)` is the high of the range. */
  lemma RatioOne(low: real, high: real)
    ensures Resolve(StringValue("ratio(1)"), Context(Finite(low), Finite(high))) == NumberValue(Finite(high))
  {
    assert "ratio(1)"[..5] == "ratio" && "ratio(1)"[5] == '(' && "ratio(1)"[7] == ')';
    assert "ratio(1)"[6..7] == "1";
    assert Trimmed("ratio(1)");
    assert DecimalValue("1") == 1.0 by {
      assert IndexOf("1", '.') == 1;
      assert DigitsValue("1") == 1;
    }
    LiteralMatch("ratio(1)", "1");
    ResolveMatched("ratio(1)", Context(Finite(low), Finite(high)), "1");
    assert Lerp(low, high, 1.0) == high;
  }

  /** `ratio(.5)`, with no digit before the dot, is accepted: the midpoint. */
  lemma RatioHalf(low: real, high: real)
    ensures Resolve(StringValue("ratio(.5)"), Context(Finite(low), Finite(high)))
            == NumberValue(Finite(Lerp(low, high, 0.5)))
    ensures Lerp(low, high, 0.5) == (low + high) / 2.0
  {
    HalfToken();
    ResolveMatched("ratio(.5)", Context(Finite(low), Finite(high)), ".5");
    LerpHalf(low, high);
  }

  /** Halfway is the midpoint. */
  lemma LerpHalf(low: real, high: real)
    ensures Lerp(low, high, 0.5) == (low + high) / 2.0
  {
  }

  /** `ratio(.5)` captures the token `.5`, worth one half. */
  lemma HalfToken()
    ensures MatchRatio(Trim("ratio(.5)")) == Some(".5")
    ensures IsDecimal(".5") && DecimalValue(".5") == 0.5
  {
    assert "ratio(.5)"[..5] == "ratio" && "ratio(.5)"[5] == '(' && "ratio(.5)"[8] == ')';
    assert "ratio(.5)"[6..8] == ".5";
    assert Trimmed("ratio(.5)");
    assert IsDecimal(".5") by {
      assert IndexOf(".5", '.') == 0;
      assert ".5"[1..] == "5";
    }
    assert DecimalValue(".5") == 0.5 by {
      assert IndexOf(".5", '.') == 0;
      assert DigitsValue("") == 0;
      assert FractionValue("5") == 0.5;
    }
    LiteralMatch("ratio(.5)", ".5");
  }

  /** A trimmed literal `ratio(tok)` with a trimmed decimal token matches. */
  lemma LiteralMatch(t: string, tok: string)
    requires |t| == |tok| + 7 && t[..5] == "ratio" && t[5] == '(' && t[|t| - 1] == ')'
    requires t[6..|t| - 1] == tok && IsDecimal(tok)
    requires Trimmed(t)
    ensures MatchRatio(Trim(t)) == Some(tok)
  {
    TrimTrimmed(t);
    DecimalIsTrimmed(tok);
    TrimTrimmed(tok);
  }

  /** A sign is not part of a token: `ratio(-1)` is returned as it is,
      whatever the range. */
  lemma RatioRejectsSign(ctx: Context)
    ensures Resolve(StringValue("ratio(-1)"), ctx) == StringValue("ratio(-1)")
  {
    NoMatch("ratio(-1)", "-1");
    assert IndexOf("-1", '.') == 2;
    assert !IsDigit("-1"[0]);
  }

  /** A dot needs a digit after it: `ratio(1.)` is returned as it is. */
  lemma RatioRejectsTrailingDot(ctx: Context)
    ensures Resolve(StringValue("ratio(1.)"), ctx) == StringValue("ratio(1.)")
  {
    NoMatch("ratio(1.)", "1.");
    assert IndexOf("1.", '.') == 1;
  }

  /** A trimmed literal `ratio(inner)` whose trimmed inner text is not a
      token resolves to itself. */
  lemma NoMatch(t: string, inner: string)
    requires |t| == |inner| + 7 && t[..5] == "ratio" && t[5] == '(' && t[|t| - 1] == ')'
    requires t[6..|t| - 1] == inner && Trimmed(t) && Trimmed(inner)
    requires !IsDecimal(inner)
    ensures forall ctx :: Resolve(StringValue(t), ctx) == StringValue(t)
  {
    TrimTrimmed(t);
    TrimTrimmed(inner);
    assert MatchRatio(Trim(t)).None?;
  }

  /** Without a finite low and high even a valid `ratio(x)` stays a string. */
  lemma RatioNeedsRange(s: string, high: Num)
    ensures Resolve(StringValue(s), Context(NaN, high)) == StringValue(Trim(s))
  {
  }
}

=== FILE: search.dfy ===
/** The search page (src/pages/SearchPage.jsx): Arabic-aware text
    normalisation and the two result lists, laws and glossary terms, that
    match a query. `toLowerCase` is a parameter `lower`, applied one
    character at a time. */
module Search {
  import opened Prelude
  import opened Text
  import opened Laws

  /** The harakat and other marks U+064B to U+065F, and the tatweel U+0640:
      the characters normalisation deletes. */
  predicate Removed(c: char) {
    ('\U{064B}' <= c <= '\U{065F}') || c == '\U{0640}'
  }

  /** The letters normalisation merges: the alif forms with hamza or madda
      become bare alif, alif maqsura and yeh with hamza become yeh, waw with
      hamza becomes waw, teh marbuta becomes heh. */
  function Fold(c: char): (f: char)
    ensures f == c || f in Merged
    ensures c in Merged ==> f == c
    ensures f != c ==> Arabic(c)
  {
    if c == '\U{0625}' || c == '\U{0623}' || c == '\U{0622}' || c == '\U{0627}' then '\U{0627}'
    else if c == '\U{0649}' then '\U{064A}'
    else if c == '\U{0624}' then '\U{0648}'
    else if c == '\U{0626}' then '\U{064A}'
    else if c == '\U{0629}' then '\U{0647}'
    else c
  }

  /** The letters the variants merge into: alif, yeh, waw, heh. */
  const Merged: string := "\U{0627}\U{064A}\U{0648}\U{0647}"

  /** Merging twice is merging once, and never yields a deleted mark. */
  lemma FoldFixed(c: char)
    ensures Fold(Fold(c)) == Fold(c)
    ensures !Removed(c) ==> !Removed(Fold(c))
  {
  }

  /** Arabic letters, which `toLowerCase` leaves alone. */
  predicate Arabic(c: char) {
    '\U{0600}' <= c <= '\U{06FF}'
  }

  /** What the model needs of `toLowerCase` on one character: lowering
      twice is lowering once, and Arabic letters have no case. */
  predicate LowerStable(lower: char -> char) {
    && (forall c, d :: d == lower(c) ==> lower(d) == d)
    && (forall c :: Arabic(c) ==> lower(c) == c)
  }

  function Strip(s: string): (r: string)
    ensures forall i :: 0 <= i < |r| ==> !Removed(r[i])
  {
    Filter(s, (c: char) => !Removed(c))
  }

  function FoldAll(s: string): (r: string)
    ensures |r| == |s|
    ensures forall i :: 0 <= i < |s| ==> r[i] == Fold(s[i])
  {
    seq(|s|, i requires 0 <= i < |s| => Fold(s[i]))
  }

  /** Normalisation before the final trim. */
  function Canon(s: string, lower: char -> char): (r: string)
    ensures forall i :: 0 <= i < |r| ==> !Removed(r[i]) && Fold(r[i]) == r[i]
  {
    var st := Strip(MapSeq(s, lower));
    forall i | 0 <= i < |st| ensures !Removed(Fold(st[i])) && Fold(Fold(st[i])) == Fold(st[i]) {
      FoldFixed(st[i]);
    }
    FoldAll(st)
  }

  /** The characters of a slice are characters of the whole. */
  lemma SliceChars(t: string, r: string, k: int)
    requires OccursAt(t, r, k)
    ensures forall i :: 0 <= i < |r| ==> r[i] == t[k + i]
  {
  }

  /** A string every normalisation step leaves alone. */
  predicate Normal(t: string, lower: char -> char) {
    forall i :: 0 <= i < |t| ==> lower(t[i]) == t[i] && !Removed(t[i]) && Fold(t[i]) == t[i]
  }

  /** `normalizeText(text)`: lower case, marks and tatweel deleted, letter
      variants merged, white space trimmed. */
  function NormalizeText(s: string, lower: char -> char): (r: string)
    ensures Trimmed(r)
    ensures forall i :: 0 <= i < |r| ==> !Removed(r[i]) && Fold(r[i]) == r[i]
  {
    TrimKeepsMerged(Canon(s, lower));
    Trim(Canon(s, lower))
  }

  lemma TrimKeepsMerged(t: string)
    requires forall i :: 0 <= i < |t| ==> !Removed(t[i]) && Fold(t[i]) == t[i]
    ensures forall i :: 0 <= i < |Trim(t)| ==> !Removed(Trim(t)[i]) && Fold(Trim(t)[i]) == Trim(t)[i]
  {
    var k :| OccursAt(t, Trim(t), k);
    SliceChars(t, Trim(t), k);
  }

  lemma {:induction false} CanonNormal(s: string, lower: char -> char)
    requires LowerStable(lower)
    ensures Normal(Canon(s, lower), lower)
  {
    var l := MapSeq(s, lower);
    var st := Strip(l);
    FilterMembers(l, (c: char) => !Removed(c));
    forall i | 0 <= i < |st|
      ensures lower(Fold(st[i])) == Fold(st[i])
    {
      assert st[i] in l;
      var j :| 0 <= j < |l| && l[j] == st[i];
      assert lower(l[j]) == l[j];
    }
  }

  lemma {:induction false} NormalFixed(t: string, lower: char -> char)
    requires Normal(t, lower)
    ensures Canon(t, lower) == t
  {
    assert MapSeq(t, lower) == t;
    FilterAll(t, (c: char) => !Removed(c));
    assert FoldAll(t) == t;
  }

  lemma NormalSlice(t: string, r: string, k: int, lower: char -> char)
    requires Normal(t, lower) && OccursAt(t, r, k)
    ensures Normal(r, lower)
  {
    SliceChars(t, r, k);
  }

  /** Normalising normalised text changes nothing. */
  lemma NormalizeIdempotent(s: string, lower: char -> char)
    requires LowerStable(lower)
    ensures NormalizeText(NormalizeText(s, lower), lower) == NormalizeText(s, lower)
  {
    var t := Canon(s, lower);
    var r := Trim(t);
    CanonNormal(s, lower);
    var k :| OccursAt(t, r, k);
    NormalSlice(t, r, k, lower);
    NormalFixed(r, lower);
    TrimIdempotent(t);
  }

  /** Normalisation works character by character before the trim. */
  lemma {:induction false} CanonAppend(a: string, b: string, lower: char -> char)
    ensures Canon(a + b, lower) == Canon(a, lower) + Canon(b, lower)
  {
    assert MapSeq(a + b, lower) == MapSeq(a, lower) + MapSeq(b, lower);
    FilterAppend(MapSeq(a, lower), MapSeq(b, lower), (c: char) => !Removed(c));
    var x := Strip(MapSeq(a, lower));
    var y := Strip(MapSeq(b, lower));
    assert FoldAll(x + y) == FoldAll(x) + FoldAll(y);
  }

  /** A mark or tatweel anywhere in the text makes no difference. */
  lemma DiacriticIgnored(x: string, d: char, y: string, lower: char -> char)
    requires LowerStable(lower) && Removed(d)
    ensures NormalizeText(x + [d] + y, lower) == NormalizeText(x + y, lower)
  {
    CanonAppend(x + [d], y, lower);
    CanonAppend(x, [d], lower);
    CanonAppend(x, y, lower);
    CanonRemoved(d, lower);
    assert Canon(x + [d] + y, lower) == Canon(x + y, lower);
  }

  lemma CanonRemoved(d: char, lower: char -> char)
    requires LowerStable(lower) && Removed(d)
    ensures Canon([d], lower) == []
  {
    assert Arabic(d);
    assert MapSeq([d], lower) == [d];
    assert Filter([d], (c: char) => !Removed(c)) == [];
  }

  lemma CanonLetter(a: char, lower: char -> char)
    requires LowerStable(lower) && Arabic(a) && !Removed(a)
    ensures Canon([a], lower) == [Fold(a)]
  {
    assert MapSeq([a], lower) == [a];
    assert Filter([a], (c: char) => !Removed(c)) == [a];
  }

  /** Two Arabic letters that normalise to the same letter are
      interchangeable: writing أ, إ, آ or ا, ى or ي, ؤ or و, ة or ه finds the
      same text. */
  lemma LetterVariantsMatch(x: string, a: char, b: char, y: string, lower: char -> char)
    requires LowerStable(lower)
    requires Arabic(a) && Arabic(b) && !Removed(a) && !Removed(b) && Fold(a) == Fold(b)
    ensures NormalizeText(x + [a] + y, lower) == NormalizeText(x + [b] + y, lower)
  {
    CanonAppend(x + [a], y, lower);
    CanonAppend(x, [a], lower);
    CanonAppend(x + [b], y, lower);
    CanonAppend(x, [b], lower);
    CanonLetter(a, lower);
    CanonLetter(b, lower);
  }

  /** `normalizeText(value)?.includes(query)` for some value of the list. */
  predicate Matches(values: seq<string>, query: string, lower: char -> char) {
    exists i :: 0 <= i < |values| && Contains(NormalizeText(values[i], lower), query)
  }

  /** `lawSearchContent(law)`: the id, the texts, every condition,
      expected result and source of the law, and its example. */
  function LawSearchContent(law: Law): (r: seq<string>)
    ensures forall v :: v in r <==>
              || v in [law.id, law.title, law.summary, law.details, law.example]
              || v in law.conditions || v in law.expectedResults || v in law.sources
  {
    [law.id, law.title, law.summary, law.details] + law.conditions + law.expectedResults
      + [law.example] + law.sources
  }

  /** A glossary entry. */
  datatype Term = Term(term: string, definition: string)

  /** `lawResults`: nothing for an empty normalised query; otherwise the
      laws with some searchable text containing it. */
  function LawResults(laws: seq<Law>, query: string, lower: char -> char): (r: seq<Law>)
    ensures NormalizeText(query, lower) == "" ==> r == []
    ensures forall i :: 0 <= i < |r| ==>
              r[i] in laws && Matches(LawSearchContent(r[i]), NormalizeText(query, lower), lower)
    ensures NormalizeText(query, lower) != "" ==>
              forall i :: 0 <= i < |laws| && Matches(LawSearchContent(laws[i]), NormalizeText(query, lower), lower)
                ==> laws[i] in r
  {
    var q := NormalizeText(query, lower);
    if q == "" then []
    else
      var p := (law: Law) => Matches(LawSearchContent(law), q, lower);
      FilterMembers(laws, p);
      Filter(laws, p)
  }

  /** `termResults`: the same for glossary entries, over the term and its
      definition. */
  function TermResults(terms: seq<Term>, query: string, lower: char -> char): (r: seq<Term>)
    ensures NormalizeText(query, lower) == "" ==> r == []
    ensures forall i :: 0 <= i < |r| ==>
              r[i] in terms && Matches([r[i].term, r[i].definition], NormalizeText(query, lower), lower)
    ensures NormalizeText(query, lower) != "" ==>
              forall i :: 0 <= i < |terms| && Matches([terms[i].term, terms[i].definition], NormalizeText(query, lower), lower)
                ==> terms[i] in r
  {
    var q := NormalizeText(query, lower);
    if q == "" then []
    else
      var p := (t: Term) => Matches([t.term, t.definition], q, lower);
      FilterMembers(terms, p);
      Filter(terms, p)
  }

  /** Results keep catalog order: the laws found in the front of the
      catalog come before those found in the rest. */
  lemma LawResultsInOrder(front: seq<Law>, rest: seq<Law>, query: string, lower: char -> char)
    ensures LawResults(front + rest, query, lower)
            == LawResults(front, query, lower) + LawResults(rest, query, lower)
  {
    var q := NormalizeText(query, lower);
    FilterAppend(front, rest, (law: Law) => Matches(LawSearchContent(law), q, lower));
  }

  /** A part of a part is a part. */
  lemma ContainsTransitive(text: string, mid: string, part: string)
    requires Contains(text, mid) && Contains(mid, part)
    ensures Contains(text, part)
  {
    var i :| 0 <= i <= |text| - |mid| && OccursAt(text, mid, i);
    var j :| 0 <= j <= |mid| - |part| && OccursAt(mid, part, j);
    forall k | 0 <= k < |part|
      ensures text[i + j..i + j + |part|][k] == part[k]
    {
      assert part[k] == mid[j..j + |part|][k] == mid[j + k];
      assert mid[j + k] == text[i..i + |mid|][j + k] == text[i + j + k];
    }
    assert text[i + j..i + j + |part|] == part;
    assert OccursAt(text, part, i + j);
  }

  /** Typing more narrows the results: every law found for a longer query
      whose normal form contains the shorter one's is found for the
      shorter one too. */
  lemma LongerQueryNarrows(laws: seq<Law>, short: string, long: string, lower: char -> char)
    requires NormalizeText(short, lower) != ""
    requires Contains(NormalizeText(long, lower), NormalizeText(short, lower))
    ensures forall law :: law in LawResults(laws, long, lower) ==> law in LawResults(laws, short, lower)
  {
    var qs := NormalizeText(short, lower);
    var ql := NormalizeText(long, lower);
    var rl := LawResults(laws, long, lower);
    forall law | law in rl
      ensures law in LawResults(laws, short, lower)
    {
      var n :| 0 <= n < |rl| && rl[n] == law;
      MatchNarrows(LawSearchContent(law), ql, qs, lower);
      var m :| 0 <= m < |laws| && laws[m] == law;
    }
  }

  /** Values that match a query match every part of it. */
  lemma MatchNarrows(vs: seq<string>, long: string, short: string, lower: char -> char)
    requires Matches(vs, long, lower) && Contains(long, short)
    ensures Matches(vs, short, lower)
  {
    var i :| 0 <= i < |vs| && Contains(NormalizeText(vs[i], lower), long);
    ContainsTransitive(NormalizeText(vs[i], lower), long, short);
  }
}

=== FILE: stable_sort.dfy ===
/** `Array.prototype.sort` with a numeric comparator `(a, b) => key(a) - key(b)`.
    The ECMAScript specification (since ES2019) requires this sort to be
    stable, so it is modelled as an insertion sort that places each element
    after every element whose key is not greater. */
module StableSort {
  import opened Prelude

  predicate SortedBy<T>(s: seq<T>, key: T -> real) {
    forall i, j :: 0 <= i < j < |s| ==> key(s[i]) <= key(s[j])
  }

  /** The predicate "has key `k`". */
  function KeyIs<T>(key: T -> real, k: real): T -> bool {
    x => key(x) == k
  }

  /** The elements of `s` whose key is `k`, in their order in `s`. */
  function WithKey<T>(s: seq<T>, key: T -> real, k: real): seq<T> {
    Filter(s, KeyIs(key, k))
  }

  /** Places `x` after the last element whose key is not greater than its own. */
  function Insert<T(==)>(s: seq<T>, x: T, key: T -> real): (r: seq<T>)
    ensures |r| == |s| + 1
    ensures multiset(r) == multiset(s) + multiset{x}
  {
    if |s| == 0 || key(s[|s| - 1]) <= key(x) then s + [x]
    else
      assert s == s[..|s| - 1] + [s[|s| - 1]];
      Insert(s[..|s| - 1], x, key) + [s[|s| - 1]]
  }

  /** Inserting keeps every key under a common bound. */
  lemma {:induction false} InsertBounded<T>(s: seq<T>, x: T, key: T -> real, b: real)
    requires forall i :: 0 <= i < |s| ==> key(s[i]) <= b
    requires key(x) <= b
    ensures forall i :: 0 <= i < |s| + 1 ==> key(Insert(s, x, key)[i]) <= b
  {
    if |s| > 0 && key(s[|s| - 1]) > key(x) {
      InsertBounded(s[..|s| - 1], x, key, b);
    }
  }

  /** Inserting into a sorted list keeps it sorted. */
  lemma {:induction false} InsertSorted<T>(s: seq<T>, x: T, key: T -> real)
    requires SortedBy(s, key)
    ensures SortedBy(Insert(s, x, key), key)
  {
    if |s| > 0 && key(s[|s| - 1]) > key(x) {
      var init := s[..|s| - 1];
      InsertSorted(init, x, key);
      InsertBounded(init, x, key, key(s[|s| - 1]));
    }
  }

  /** The sorted copy of `s`: ordered by key, a permutation of `s`. */
  function Sort<T(==)>(s: seq<T>, key: T -> real): (r: seq<T>)
    ensures |r| == |s|
    ensures multiset(r) == multiset(s)
    ensures SortedBy(r, key)
  {
    if |s| == 0 then []
    else
      assert s == s[..|s| - 1] + [s[|s| - 1]];
      var sorted := Sort(s[..|s| - 1], key);
      InsertSorted(sorted, s[|s| - 1], key);
      Insert(sorted, s[|s| - 1], key)
  }

  /** The key class of a one-element list. */
  lemma WithKeySingle<T>(x: T, key: T -> real, k: real)
    ensures WithKey([x], key, k) == if key(x) == k then [x] else []
  {
    assert [x][1..] == [];
  }

  /** Inserting `x` adds it at the end of its own key class and nowhere else. */
  lemma {:induction false} InsertWithKey<T>(s: seq<T>, x: T, key: T -> real, k: real)
    ensures WithKey(Insert(s, x, key), key, k)
         == WithKey(s, key, k) + (if key(x) == k then [x] else [])
  {
    var p := KeyIs(key, k);
    WithKeySingle(x, key, k);
    if |s| == 0 || key(s[|s| - 1]) <= key(x) {
      FilterAppend(s, [x], p);
    } else {
      var init := s[..|s| - 1];
      var last := s[|s| - 1];
      assert s == init + [last];
      WithKeySingle(last, key, k);
      InsertWithKey(init, x, key, k);
      FilterAppend(Insert(init, x, key), [last], p);
      FilterAppend(init, [last], p);
    }
  }

  /** Stability: the elements sharing any one key keep their input order. */
  lemma {:induction false} SortStable<T>(s: seq<T>, key: T -> real, k: real)
    ensures WithKey(Sort(s, key), key, k) == WithKey(s, key, k)
  {
    if |s| > 0 {
      var init := s[..|s| - 1];
      var last := s[|s| - 1];
      assert s == init + [last];
      SortStable(init, key, k);
      InsertWithKey(Sort(init, key), last, key, k);
      FilterAppend(init, [last], KeyIs(key, k));
    }
  }

  /** An already sorted list is left as it is. */
  lemma {:induction false} SortSorted<T>(s: seq<T>, key: T -> real)
    requires SortedBy(s, key)
    ensures Sort(s, key) == s
  {
    if |s| > 0 {
      var init := s[..|s| - 1];
      assert s == init + [s[|s| - 1]];
      SortSorted(init, key);
    }
  }

  /** Keys strictly increasing along the list. */
  predicate StrictlyBy<T>(s: seq<T>, key: T -> real) {
    forall i, j :: 0 <= i < j < |s| ==> key(s[i]) < key(s[j])
  }

  /** No two elements share a key. */
  predicate DistinctKeys<T>(s: seq<T>, key: T -> real) {
    forall i, j :: 0 <= i < j < |s| ==> key(s[i]) != key(s[j])
  }

  /** Inserting keeps every key under a common strict bound. */
  lemma {:induction false} InsertBelow<T>(s: seq<T>, x: T, key: T -> real, b: real)
    requires forall i :: 0 <= i < |s| ==> key(s[i]) < b
    requires key(x) < b
    ensures forall i :: 0 <= i < |s| + 1 ==> key(Insert(s, x, key)[i]) < b
  {
    if |s| > 0 && key(s[|s| - 1]) > key(x) {
      InsertBelow(s[..|s| - 1], x, key, b);
    }
  }

  /** Inserting an element with a new key into a strictly increasing list
      keeps it strictly increasing. */
  lemma {:induction false} InsertStrict<T>(s: seq<T>, x: T, key: T -> real)
    requires StrictlyBy(s, key)
    requires forall i :: 0 <= i < |s| ==> key(s[i]) != key(x)
    ensures StrictlyBy(Insert(s, x, key), key)
  {
    if |s| > 0 && key(s[|s| - 1]) > key(x) {
      var init := s[..|s| - 1];
      InsertStrict(init, x, key);
      InsertBelow(init, x, key, key(s[|s| - 1]));
    }
  }

  /** Sorting a list whose keys are pairwise distinct makes them strictly
      increasing. */
  lemma {:induction false} SortStrict<T>(s: seq<T>, key: T -> real)
    requires DistinctKeys(s, key)
    ensures StrictlyBy(Sort(s, key), key)
  {
    if |s| > 0 {
      var init := s[..|s| - 1];
      var last := s[|s| - 1];
      assert s == init + [last];
      SortStrict(init, key);
      var sorted := Sort(init, key);
      forall i | 0 <= i < |sorted| ensures key(sorted[i]) != key(last) {
        assert sorted[i] in multiset(init);
        var j :| 0 <= j < |init| && init[j] == sorted[i];
        assert s[j] == init[j];
      }
      InsertStrict(sorted, last, key);
    }
  }

  /** `f` keeps the key order between any two elements of `s`. */
  predicate OrderKeptOn<A(==), B>(s: seq<A>, f: A -> B, ka: A -> real, kb: B -> real) {
    forall a, b :: a in s && b in s ==> (kb(f(a)) <= kb(f(b)) <==> ka(a) <= ka(b))
  }

  /** The order is kept on every list whose elements are all in `s`. */
  lemma OrderKeptOnSub<A, B>(s: seq<A>, t: seq<A>, f: A -> B, ka: A -> real, kb: B -> real)
    requires OrderKeptOn(s, f, ka, kb)
    requires forall a :: a in t ==> a in s
    ensures OrderKeptOn(t, f, ka, kb)
  {
  }

  /** Inserting commutes with a map that keeps the key order. */
  lemma {:induction false} InsertMap<A, B>(s: seq<A>, x: A, f: A -> B, ka: A -> real, kb: B -> real)
    requires OrderKeptOn(s + [x], f, ka, kb)
    ensures Insert(MapSeq(s, f), f(x), kb) == MapSeq(Insert(s, x, ka), f)
  {
    var m := MapSeq(s, f);
    assert x in s + [x];
    if |s| == 0 || ka(s[|s| - 1]) <= ka(x) {
      if |s| > 0 {
        assert (s + [x])[|s| - 1] == s[|s| - 1];
      }
      assert MapSeq(s + [x], f) == m + [f(x)];
    } else {
      var init := s[..|s| - 1];
      assert (s + [x])[|s| - 1] == s[|s| - 1];
      assert m[..|m| - 1] == MapSeq(init, f);
      assert forall a :: a in init + [x] ==> a in s + [x] by {
        forall a | a in init + [x] ensures a in s + [x] {
          var i :| 0 <= i < |init + [x]| && (init + [x])[i] == a;
          if i < |init| {
            assert (s + [x])[i] == a;
          }
        }
      }
      OrderKeptOnSub(s + [x], init + [x], f, ka, kb);
      InsertMap(init, x, f, ka, kb);
      assert MapSeq(Insert(init, x, ka) + [s[|s| - 1]], f) == MapSeq(Insert(init, x, ka), f) + [f(s[|s| - 1])];
    }
  }

  /** Sorting commutes with a map that keeps the key order of the list's
      elements. */
  lemma {:induction false} SortMap<A, B>(s: seq<A>, f: A -> B, ka: A -> real, kb: B -> real)
    requires OrderKeptOn(s, f, ka, kb)
    ensures Sort(MapSeq(s, f), kb) == MapSeq(Sort(s, ka), f)
  {
    if |s| > 0 {
      var init := s[..|s| - 1];
      var last := s[|s| - 1];
      var m := MapSeq(s, f);
      assert m[..|m| - 1] == MapSeq(init, f);
      assert forall a :: a in init ==> a in s;
      OrderKeptOnSub(s, init, f, ka, kb);
      SortMap(init, f, ka, kb);
      SortedElements(init, ka, s, last);
      OrderKeptOnSub(s, Sort(init, ka) + [last], f, ka, kb);
      InsertMap(Sort(init, ka), last, f, ka, kb);
    }
  }

  /** The sorted copy of the first elements of `s`, followed by the last,
      holds elements of `s` only. */
  lemma SortedElements<A>(init: seq<A>, ka: A -> real, s: seq<A>, last: A)
    requires |s| > 0 && init == s[..|s| - 1] && last == s[|s| - 1]
    ensures forall a :: a in Sort(init, ka) + [last] ==> a in s
  {
    forall a | a in Sort(init, ka) + [last] ensures a in s {
      if a in Sort(init, ka) {
        assert a in multiset(Sort(init, ka));
        assert a in multiset(init);
        assert a in init;
      }
    }
  }
}

=== FILE: storage.dfy ===
/** The app's key-value storage helpers (src/utils/storage.js) over an
    abstract `localStorage`: a map from keys to stored strings. JSON text is
    left abstract too: `parse` stands for `JSON.parse` (None when it
    throws) and `stringify` for `JSON.stringify` (None when it throws);
    `canWrite` says whether `setItem` succeeds (it throws when the quota is
    full). */
module Storage {
  import opened Prelude
  import opened Text

  type Store = map<string, string>

  /** The JSON values the app stores. */
  datatype Json =
    | JNull
    | JBool(b: bool)
    | JNumber(n: real)
    | JString(s: string)
    | JArray(items: seq<Json>)
    | JObject(fields: seq<(string, Json)>)

  const Prefix: string := "tb:"
  const StorageVersion: Json := JNumber(1.0)

  /** The named entries of `keys`. */
  datatype Key = Version | CompletedLawIds | Progress | AppliedLaw | ChartData | TutorialState | DisableChart

  function KeyName(k: Key): (name: string)
    ensures StartsWith(name, Prefix)
    ensures |name| > |Prefix|
  {
    Prefix + match k
      case Version => "version"
      case CompletedLawIds => "completedLawIds"
      case Progress => "progress"
      case AppliedLaw => "appliedLaw"
      case ChartData => "chartData"
      case TutorialState => "tutorialState"
      case DisableChart => "disableChart"
  }

  /** No two entries of `keys` share a storage key. */
  lemma KeyNamesDistinct(a: Key, b: Key)
    requires a != b
    ensures KeyName(a) != KeyName(b)
  {
    var sa := KeyName(a)[|Prefix|..];
    var sb := KeyName(b)[|Prefix|..];
    assert KeyName(a) == Prefix + sa && KeyName(b) == Prefix + sb;
  }

  /** `safeJsonParse(value, fallback)`: the parsed value, or the fallback
      when parsing throws. */
  function SafeJsonParse(value: string, fallback: Json, parse: string -> Option<Json>): (r: Json)
    ensures parse(value).Some? ==> r == parse(value).value
    ensures parse(value).None? ==> r == fallback
  {
    match parse(value)
    case Some(v) => v
    case None => fallback
  }

  /** `safeGetJSON(key, fallback)`: the stored value when the key is
      present and its text parses to something other than null; the
      fallback otherwise. */
  function SafeGetJson(store: Store, key: string, fallback: Json, parse: string -> Option<Json>): (r: Json)
    ensures r == fallback || (key in store && parse(store[key]) == Some(r) && r != JNull)
    ensures (key in store && parse(store[key]).Some? && parse(store[key]).value != JNull)
            ==> r == parse(store[key]).value
    ensures (key !in store || parse(store[key]).None? || parse(store[key]) == Some(JNull))
            ==> r == fallback
  {
    if key !in store then fallback
    else
      var parsed := SafeJsonParse(store[key], fallback, parse);
      if parsed == JNull then fallback else parsed
  }

  /** `safeSetJSON(key, value)`: the store after the write, and whether the
      write happened. */
  function SafeSetJson(store: Store, key: string, value: Json, stringify: Json -> Option<string>, canWrite: bool)
    : (r: (Store, bool))
    ensures r.1 <==> stringify(value).Some? && canWrite
    ensures r.1 ==> r.0 == store[key := stringify(value).value]
    ensures !r.1 ==> r.0 == store
  {
    match stringify(value)
    case Some(text) => if canWrite then (store[key := text], true) else (store, false)
    case None => (store, false)
  }

  /** `JSON.parse(JSON.stringify(v))` gives `v` back. */
  ghost predicate RoundTrips(v: Json, parse: string -> Option<Json>, stringify: Json -> Option<string>) {
    stringify(v).Some? && parse(stringify(v).value) == Some(v)
  }

  /** A successful write of a non-null value that survives the JSON round
      trip is read back by `safeGetJSON`; every other key reads as before. */
  lemma GetAfterSet(store: Store, key: string, value: Json, fallback: Json, other: string,
                    parse: string -> Option<Json>, stringify: Json -> Option<string>)
    requires RoundTrips(value, parse, stringify) && value != JNull
    requires other != key
    ensures var (s, ok) := SafeSetJson(store, key, value, stringify, true);
            && ok
            && SafeGetJson(s, key, fallback, parse) == value
            && SafeGetJson(s, other, fallback, parse) == SafeGetJson(store, other, fallback, parse)
  {
  }

  /** The keys that `clearAppStorage` collects, in `localStorage.key(i)`
      order. */
  function ToDelete(keys: seq<string>): (ds: seq<string>)
    ensures forall k :: k in ds <==> k in keys && StartsWith(k, Prefix)
  {
    if |keys| == 0 then []
    else
      var rest := ToDelete(keys[1..]);
      if keys[0] != "" && StartsWith(keys[0], Prefix) then [keys[0]] + rest else rest
  }

  /** `removeItem` for each key in turn. */
  function RemoveAll(store: Store, ks: seq<string>): (r: Store)
    ensures forall k :: k in r <==> k in store && k !in ks
    ensures forall k :: k in r ==> r[k] == store[k]
  {
    if |ks| == 0 then store
    else RemoveAll(store - {ks[0]}, ks[1..])
  }

  /** The keys as `localStorage.key(0..length-1)` lists them: each stored
      key exactly once, in some order. */
  predicate Enumerates(store: Store, keys: seq<string>) {
    (forall k :: k in keys ==> k in store)
    && (forall k :: k in store ==> k in keys)
    && forall i, j :: 0 <= i < j < |keys| ==> keys[i] != keys[j]
  }

  /** `clearAppStorage()`: every key with the prefix is gone, every other
      entry is untouched. */
  function ClearAppStorage(store: Store, keys: seq<string>): (r: Store)
    requires Enumerates(store, keys)
    ensures forall k :: k in r <==> k in store && !StartsWith(k, Prefix)
    ensures forall k :: k in r ==> r[k] == store[k]
  {
    RemoveAll(store, ToDelete(keys))
  }

  /** Clearing is the same whatever order the keys are listed in. */
  lemma ClearOrderIrrelevant(store: Store, keys: seq<string>, others: seq<string>)
    requires Enumerates(store, keys) && Enumerates(store, others)
    ensures ClearAppStorage(store, keys) == ClearAppStorage(store, others)
  {
    var a := ClearAppStorage(store, keys);
    var b := ClearAppStorage(store, others);
    assert a.Keys == b.Keys;
  }

  /** The stored version, as `ensureStorageVersion` reads it. */
  function StoredVersion(store: Store, parse: string -> Option<Json>): Json {
    SafeGetJson(store, KeyName(Version), JNull, parse)
  }

  /** `ensureStorageVersion()`: when the stored version is not 1, clear the
      app's keys and write version 1; otherwise leave the store alone. */
  function EnsureStorageVersion(store: Store, keys: seq<string>, parse: string -> Option<Json>,
                                stringify: Json -> Option<string>, canWrite: bool): (r: Store)
    requires Enumerates(store, keys)
    ensures StoredVersion(store, parse) == StorageVersion ==> r == store
    ensures StoredVersion(store, parse) != StorageVersion ==>
              forall k :: k != KeyName(Version) ==> (k in r <==> k in store && !StartsWith(k, Prefix))
    ensures forall k :: k in store && !StartsWith(k, Prefix) ==> k in r && r[k] == store[k]
  {
    if StoredVersion(store, parse) == StorageVersion then store
    else SafeSetJson(ClearAppStorage(store, keys), KeyName(Version), StorageVersion, stringify, canWrite).0
  }

  /** With a working write and a JSON round trip for the number 1, the
      version reads as 1 afterwards, and a second call changes nothing. */
  lemma EnsureVersionSettles(store: Store, keys: seq<string>, again: seq<string>,
                             parse: string -> Option<Json>, stringify: Json -> Option<string>)
    requires Enumerates(store, keys)
    requires RoundTrips(StorageVersion, parse, stringify)
    requires Enumerates(EnsureStorageVersion(store, keys, parse, stringify, true), again)
    ensures var r := EnsureStorageVersion(store, keys, parse, stringify, true);
            && StoredVersion(r, parse) == StorageVersion
            && EnsureStorageVersion(r, again, parse, stringify, true) == r
  {
    var r := EnsureStorageVersion(store, keys, parse, stringify, true);
    if StoredVersion(store, parse) != StorageVersion {
      var cleared := ClearAppStorage(store, keys);
      assert r == cleared[KeyName(Version) := stringify(StorageVersion).value];
    }
  }
}

=== FILE: text.dfy ===
/** String helpers with the meaning of their JavaScript counterparts:
    `trim`, `includes`, `split`, `replace` of one character. */
module Text {

  /** The characters `String.prototype.trim` and the regular-expression
      class `\s` both treat as white space (ECMAScript WhiteSpace and
      LineTerminator). */
  predicate IsSpace(c: char) {
    || c == '\U{0009}' || c == '\U{000A}' || c == '\U{000B}' || c == '\U{000C}'
    || c == '\U{000D}' || c == '\U{0020}' || c == '\U{00A0}' || c == '\U{1680}'
    || ('\U{2000}' <= c <= '\U{200A}')
    || c == '\U{2028}' || c == '\U{2029}' || c == '\U{202F}' || c == '\U{205F}'
    || c == '\U{3000}' || c == '\U{FEFF}'
  }

  function TrimStart(s: string): (r: string)
    ensures |r| <= |s| && r == s[|s| - |r|..]
    ensures |r| > 0 ==> !IsSpace(r[0])
    ensures forall i :: 0 <= i < |s| - |r| ==> IsSpace(s[i])
  {
    if |s| > 0 && IsSpace(s[0]) then TrimStart(s[1..]) else s
  }

  function TrimEnd(s: string): (r: string)
    ensures |r| <= |s| && r == s[..|r|]
    ensures |r| > 0 ==> !IsSpace(r[|r| - 1])
    ensures forall i :: |r| <= i < |s| ==> IsSpace(s[i])
  {
    if |s| > 0 && IsSpace(s[|s| - 1]) then TrimEnd(s[..|s| - 1]) else s
  }

  /** `s.trim()`: the longest slice of `s` with no white space at either end. */
  function Trim(s: string): (r: string)
    ensures |r| <= |s|
    ensures exists i :: OccursAt(s, r, i) && AllSpace(s[..i]) && AllSpace(s[i + |r|..])
    ensures Trimmed(r)
  {
    var t := TrimStart(s);
    var r := TrimEnd(t);
    TrimSlices(s, t, r);
    r
  }

  /** Stripping white space from the start of `s` and then from the end
      leaves a slice of `s` with white space only around it. */
  lemma TrimSlices(s: string, t: string, r: string)
    requires |t| <= |s| && t == s[|s| - |t|..] && forall j :: 0 <= j < |s| - |t| ==> IsSpace(s[j])
    requires |r| <= |t| && r == t[..|r|] && forall j :: |r| <= j < |t| ==> IsSpace(t[j])
    ensures var i := |s| - |t|;
            OccursAt(s, r, i) && AllSpace(s[..i]) && AllSpace(s[i + |r|..])
  {
    var i := |s| - |t|;
    assert r == s[i..i + |r|];
    assert s[i + |r|..] == t[|r|..];
  }

  /** A string with no white space at either end. */
  predicate Trimmed(s: string) {
    |s| > 0 ==> !IsSpace(s[0]) && !IsSpace(s[|s| - 1])
  }

  /** Trimming a trimmed string changes nothing. */
  lemma TrimTrimmed(s: string)
    requires Trimmed(s)
    ensures Trim(s) == s
  {
  }

  lemma TrimIdempotent(s: string)
    ensures Trim(Trim(s)) == Trim(s)
  {
    TrimTrimmed(Trim(s));
  }

  /** `part` occurs in `text` starting at index `i`. */
  predicate OccursAt(text: string, part: string, i: int) {
    0 <= i <= |text| - |part| && text[i..i + |part|] == part
  }

  /** `text.includes(part)` */
  predicate Contains(text: string, part: string) {
    exists i | 0 <= i <= |text| - |part| :: OccursAt(text, part, i)
  }

  /** Every string contains the empty string, and itself. */
  lemma ContainsEmptyAndSelf(text: string)
    ensures Contains(text, "")
    ensures Contains(text, text)
  {
    assert OccursAt(text, "", 0);
    assert OccursAt(text, text, 0);
  }

  /** A part of a prefix is a part of the whole. */
  lemma ContainsInPrefix(text: string, extra: string, part: string)
    requires Contains(text, part)
    ensures Contains(text + extra, part)
  {
    var i: int :| 0 <= i <= |text| - |part| && OccursAt(text, part, i);
    assert (text + extra)[i..i + |part|] == text[i..i + |part|];
    assert OccursAt(text + extra, part, i);
  }

  /** A part of a suffix is a part of the whole. */
  lemma ContainsInSuffix(extra: string, text: string, part: string)
    requires Contains(text, part)
    ensures Contains(extra + text, part)
  {
    var i: int :| 0 <= i <= |text| - |part| && OccursAt(text, part, i);
    assert (extra + text)[|extra| + i..|extra| + i + |part|] == text[i..i + |part|];
    assert OccursAt(extra + text, part, |extra| + i);
  }

  /** `s.startsWith(prefix)` */
  predicate StartsWith(s: string, prefix: string) {
    |prefix| <= |s| && s[..|prefix|] == prefix
  }

  /** `s.replace(/x/g, y)` for a single character `x`. */
  function ReplaceAll(s: string, x: char, y: char): (r: string)
    ensures |r| == |s|
    ensures forall i :: 0 <= i < |s| ==> r[i] == if s[i] == x then y else s[i]
  {
    if |s| == 0 then "" else [if s[0] == x then y else s[0]] + ReplaceAll(s[1..], x, y)
  }

  /** `s.replace(/x/g, '')` for a single character `x`. */
  function RemoveAll(s: string, x: char): (r: string)
    ensures x !in r
    ensures |r| <= |s|
    ensures forall c :: c in r <==> c in s && c != x
  {
    if |s| == 0 then "" else (if s[0] == x then "" else [s[0]]) + RemoveAll(s[1..], x)
  }

  /** Removing a character that does not occur changes nothing. */
  lemma {:induction false} RemoveAbsent(s: string, x: char)
    requires x !in s
    ensures RemoveAll(s, x) == s
  {
    if |s| > 0 {
      assert s == [s[0]] + s[1..];
      RemoveAbsent(s[1..], x);
    }
  }

  /** Index of the first occurrence of `c` in `s`, `|s|` when absent. */
  function IndexOf(s: string, c: char): (k: nat)
    ensures k <= |s|
    ensures k < |s| ==> s[k] == c
    ensures c !in s[..k]
    ensures k == |s| <==> c !in s
  {
    if |s| == 0 then 0
    else if s[0] == c then 0
    else
      var k := 1 + IndexOf(s[1..], c);
      assert s[..k] == [s[0]] + s[1..][..k - 1];
      k
  }

  /** `s.replace(x, y)` with a string pattern: only the first occurrence. */
  function ReplaceFirst(s: string, x: char, y: char): (r: string)
    ensures |r| == |s|
    ensures x in s ==> r == s[..IndexOf(s, x)] + [y] + s[IndexOf(s, x) + 1..]
    ensures x !in s ==> r == s
  {
    var k := IndexOf(s, x);
    if k == |s| then s else s[..k] + [y] + s[k + 1..]
  }

  /** `s.split(sep)` for a one-character separator: always at least one
      part, and no part holds the separator. */
  function Split(s: string, sep: char): (parts: seq<string>)
    ensures |parts| >= 1
    ensures forall i :: 0 <= i < |parts| ==> sep !in parts[i]
    ensures Join(parts, sep) == s
    decreases |s|
  {
    var k := IndexOf(s, sep);
    if k == |s| then [s]
    else
      var rest := Split(s[k + 1..], sep);
      assert s == s[..k] + [sep] + s[k + 1..];
      [s[..k]] + rest
  }

  /** `parts.join(sep)` */
  function Join(parts: seq<string>, sep: char): string
    requires |parts| >= 1
  {
    if |parts| == 1 then parts[0] else parts[0] + [sep] + Join(parts[1..], sep)
  }

  /** Splitting a joined list of separator-free parts gives the parts back. */
  lemma {:induction false} SplitJoin(parts: seq<string>, sep: char)
    requires |parts| >= 1
    requires forall i :: 0 <= i < |parts| ==> sep !in parts[i]
    ensures Split(Join(parts, sep), sep) == parts
  {
    var s := Join(parts, sep);
    if |parts| == 1 {
      assert IndexOf(s, sep) == |s|;
    } else {
      var head := parts[0];
      var tail := Join(parts[1..], sep);
      assert s == head + [sep] + tail;
      IndexOfAfterFree(head, sep, tail);
      assert s[|head| + 1..] == tail;
      assert s[..|head|] == head;
      SplitJoin(parts[1..], sep);
    }
  }

  /** In `head + [c] + tail`, with `c` not in `head`, the first `c` is just after `head`. */
  lemma {:induction false} IndexOfAfterFree(head: string, c: char, tail: string)
    requires c !in head
    ensures IndexOf(head + [c] + tail, c) == |head|
  {
    var s := head + [c] + tail;
    assert s[|head|] == c;
    assert s[..|head|] == head;
  }

  /** A string of white space only. */
  predicate AllSpace(s: string) {
    forall i :: 0 <= i < |s| ==> IsSpace(s[i])
  }

  /** Trimming drops white-space padding around a trimmed, non-empty core. */
  lemma TrimPadded(pre: string, core: string, post: string)
    requires AllSpace(pre) && AllSpace(post)
    requires |core| > 0 && Trimmed(core)
    ensures Trim(pre + core + post) == core
  {
    var x := pre + core + post;
    assert x == pre + (core + post);
    TrimStartPadded(pre, core + post);
    assert TrimStart(x) == core + post;
    TrimEndPadded(core, post);
    assert TrimEnd(TrimStart(x)) == core;
  }

  /** White space alone trims to the empty string. */
  lemma TrimAllSpace(s: string)
    requires AllSpace(s)
    ensures Trim(s) == ""
  {
    var i :| OccursAt(s, Trim(s), i) && AllSpace(s[..i]) && AllSpace(s[i + |Trim(s)|..]);
  }

  /** Trimming removes white space only, and as much as it can: a slice of
      `s` with white space only around it and none at either of its ends
      is the trim of `s`, when it is non-empty or `s` is all white space. */
  lemma TrimUnique(s: string, c: string, i: int)
    requires OccursAt(s, c, i) && AllSpace(s[..i]) && AllSpace(s[i + |c|..]) && Trimmed(c)
    ensures Trim(s) == c
  {
    assert s == s[..i] + c + s[i + |c|..];
    if |c| > 0 {
      TrimPadded(s[..i], c, s[i + |c|..]);
    } else {
      assert AllSpace(s) by {
        forall j | 0 <= j < |s| ensures IsSpace(s[j]) {
          if j < i {
            assert s[j] == s[..i][j];
          } else {
            assert s[j] == s[i + |c|..][j - i];
          }
        }
      }
      TrimAllSpace(s);
    }
  }

  lemma {:induction false} TrimStartPadded(pre: string, rest: string)
    requires AllSpace(pre)
    requires |rest| > 0 && !IsSpace(rest[0])
    ensures TrimStart(pre + rest) == rest
    decreases |pre|
  {
    if |pre| > 0 {
      assert (pre + rest)[1..] == pre[1..] + rest;
      TrimStartPadded(pre[1..], rest);
    } else {
      assert pre + rest == rest;
    }
  }

  lemma {:induction false} TrimEndPadded(core: string, post: string)
    requires AllSpace(post)
    requires |core| > 0 && !IsSpace(core[|core| - 1])
    ensures TrimEnd(core + post) == core
    decreases |post|
  {
    if |post| > 0 {
      var n := |post| - 1;
      assert (core + post)[..|core + post| - 1] == core + post[..n];
      TrimEndPadded(core, post[..n]);
    } else {
      assert core + post == core;
    }
  }
}

=== FILE: training.dfy ===
/** The training quiz (src/pages/TrainingPage.jsx): one question at a time,
    one answer per question, a running score and a summary after the last
    question. The question texts are left out; what the logic needs of a
    question is the index of its correct option. */
module Training {
  import opened Prelude

  /** The correct option of each of the six questions, in order. */
  const AnswerIndex: seq<nat> := [1, 1, 1, 0, 1, 0]

  /** `currentIndex`, `selectedIndex` (None for `null`), `score` and
      `showSummary`. */
  datatype Quiz = Quiz(index: nat, selected: Option<nat>, score: nat, summary: bool)

  /** The states the page can reach: the position is a question, the score
      counts at most the questions answered so far, and the summary shows
      only once the last question is answered. */
  predicate Valid(answers: seq<nat>, q: Quiz) {
    && q.index < |answers|
    && q.score <= q.index + (if q.selected.Some? then 1 else 0)
    && (q.summary ==> q.selected.Some? && q.index == |answers| - 1)
  }

  /** The first render, and what `handleRestart` returns to. */
  function Restart(answers: seq<nat>): (q: Quiz)
    requires |answers| > 0
    ensures Valid(answers, q)
    ensures q.index == 0 && q.selected.None? && q.score == 0 && !q.summary
  {
    Quiz(0, None, 0, false)
  }

  /** `isCorrect`: an answer was given and it is the current question's
      correct option. */
  predicate IsCorrect(answers: seq<nat>, q: Quiz)
    requires Valid(answers, q)
  {
    q.selected.Some? && q.selected.value == answers[q.index]
  }

  /** `handleAnswer(optionIndex)`: the first answer to a question is
      recorded and scores a point exactly when it is correct; later answers
      are ignored. */
  function Answer(answers: seq<nat>, q: Quiz, option: nat): (r: Quiz)
    requires Valid(answers, q)
    ensures Valid(answers, r)
    ensures q.selected.Some? ==> r == q
    ensures q.selected.None? ==>
              && r.selected == Some(option)
              && r.index == q.index && r.summary == q.summary
              && (IsCorrect(answers, r) <==> option == answers[q.index])
              && r.score == q.score + (if IsCorrect(answers, r) then 1 else 0)
  {
    if q.selected.Some? then q
    else q.(selected := Some(option), score := q.score + (if option == answers[q.index] then 1 else 0))
  }

  /** `handleNext`: ignored until the question is answered; on the last
      question it shows the summary; otherwise it moves to the next
      question with no answer selected. The score is never touched. */
  function Next(answers: seq<nat>, q: Quiz): (r: Quiz)
    requires Valid(answers, q)
    ensures Valid(answers, r)
    ensures r.score == q.score
    ensures q.selected.None? ==> r == q
    ensures q.selected.Some? && q.index == |answers| - 1 ==> r == q.(summary := true)
    ensures q.selected.Some? && q.index < |answers| - 1 ==>
              r.index == q.index + 1 && r.selected.None? && !r.summary
  {
    if q.selected.None? then q
    else if q.index == |answers| - 1 then q.(summary := true)
    else q.(index := q.index + 1, selected := None)
  }

  /** The number of the picks that match the correct options of the
      questions from `from` on. */
  function CorrectPicks(answers: seq<nat>, from: nat, picks: seq<nat>): (n: nat)
    requires from + |picks| <= |answers|
    ensures n <= |picks|
    decreases |picks|
  {
    if |picks| == 0 then 0
    else (if picks[0] == answers[from] then 1 else 0) + CorrectPicks(answers, from + 1, picks[1..])
  }

  /** Answering with `picks[0]` and pressing next, then the same for the
      rest of the picks. */
  function Take(answers: seq<nat>, q: Quiz, picks: seq<nat>): (r: Quiz)
    requires Valid(answers, q)
    ensures Valid(answers, r)
    decreases |picks|
  {
    if |picks| == 0 then q else Take(answers, Next(answers, Answer(answers, q, picks[0])), picks[1..])
  }

  /** Going through the questions from an unanswered one: after fewer
      picks than questions remain, the quiz sits on the next unanswered
      question; after exactly as many, the summary shows; either way the
      score has grown by the number of correct picks. */
  lemma {:induction false} TakeScores(answers: seq<nat>, q: Quiz, picks: seq<nat>)
    requires Valid(answers, q) && q.selected.None? && !q.summary
    requires q.index + |picks| <= |answers|
    ensures var r := Take(answers, q, picks);
            && r.score == q.score + CorrectPicks(answers, q.index, picks)
            && (q.index + |picks| < |answers| ==>
                  r.index == q.index + |picks| && r.selected.None? && !r.summary)
            && (q.index + |picks| == |answers| && |picks| > 0 ==>
                  r.index == |answers| - 1 && r.summary)
    decreases |picks|
  {
    if |picks| > 0 {
      var a := Answer(answers, q, picks[0]);
      var t := Next(answers, a);
      if q.index == |answers| - 1 {
        assert |picks| == 1;
        assert t.summary && t.index == |answers| - 1;
        assert Take(answers, q, picks) == t;
      } else {
        TakeScores(answers, t, picks[1..]);
      }
    }
  }

  /** The summary's score: one full pass through the quiz scores exactly
      the number of questions answered correctly, and never more than the
      number of questions. */
  lemma FullPassScore(answers: seq<nat>, picks: seq<nat>)
    requires |answers| > 0 && |picks| == |answers|
    ensures var r := Take(answers, Restart(answers), picks);
            && r.summary
            && r.score == CorrectPicks(answers, 0, picks)
            && r.score <= |answers|
  {
    TakeScores(answers, Restart(answers), picks);
  }

  /** The buttons of the page. */
  datatype Action = Pick(option: nat) | NextQuestion | Again

  function Step(answers: seq<nat>, q: Quiz, a: Action): (r: Quiz)
    requires Valid(answers, q)
    ensures Valid(answers, r)
  {
    match a
    case Pick(option) => Answer(answers, q, option)
    case NextQuestion => Next(answers, q)
    case Again => Restart(answers)
  }

  function Run(answers: seq<nat>, q: Quiz, actions: seq<Action>): (r: Quiz)
    requires Valid(answers, q)
    ensures Valid(answers, r)
    decreases |actions|
  {
    if |actions| == 0 then q else Run(answers, Step(answers, q, actions[0]), actions[1..])
  }

  /** Once the summary shows, only a restart changes the state: answering
      and moving on leave it as it is; and its score never exceeds the
      number of questions. */
  lemma {:induction false} SummaryIsFinal(answers: seq<nat>, q: Quiz, actions: seq<Action>)
    requires Valid(answers, q) && q.summary
    requires forall i :: 0 <= i < |actions| ==> actions[i] != Again
    ensures Run(answers, q, actions) == q
    ensures q.score <= |answers|
    decreases |actions|
  {
    if |actions| > 0 {
      assert actions[0] != Again;
      assert Step(answers, q, actions[0]) == q;
      SummaryIsFinal(answers, q, actions[1..]);
    }
  }

  /** The six questions of the page, played through. */
  lemma QuizOfSix(picks: seq<nat>)
    requires |picks| == |AnswerIndex|
    ensures Take(AnswerIndex, Restart(AnswerIndex), picks).score <= 6
    ensures Take(AnswerIndex, Restart(AnswerIndex), AnswerIndex).score == 6
  {
    FullPassScore(AnswerIndex, picks);
    FullPassScore(AnswerIndex, AnswerIndex);
    assert CorrectPicks(AnswerIndex, 0, AnswerIndex) == 6;
  }
}

=== FILE: tutorial.dfy ===
/** The shared applied-law and tutorial state (src/context/AppliedLawContext.jsx):
    the id of the law drawn on the chart and an optional guided tutorial
    for one law, with its step, the user's inputs, the completed steps and
    an error message. Each exposed setter is an action; the effect that ends
    a tutorial whose law is no longer applied runs after each render, that
    is after every handler, once all the calls of the handler are applied. */
module Tutorial {
  import opened Prelude

  /** `appliedLawId`, `tutorialActive`, `tutorialLawId`,
      `tutorialStepIndex`, `tutorialInputs`, `tutorialStepCompleted` and
      `tutorialError`; `null` is None. */
  datatype State = State(
    applied: Option<string>,
    active: bool,
    lawId: Option<string>,
    step: int,
    inputs: map<string, string>,
    completed: map<int, bool>,
    error: string)

  /** The provider's initial state. */
  function Initial(): (s: State)
    ensures !s.active && s.applied.None? && s.lawId.None? && s.step == 0
    ensures s.inputs == map[] && s.completed == map[] && s.error == ""
  {
    State(None, false, None, 0, map[], map[], "")
  }

  /** A law id as a JavaScript condition sees it: null and "" are false. */
  predicate Truthy(id: Option<string>) {
    id.Some? && id.value != ""
  }

  /** `startTutorial(lawId)`: a fresh tutorial for the law. */
  function Start(s: State, id: string): (r: State)
    ensures r.active && r.lawId == Some(id) && r.step == 0
    ensures r.inputs == map[] && r.completed == map[] && r.error == ""
    ensures r.applied == s.applied
  {
    s.(active := true, lawId := Some(id), step := 0, inputs := map[], completed := map[], error := "")
  }

  /** `endTutorial()`: no tutorial, and every tutorial field back to its
      initial value; the applied law stays. */
  function End(s: State): (r: State)
    ensures r == Initial().(applied := s.applied)
  {
    s.(active := false, lawId := None, step := 0, inputs := map[], completed := map[], error := "")
  }

  /** `markStepCompleted(stepIndex)`: that step is marked, nothing else
      changes. */
  function MarkStep(s: State, stepIndex: int): (r: State)
    ensures stepIndex in r.completed && r.completed[stepIndex]
    ensures forall k :: k != stepIndex ==> (k in r.completed <==> k in s.completed)
    ensures forall k :: k != stepIndex && k in s.completed ==> r.completed[k] == s.completed[k]
    ensures r.(completed := s.completed) == s
  {
    s.(completed := s.completed[stepIndex := true])
  }

  /** `setTutorialInput(key, value)`: that input is set, nothing else
      changes. */
  function SetInput(s: State, key: string, value: string): (r: State)
    ensures key in r.inputs && r.inputs[key] == value
    ensures forall k :: k != key ==> (k in r.inputs <==> k in s.inputs)
    ensures forall k :: k != key && k in s.inputs ==> r.inputs[k] == s.inputs[k]
    ensures r.(inputs := s.inputs) == s
  {
    s.(inputs := s.inputs[key := value])
  }

  /** `nextTutorialStep()`: one step on, without an upper bound. */
  function NextStep(s: State): (r: State)
    ensures r.step > s.step && r.(step := s.step) == s
  {
    s.(step := s.step + 1)
  }

  /** `previousTutorialStep()`: one step back, never below step 0. */
  function PreviousStep(s: State): (r: State)
    ensures r.step >= 0 && (r.step < s.step || s.step <= 0)
    ensures s.step >= 1 ==> r.step == s.step - 1
    ensures s.step <= 1 ==> r.step == 0
    ensures r.(step := s.step) == s
  {
    s.(step := if s.step - 1 > 0 then s.step - 1 else 0)
  }

  /** Going back undoes going forward from any step reached by the
      actions; going forward undoes going back except at step 0. */
  lemma StepsUndo(s: State)
    requires s.step >= 0
    ensures PreviousStep(NextStep(s)) == s
    ensures NextStep(PreviousStep(s)) == s <==> s.step > 0
  {
  }

  /** The effect on `[appliedLawId, tutorialActive, tutorialLawId]`: an
      active tutorial whose law is set and is not the applied law ends. */
  function Settle(s: State): (r: State)
    ensures Consistent(r)
    ensures Consistent(s) ==> r == s
    ensures !Consistent(s) ==> r == End(s)
  {
    if s.active && Truthy(s.lawId) && s.applied != s.lawId then End(s) else s
  }

  /** What the effect leaves behind: an active tutorial with a set law id
      is a tutorial of the applied law. */
  predicate Consistent(s: State) {
    s.active && Truthy(s.lawId) ==> s.applied == s.lawId
  }

  /** Running the effect a second time changes nothing. */
  lemma SettleIdempotent(s: State)
    ensures Settle(Settle(s)) == Settle(s)
  {
  }

  /** The functions the context exposes. */
  datatype Action =
    | SetApplied(id: Option<string>)
    | StartTutorial(lawId: string)
    | EndTutorial
    | ClearError
    | SetError(message: string)
    | MarkStepCompleted(stepIndex: int)
    | SetTutorialInput(key: string, value: string)
    | NextTutorialStep
    | PreviousTutorialStep

  /** The state updates one call makes, before any effect runs. */
  function Apply(s: State, a: Action): (r: State)
    ensures a.SetApplied? ==> r == s.(applied := a.id)
    ensures !a.SetApplied? ==> r.applied == s.applied
  {
    match a
    case SetApplied(id) => s.(applied := id)
    case StartTutorial(lawId) => Start(s, lawId)
    case EndTutorial => End(s)
    case ClearError => s.(error := "")
    case SetError(message) => s.(error := message)
    case MarkStepCompleted(stepIndex) => MarkStep(s, stepIndex)
    case SetTutorialInput(key, value) => SetInput(s, key, value)
    case NextTutorialStep => NextStep(s)
    case PreviousTutorialStep => PreviousStep(s)
  }

  /** One call made alone in an event handler: its updates, then the
      effect after the render. */
  function Dispatch(s: State, a: Action): (r: State)
    ensures Consistent(r)
    ensures s.step >= 0 ==> r.step >= 0
  {
    Settle(Apply(s, a))
  }

  /** The updates of several calls, in call order. */
  function ApplyAll(s: State, actions: seq<Action>): (r: State)
    ensures s.step >= 0 ==> r.step >= 0
    decreases |actions|
  {
    if |actions| == 0 then s else ApplyAll(Apply(s, actions[0]), actions[1..])
  }

  /** Several calls made in one event handler: React batches their updates
      into one render, and the effect runs once, after all of them. */
  function DispatchBatch(s: State, actions: seq<Action>): (r: State)
    ensures Consistent(r)
    ensures Consistent(ApplyAll(s, actions)) ==> r == ApplyAll(s, actions)
    ensures !Consistent(ApplyAll(s, actions)) ==> r == End(ApplyAll(s, actions))
    ensures s.step >= 0 ==> r.step >= 0
  {
    Settle(ApplyAll(s, actions))
  }

  /** A handler making one call is a single dispatch. */
  lemma BatchOfOne(s: State, a: Action)
    ensures DispatchBatch(s, [a]) == Dispatch(s, a)
  {
    assert ApplyAll(s, [a]) == ApplyAll(Apply(s, a), []);
  }

  /** Starting a tutorial and applying its law in the same handler keeps
      the tutorial, fresh, whatever law was applied before; made in two
      separate handlers, in that order, the tutorial ends at the first one
      unless the law was already applied. */
  lemma StartThenApply(s: State, id: string)
    requires id != ""
    ensures DispatchBatch(s, [StartTutorial(id), SetApplied(Some(id))]) == Start(s, id).(applied := Some(id))
    ensures DispatchBatch(s, [StartTutorial(id), SetApplied(Some(id))]).active
    ensures Run(s, [StartTutorial(id), SetApplied(Some(id))]).active <==> s.applied == Some(id)
  {
    var acts := [StartTutorial(id), SetApplied(Some(id))];
    assert ApplyAll(s, acts) == ApplyAll(Start(s, id), [SetApplied(Some(id))]);
    assert ApplyAll(Start(s, id), [SetApplied(Some(id))]) == ApplyAll(Start(s, id).(applied := Some(id)), []);
    var t := Dispatch(s, StartTutorial(id));
    assert Run(s, acts) == Run(t, [SetApplied(Some(id))]);
    assert Run(t, [SetApplied(Some(id))]) == Run(Dispatch(t, SetApplied(Some(id))), []);
  }

  /** Called alone, starting a tutorial for a law other than the applied
      one ends it at once; for the applied law it starts fresh. */
  lemma StartNeedsAppliedLaw(s: State, id: string)
    requires id != ""
    ensures Dispatch(s, StartTutorial(id)).active <==> s.applied == Some(id)
    ensures s.applied == Some(id) ==> Dispatch(s, StartTutorial(id)) == Start(s, id)
    ensures s.applied != Some(id) ==> Dispatch(s, StartTutorial(id)) == End(s)
  {
  }

  /** Changing the applied law ends a running tutorial of another law and
      keeps one of the new law. */
  lemma ApplyingOtherLawEnds(s: State, id: Option<string>)
    requires Consistent(s) && s.active && Truthy(s.lawId)
    ensures Dispatch(s, SetApplied(id)).active <==> id == s.lawId
    ensures id != s.lawId ==> Dispatch(s, SetApplied(id)) == End(s).(applied := id)
  {
  }

  /** A consistent state, such as the one every dispatch leaves, is kept
      by the inputs and step markers: they never end a tutorial. */
  lemma EditsKeepTutorial(s: State, key: string, value: string, stepIndex: int)
    requires Consistent(s)
    ensures Dispatch(s, SetTutorialInput(key, value)) == SetInput(s, key, value)
    ensures Dispatch(s, MarkStepCompleted(stepIndex)) == MarkStep(s, stepIndex)
    ensures Dispatch(s, NextTutorialStep) == NextStep(s)
    ensures Dispatch(s, PreviousTutorialStep) == PreviousStep(s)
  {
  }

  /** Calls made one per handler, in order. */
  function Run(s: State, actions: seq<Action>): (r: State)
    decreases |actions|
  {
    if |actions| == 0 then s else Run(Dispatch(s, actions[0]), actions[1..])
  }

  /** From the initial state, whatever is called: the step is never
      negative and an active tutorial with a set law id is a tutorial of
      the applied law. */
  lemma {:induction false} RunInvariant(s: State, actions: seq<Action>)
    requires s.step >= 0 && Consistent(s)
    ensures var r := Run(s, actions); r.step >= 0 && Consistent(r)
    decreases |actions|
  {
    if |actions| > 0 {
      RunInvariant(Dispatch(s, actions[0]), actions[1..]);
    }
  }
}

=== FILE: units.dfy ===
/** Unit segmentation (`segmentUnits` in src/lib/indicator/model.js): the
    bar series is cut into consecutive chunks of `unitSize` bars, and each
    chunk with at least one bar of finite high and low becomes a unit. */
module Units {
  import opened Prelude
  import opened Ohlcv

  /** `{ id: 'U<id>', startTime, endTime, open, close, high, low, range }` */
  datatype Unit = Unit(id: nat, startTime: Num, endTime: Num, open: Num, close: Num,
                       high: real, low: real, range: real)

  /** `options.unitSize || 48` */
  const DefaultUnitSize: nat := 48

  /** The segmentation filter: `Number.isFinite(b.high) && Number.isFinite(b.low)`. */
  predicate HasFiniteHL(b: RawBar) {
    b.high.Finite? && b.low.Finite?
  }

  /** Every bar of the chunk passes the segmentation filter. */
  predicate AllFiniteHL(chunk: seq<RawBar>) {
    forall i :: 0 <= i < |chunk| ==> chunk[i].high.Finite? && chunk[i].low.Finite?
  }

  function Highs(chunk: seq<RawBar>): (hs: seq<real>)
    requires AllFiniteHL(chunk)
    ensures |hs| == |chunk|
    ensures forall i :: 0 <= i < |chunk| ==> hs[i] == chunk[i].high.v
  {
    if |chunk| == 0 then [] else [chunk[0].high.v] + Highs(chunk[1..])
  }

  function Lows(chunk: seq<RawBar>): (ls: seq<real>)
    requires AllFiniteHL(chunk)
    ensures |ls| == |chunk|
    ensures forall i :: 0 <= i < |chunk| ==> ls[i] == chunk[i].low.v
  {
    if |chunk| == 0 then [] else [chunk[0].low.v] + Lows(chunk[1..])
  }

  /** The unit of one non-empty filtered chunk: it opens with the first bar
      and closes with the last (`AggregateSpansChunk` gives its high and low). */
  function Aggregate(chunk: seq<RawBar>, id: nat): (u: Unit)
    requires |chunk| > 0
    requires AllFiniteHL(chunk)
    ensures u.id == id
    ensures u.startTime == chunk[0].time && u.open == chunk[0].open
    ensures u.endTime == chunk[|chunk| - 1].time && u.close == chunk[|chunk| - 1].close
    ensures u.range == u.high - u.low
  {
    var high := Max(Highs(chunk));
    var low := Min(Lows(chunk));
    Unit(id, chunk[0].time, chunk[|chunk| - 1].time, chunk[0].open, chunk[|chunk| - 1].close,
         high, low, high - low)
  }

  /** A unit spans its chunk: its high is the highest high of the chunk and
      its low the lowest low, and its range is not negative as soon as one
      bar of the chunk has its low at or below its high. */
  lemma AggregateSpansChunk(chunk: seq<RawBar>, id: nat)
    requires |chunk| > 0
    requires AllFiniteHL(chunk)
    ensures forall i :: 0 <= i < |chunk| ==>
              chunk[i].high.v <= Aggregate(chunk, id).high && Aggregate(chunk, id).low <= chunk[i].low.v
    ensures exists i :: 0 <= i < |chunk| && chunk[i].high.v == Aggregate(chunk, id).high
    ensures exists i :: 0 <= i < |chunk| && chunk[i].low.v == Aggregate(chunk, id).low
    ensures (exists i :: 0 <= i < |chunk| && chunk[i].low.v <= chunk[i].high.v) ==> Aggregate(chunk, id).range >= 0.0
  {
    var hs := Highs(chunk);
    var ls := Lows(chunk);
    var u := Aggregate(chunk, id);
    var ih :| 0 <= ih < |hs| && hs[ih] == u.high;
    var il :| 0 <= il < |ls| && ls[il] == u.low;
    assert chunk[ih].high.v == u.high;
    assert chunk[il].low.v == u.low;
  }

  /** The number of `size`-bar chunks in `n` bars: how many times the
      loop `for (i = 0; i < n; i += size)` runs. */
  function Chunks(n: nat, size: nat): nat
    requires size > 0
    decreases n
  {
    if n == 0 then 0 else if n <= size then 1 else 1 + Chunks(n - size, size)
  }

  /** `Chunks(n, size)` is `Math.ceil(n / size)`: the least count of
      `size`-bar chunks that covers `n` bars. */
  lemma {:induction false} ChunksIsCeiling(n: nat, size: nat)
    requires size > 0
    ensures n == 0 <==> Chunks(n, size) == 0
    ensures n > 0 ==> (Chunks(n, size) - 1) * size < n <= Chunks(n, size) * size
    decreases n
  {
    if n > size {
      ChunksIsCeiling(n - size, size);
      var c := Chunks(n - size, size);
      assert (c + 1 - 1) * size == c * size;
      assert (c + 1) * size == c * size + size;
    }
  }

  /** The slices `bars.slice(i, i + size)` the loop visits, in order. */
  function ChunkList(bars: seq<RawBar>, size: nat): (cs: seq<seq<RawBar>>)
    requires size > 0
    ensures |cs| == Chunks(|bars|, size)
    ensures forall k :: 0 <= k < |cs| ==> 0 < |cs[k]| <= size
    decreases |bars|
  {
    if |bars| == 0 then []
    else if |bars| <= size then [bars]
    else [bars[..size]] + ChunkList(bars[size..], size)
  }

  /** `xs.flat()` */
  function Flatten(cs: seq<seq<RawBar>>): seq<RawBar> {
    if |cs| == 0 then [] else cs[0] + Flatten(cs[1..])
  }

  /** The chunks cover the bars exactly once, in order. */
  lemma {:induction false} ChunkListCovers(bars: seq<RawBar>, size: nat)
    requires size > 0
    ensures Flatten(ChunkList(bars, size)) == bars
    decreases |bars|
  {
    if |bars| > size {
      ChunkListCovers(bars[size..], size);
      var cs := ChunkList(bars, size);
      assert cs[1..] == ChunkList(bars[size..], size);
      assert bars == bars[..size] + bars[size..];
    } else if |bars| > 0 {
      var cs := ChunkList(bars, size);
      assert cs[1..] == [];
    }
  }

  /** `Math.min(a, b)` on lengths. */
  function MinNat(a: nat, b: nat): nat {
    if a <= b then a else b
  }

  /** Chunk `k` is `bars.slice(k * size, (k + 1) * size)`. */
  lemma {:induction false} ChunkListSlice(bars: seq<RawBar>, size: nat, k: nat)
    requires size > 0
    requires k < |ChunkList(bars, size)|
    ensures k * size < MinNat((k + 1) * size, |bars|)
    ensures ChunkList(bars, size)[k] == bars[k * size..MinNat((k + 1) * size, |bars|)]
    decreases k
  {
    if k > 0 {
      assert |bars| > size;
      var m: nat := k - 1;
      var rest := bars[size..];
      ChunkListUnfold(bars, size);
      assert ChunkList(bars, size)[k] == ChunkList(rest, size)[m];
      ChunkListSlice(rest, size, m);
      var lo := m * size;
      var hi := MinNat((m + 1) * size, |rest|);
      ShiftBounds(size, m, |bars|);
      assert lo + size == k * size && hi + size == MinNat((k + 1) * size, |bars|);
      SliceOfSuffix(bars, size, lo, hi);
    }
  }

  /** One step of the chunking loop past the first chunk. */
  lemma ChunkListUnfold(bars: seq<RawBar>, size: nat)
    requires 0 < size < |bars|
    ensures |ChunkList(bars, size)| == 1 + |ChunkList(bars[size..], size)|
    ensures forall m :: 0 <= m < |ChunkList(bars[size..], size)| ==>
              ChunkList(bars, size)[m + 1] == ChunkList(bars[size..], size)[m]
  {
  }

  /** The bounds of chunk `m + 1` are those of chunk `m` of the bars after
      the first chunk, moved by one chunk. */
  lemma ShiftBounds(size: nat, m: nat, n: nat)
    requires size < n
    ensures (m + 1) * size == m * size + size
    ensures MinNat((m + 2) * size, n) == MinNat((m + 1) * size, n - size) + size
  {
    assert (m + 2) * size == (m + 1) * size + size;
  }

  /** A slice of a suffix is a slice of the whole, moved by the suffix's
      start. */
  lemma SliceOfSuffix<T>(s: seq<T>, d: nat, lo: nat, hi: nat)
    requires d <= |s| && lo <= hi <= |s| - d
    ensures s[d..][lo..hi] == s[lo + d..hi + d]
  {
  }

  /** The loop over the chunks from `cs[0]` on, numbering the units it
      emits from `nextId`: a chunk with no bar of finite high and low is
      skipped without using up an id. */
  function UnitsOf(cs: seq<seq<RawBar>>, nextId: nat): (units: seq<Unit>)
    ensures |units| <= |cs|
    ensures Numbered(units, nextId)
  {
    if |cs| == 0 then []
    else
      var kept := Filter(cs[0], HasFiniteHL);
      KeptAllFinite(cs[0]);
      if |kept| == 0 then UnitsOf(cs[1..], nextId)
      else
        var u := Aggregate(kept, nextId);
        var rest := UnitsOf(cs[1..], nextId + 1);
        NumberedCons(u, rest, nextId);
        [u] + rest
  }

  /** Units numbered `from`, `from + 1`, ..., each with its range its
      high minus its low. */
  predicate Numbered(units: seq<Unit>, from: nat) {
    forall i :: 0 <= i < |units| ==> units[i].id == from + i && units[i].range == units[i].high - units[i].low
  }

  /** A unit numbered `from` in front of units numbered from `from + 1`. */
  lemma NumberedCons(u: Unit, rest: seq<Unit>, from: nat)
    requires u.id == from && u.range == u.high - u.low
    requires Numbered(rest, from + 1)
    ensures Numbered([u] + rest, from)
  {
    var us := [u] + rest;
    forall i | 0 <= i < |us| ensures us[i].id == from + i && us[i].range == us[i].high - us[i].low {
      if i > 0 {
        assert us[i] == rest[i - 1];
      }
    }
  }

  /** What the segmentation filter keeps passes it. */
  lemma KeptAllFinite(chunk: seq<RawBar>)
    ensures AllFiniteHL(Filter(chunk, HasFiniteHL))
  {
    var kept := Filter(chunk, HasFiniteHL);
    forall i | 0 <= i < |kept| ensures kept[i].high.Finite? && kept[i].low.Finite? {
      assert HasFiniteHL(kept[i]);
    }
  }

  /** `segmentUnits(bars, unitSize)`, ids counting from 1 (`U1`, `U2`, ...). */
  function Segment(bars: seq<RawBar>, size: nat): (units: seq<Unit>)
    requires size > 0
    ensures |units| <= Chunks(|bars|, size)
    ensures forall i :: 0 <= i < |units| ==> units[i].id == i + 1
    ensures forall i :: 0 <= i < |units| ==> units[i].range == units[i].high - units[i].low
  {
    UnitsOf(ChunkList(bars, size), 1)
  }

  /** `segmentUnits(bars, unitSize)` for any integer size: no bar gives no
      unit whatever the size; otherwise a size that is not positive never
      ends the loop `i += unitSize` (`None`), and a positive size gives the
      units of the chunks. */
  function SegmentUnits(bars: seq<RawBar>, unitSize: int): (r: Option<seq<Unit>>)
    ensures |bars| == 0 ==> r == Some([])
    ensures r.None? <==> |bars| > 0 && unitSize <= 0
    ensures r.Some? && |bars| > 0 ==> unitSize > 0 && r.value == Segment(bars, unitSize)
  {
    if |bars| == 0 then Some([])
    else if unitSize <= 0 then None
    else Some(Segment(bars, unitSize))
  }

  /** With bars and a size that is not positive, the loop test
      `i < bars.length` holds at every pass: after `k` passes `i` is
      `k * unitSize`, never above 0. */
  lemma SegmentNeverEnds(bars: seq<RawBar>, unitSize: int, k: nat)
    requires |bars| > 0 && unitSize <= 0
    ensures k * unitSize < |bars|
  {
    NonPositiveSteps(unitSize, k);
  }

  /** `k` steps of a non-positive size end at or below 0. */
  lemma {:induction false} NonPositiveSteps(unitSize: int, k: nat)
    requires unitSize <= 0
    ensures k * unitSize <= 0
  {
    if k > 0 {
      NonPositiveSteps(unitSize, k - 1);
      assert k * unitSize == (k - 1) * unitSize + unitSize;
    }
  }

  /** With a positive size the loop ends after one pass per chunk: the
      pass count is the least whose `i` reaches `bars.length`. */
  lemma SegmentEnds(bars: seq<RawBar>, unitSize: nat)
    requires |bars| > 0 && unitSize > 0
    ensures Chunks(|bars|, unitSize) * unitSize >= |bars|
    ensures (Chunks(|bars|, unitSize) - 1) * unitSize < |bars|
  {
    ChunksIsCeiling(|bars|, unitSize);
  }

  /** A chunk with at least one bar of finite high and low is the next
      unit, which aggregates only those bars, in order; the bars without
      them are dropped. */
  lemma UnitsOfPartial(c: seq<RawBar>, rest: seq<seq<RawBar>>, nextId: nat)
    requires |Filter(c, HasFiniteHL)| > 0
    ensures AllFiniteHL(Filter(c, HasFiniteHL))
    ensures UnitsOf([c] + rest, nextId) == [Aggregate(Filter(c, HasFiniteHL), nextId)] + UnitsOf(rest, nextId + 1)
  {
    KeptAllFinite(c);
    assert ([c] + rest)[0] == c;
    assert ([c] + rest)[1..] == rest;
  }

  /** Every chunk non-empty with every bar finite. */
  predicate FullChunks(cs: seq<seq<RawBar>>) {
    forall k :: 0 <= k < |cs| ==> |cs[k]| > 0 && AllFiniteHL(cs[k])
  }

  /** When every chunk has only finite bars, each chunk gives a unit: unit
      `k` is the aggregate of chunk `k`. */
  lemma UnitsOfFull(cs: seq<seq<RawBar>>, nextId: nat)
    requires FullChunks(cs)
    ensures |UnitsOf(cs, nextId)| == |cs|
    ensures forall k :: 0 <= k < |cs| ==> UnitsOf(cs, nextId)[k] == Aggregate(cs[k], nextId + k)
  {
    UnitsOfFullAll(cs, nextId);
  }

  /** The aggregate of every chunk, chunk `k` numbered `nextId + k`. */
  function AggregateAll(cs: seq<seq<RawBar>>, nextId: nat): (us: seq<Unit>)
    requires FullChunks(cs)
    ensures |us| == |cs|
    ensures forall k :: 0 <= k < |cs| ==> us[k] == Aggregate(cs[k], nextId + k)
  {
    seq(|cs|, k requires 0 <= k < |cs| => Aggregate(cs[k], nextId + k))
  }

  /** Aggregating every chunk is aggregating the first, then the rest. */
  lemma AggregateAllCons(cs: seq<seq<RawBar>>, nextId: nat)
    requires |cs| > 0 && FullChunks(cs) && FullChunks(cs[1..])
    ensures AggregateAll(cs, nextId) == [Aggregate(cs[0], nextId)] + AggregateAll(cs[1..], nextId + 1)
  {
    var a := AggregateAll(cs, nextId);
    var rest := AggregateAll(cs[1..], nextId + 1);
    var b := [Aggregate(cs[0], nextId)] + rest;
    forall k | 0 <= k < |cs| ensures a[k] == b[k] {
      if k > 0 {
        assert b[k] == rest[k - 1];
        assert cs[1..][k - 1] == cs[k];
      }
    }
    assert |a| == |b|;
  }

  /** With only finite bars in every chunk, the units are the aggregates
      of the chunks. */
  lemma {:induction false} UnitsOfFullAll(cs: seq<seq<RawBar>>, nextId: nat)
    requires FullChunks(cs)
    ensures UnitsOf(cs, nextId) == AggregateAll(cs, nextId)
  {
    if |cs| > 0 {
      UnitsOfHead(cs, nextId);
      FullChunksTail(cs);
      UnitsOfFullAll(cs[1..], nextId + 1);
      AggregateAllCons(cs, nextId);
    }
  }

  /** The chunks after the first of full chunks are full. */
  lemma FullChunksTail(cs: seq<seq<RawBar>>)
    requires |cs| > 0 && FullChunks(cs)
    ensures FullChunks(cs[1..])
  {
    forall k | 0 <= k < |cs| - 1 ensures |cs[1..][k]| > 0 && AllFiniteHL(cs[1..][k]) {
      assert cs[1..][k] == cs[k + 1];
    }
  }

  /** A first chunk whose bars are all finite is the first unit. */
  lemma UnitsOfHead(cs: seq<seq<RawBar>>, nextId: nat)
    requires |cs| > 0 && |cs[0]| > 0 && AllFiniteHL(cs[0])
    ensures UnitsOf(cs, nextId) == [Aggregate(cs[0], nextId)] + UnitsOf(cs[1..], nextId + 1)
  {
    FilterAll(cs[0], HasFiniteHL);
  }

  /** A chunk whose bars are all finite is the next unit. */
  lemma UnitsOfCons(c: seq<RawBar>, rest: seq<seq<RawBar>>, nextId: nat)
    requires |c| > 0 && AllFiniteHL(c)
    ensures UnitsOf([c] + rest, nextId) == [Aggregate(c, nextId)] + UnitsOf(rest, nextId + 1)
  {
    FilterAll(c, HasFiniteHL);
    assert ([c] + rest)[0] == c;
    assert ([c] + rest)[1..] == rest;
  }

  /** The chunks of an all-finite series are full. */
  lemma ChunkListFull(bars: seq<RawBar>, size: nat)
    requires size > 0
    requires AllFiniteHL(bars)
    ensures FullChunks(ChunkList(bars, size))
  {
    var cs := ChunkList(bars, size);
    forall k | 0 <= k < |cs| ensures |cs[k]| > 0 && AllFiniteHL(cs[k]) {
      ChunkListSlice(bars, size, k);
    }
  }

  /** When every bar has a finite high and low, there is one unit per
      chunk, and unit `k` aggregates chunk `k` (which `ChunkListSlice`
      places at bars `k * size` up to `(k + 1) * size`). */
  lemma SegmentAllFinite(bars: seq<RawBar>, size: nat)
    requires size > 0
    requires AllFiniteHL(bars)
    ensures FullChunks(ChunkList(bars, size))
    ensures |Segment(bars, size)| == Chunks(|bars|, size)
    ensures forall k :: 0 <= k < |Segment(bars, size)| ==>
              Segment(bars, size)[k] == Aggregate(ChunkList(bars, size)[k], k + 1)
  {
    ChunkListFull(bars, size);
    UnitsOfFull(ChunkList(bars, size), 1);
  }

  /** A chunk with no bar of finite high and low is skipped. */
  lemma UnitsOfSkip(c: seq<RawBar>, rest: seq<seq<RawBar>>, nextId: nat)
    requires forall i :: 0 <= i < |c| ==> !HasFiniteHL(c[i])
    ensures UnitsOf([c] + rest, nextId) == UnitsOf(rest, nextId)
  {
    FilterNone(c, HasFiniteHL);
    assert ([c] + rest)[0] == c;
    assert ([c] + rest)[1..] == rest;
  }

  /** Bars without a finite high or low never form a unit. */
  lemma {:induction false} SegmentNoneFinite(bars: seq<RawBar>, size: nat, nextId: nat)
    requires size > 0
    requires forall i :: 0 <= i < |bars| ==> !HasFiniteHL(bars[i])
    ensures UnitsOf(ChunkList(bars, size), nextId) == []
    decreases |bars|
  {
    if |bars| > size {
      UnitsOfSkip(bars[..size], ChunkList(bars[size..], size), nextId);
      SegmentNoneFinite(bars[size..], size, nextId);
    } else if |bars| > 0 {
      UnitsOfSkip(bars, [], nextId);
    }
  }
}

=== FILE: validation.dfy ===
/** The two renderability gates: `validateLawRenderable`
    (src/lib/lawEngine/validation.js), and the pass test and exit code of
    scripts/validate-laws-renderable.mjs. */
module Validation {
  import opened Prelude
  import opened Ohlcv
  import opened Laws
  import opened Units
  import opened Indicator
  import opened LawPlan

  datatype Status = Pass | Fail

  /** `{ id, hasRecipe, hasOutput, hasNonMarkerVisual, hasLawSpecific, status }` */
  datatype Report = Report(id: string, hasRecipe: bool, hasOutput: bool, hasNonMarkerVisual: bool,
                           hasLawSpecific: bool, status: Status)

  /** What was drawn for a law; every count defaults to 0 and
      `fallbackVisible` to false. */
  datatype Rendered = Rendered(markers: int, lines: int, boxes: int, lawSpecific: int, fallbackVisible: bool)

  const NothingRendered := Rendered(0, 0, 0, 0, false)

  /** `validateLawRenderable(...)`: a law passes when it shows two lines, a
      band, a marker and a shape of its own. */
  function ValidateLawRenderable(law: Law, r: Rendered): (rep: Report)
    ensures rep.id == law.id
    ensures rep.hasRecipe <==> law.chartRecipe.Some?
    ensures rep.hasOutput <==> r.lines > 0 || r.boxes > 0 || r.markers > 0 || r.fallbackVisible
    ensures rep.status == Pass <==> r.lines >= 2 && r.boxes >= 1 && r.markers >= 1 && r.lawSpecific >= 1
  {
    var hasNonMarkerVisual := r.lines >= 2 && r.boxes >= 1;
    var hasLawSpecific := r.lawSpecific >= 1;
    Report(law.id, law.chartRecipe.Some?,
           r.lines > 0 || r.boxes > 0 || r.fallbackVisible || r.markers > 0,
           hasNonMarkerVisual, hasLawSpecific,
           if hasNonMarkerVisual && r.markers >= 1 && hasLawSpecific then Pass else Fail)
  }

  /** A passing law has output, and shows a non-marker visual and a shape
      of its own. */
  lemma PassImpliesOutput(law: Law, r: Rendered)
    ensures var rep := ValidateLawRenderable(law, r);
            rep.status == Pass ==> rep.hasOutput && rep.hasNonMarkerVisual && rep.hasLawSpecific
  {
  }

  /** With every count left at its default, a law fails and shows nothing. */
  lemma NothingRenderedFails(law: Law)
    ensures ValidateLawRenderable(law, NothingRendered).status == Fail
    ensures !ValidateLawRenderable(law, NothingRendered).hasOutput
  {
  }

  /** The counts of a draw plan, as the chart reports them to the gate. */
  function RenderedOf(p: DrawPlan): Rendered {
    Rendered(p.markersCount, p.linesCount, p.boxesCount, p.lawSpecificCount, false)
  }

  /** Every law's draw plan passes the gate once the last unit of the bars
      has a positive range, and none passes while there is no unit and
      hence no law-specific shape. */
  lemma DrawPlanPassesGate(law: Law, bars: seq<RawBar>, mapping: map<string, MappingEntry>,
                           options: Options, toNumber: string -> Num)
    requires Returns(bars, options)
    ensures var p := BuildLawDrawPlan(law, bars, mapping, options, toNumber);
            var last := p.baseline.model.lastUnit;
            && (last.Some? && last.value.range > 0.0 ==> ValidateLawRenderable(law, RenderedOf(p)).status == Pass)
            && (last.None? ==> ValidateLawRenderable(law, RenderedOf(p)).status == Fail)
  {
    DrawPlanRenderable(law, bars, mapping, options, toNumber);
    LawSpecificAllOrNothing(law, bars, mapping, options, toNumber);
  }

  /** The script's pass test: a band, two lines and one label or marker;
      unlike the gate it does not look at the law-specific shapes. */
  predicate ScriptPass(p: DrawPlan) {
    p.boxesCount >= 1 && p.linesCount >= 2 && p.labelsCount + p.markersCount >= 1
  }

  /** The script's row filter: every field a finite number. */
  predicate RowFinite(b: RawBar) {
    b.time.Finite? && b.open.Finite? && b.high.Finite? && b.low.Finite? && b.close.Finite?
  }

  /** The plans the script checks: every law against the filtered rows,
      with no mapping and default options. */
  function ScriptPlans(laws: seq<Law>, rows: seq<RawBar>, toNumber: string -> Num): (ps: seq<DrawPlan>)
    ensures |ps| == |laws|
    ensures forall i :: 0 <= i < |laws| ==> ps[i].lawId == laws[i].id
  {
    var bars := Filter(rows, RowFinite);
    seq(|laws|, i requires 0 <= i < |laws| =>
      BuildLawDrawPlan(laws[i], bars, map[], Options(0, None), toNumber))
  }

  predicate Fails(p: DrawPlan) { !ScriptPass(p) }

  /** The script's exit code: 1 when some law fails, else 0. */
  function ExitCode(laws: seq<Law>, rows: seq<RawBar>, toNumber: string -> Num): (code: int)
    ensures code == 0 || code == 1
  {
    if Count(ScriptPlans(laws, rows, toNumber), Fails) > 0 then 1 else 0
  }

  /** The script exits with 1 exactly when some law's plan fails its test. */
  lemma ExitCodeMeaning(laws: seq<Law>, rows: seq<RawBar>, toNumber: string -> Num)
    ensures var ps := ScriptPlans(laws, rows, toNumber);
            ExitCode(laws, rows, toNumber) == 1 <==> exists i :: 0 <= i < |ps| && !ScriptPass(ps[i])
  {
    var ps := ScriptPlans(laws, rows, toNumber);
    FilterMembers(ps, Fails);
    if Count(ps, Fails) > 0 {
      var f := Filter(ps, Fails);
      assert Fails(f[0]) && f[0] in ps;
    } else if exists i :: 0 <= i < |ps| && !ScriptPass(ps[i]) {
      var i :| 0 <= i < |ps| && !ScriptPass(ps[i]);
      assert ps[i] in Filter(ps, Fails);
    }
  }

  /** Every law the script checks takes the missing-mapping entry. */
  lemma ScriptPlansAreUnknown(laws: seq<Law>, rows: seq<RawBar>, toNumber: string -> Num, i: nat)
    requires i < |laws|
    ensures ScriptPlans(laws, rows, toNumber)[i].unknownMapping
    ensures ScriptPlans(laws, rows, toNumber)[i].mappingAttempt == 5
  {
    MissingMappingIsUnknown(laws[i], Filter(rows, RowFinite), map[], Options(0, None), toNumber);
  }

  /** Once the finite rows form one unit, the script passes every law. */
  lemma ScriptPassesWithAUnit(laws: seq<Law>, rows: seq<RawBar>, toNumber: string -> Num)
    requires |Segment(Filter(rows, RowFinite), DefaultUnitSize)| > 0
    ensures ExitCode(laws, rows, toNumber) == 0
  {
    var ps := ScriptPlans(laws, rows, toNumber);
    forall i | 0 <= i < |ps| ensures ScriptPass(ps[i]) {
      DrawPlanRenderable(laws[i], Filter(rows, RowFinite), map[], Options(0, None), toNumber);
    }
    ExitCodeMeaning(laws, rows, toNumber);
  }

  /** With no finite row, a law passes the script only through its recipe:
      at least two price lines, one zone and one marker. */
  lemma ScriptWithoutRows(law: Law, rows: seq<RawBar>, toNumber: string -> Num)
    requires forall i :: 0 <= i < |rows| ==> !RowFinite(rows[i])
    ensures var p := ScriptPlans([law], rows, toNumber)[0];
            var os := RecipeOverlays(law);
            ScriptPass(p) <==> Count(os, IsPriceLine) >= 2 && Count(os, IsZone) >= 1 && Count(os, IsMarker) >= 1
  {
    FilterNone(rows, RowFinite);
    var p := ScriptPlans([law], rows, toNumber)[0];
    DrawPlanRenderable(law, [], map[], Options(0, None), toNumber);
    assert |UnitsFor([], Options(0, None))| == 0;
    assert p.baseline.model.lastUnit.None?;
  }
}

=== FILE: yearly.dfy ===
/** Yearly candles: `resampleToYearly` (src/lib/marketData/resample.js)
    and `aggregateYearly` (src/services/marketData/index.js). Both group
    bars by calendar year and summarise each year; they differ in how they
    order the years and in the time they give a year's candle.

    The calendar is left abstract: `yearOf(t)` is the UTC year of the time
    `t` in seconds (`new Date(t * 1000).getUTCFullYear()`), and
    `yearStart(y)` the first second of year `y`
    (`Math.floor(Date.UTC(y, 0, 1) / 1000)`). */
module Yearly {
  import opened Prelude
  import opened Ohlcv
  import opened StableSort

  /** The years present, in the order they first appear (the key order of
      the JavaScript `Map` the bars are grouped in). */
  function YearsOf(bars: seq<Bar>, yearOf: real -> int): (ys: seq<int>)
    ensures |ys| <= |bars|
    ensures forall i, j :: 0 <= i < j < |ys| ==> ys[i] != ys[j]
    ensures forall i :: 0 <= i < |bars| ==> yearOf(bars[i].time) in ys
    ensures forall k :: 0 <= k < |ys| ==> exists i :: 0 <= i < |bars| && yearOf(bars[i].time) == ys[k]
  {
    if |bars| == 0 then []
    else
      var init := bars[..|bars| - 1];
      var ys := YearsOf(init, yearOf);
      var y := yearOf(bars[|bars| - 1].time);
      assert forall i :: 0 <= i < |init| ==> bars[i] == init[i];
      if y in ys then ys else ys + [y]
  }

  function InYear(yearOf: real -> int, y: int): Bar -> bool {
    (b: Bar) => yearOf(b.time) == y
  }

  /** The bars of year `y`, in input order. */
  function Bucket(bars: seq<Bar>, yearOf: real -> int, y: int): seq<Bar> {
    Filter(bars, InYear(yearOf, y))
  }

  /** A year with its bars; a year is only ever created for a bar. */
  datatype Group = Group(year: int, items: seq<Bar>)

  type YearGroup = g: Group | |g.items| > 0 witness Group(0, [Bar(0.0, 0.0, 0.0, 0.0, 0.0)])

  /** The bucket of a year present in the input, which is never empty. */
  function GroupOf(bars: seq<Bar>, yearOf: real -> int, y: int): (g: YearGroup)
    requires y in YearsOf(bars, yearOf)
    ensures g.year == y && g.items == Bucket(bars, yearOf, y)
  {
    var b := Bucket(bars, yearOf, y);
    assert |b| > 0 by {
      var i :| 0 <= i < |bars| && yearOf(bars[i].time) == y;
      FilterMembers(bars, InYear(yearOf, y));
      assert bars[i] in b;
    }
    Group(y, b)
  }

  /** The buckets of the grouping loop, in key order. */
  function Groups(bars: seq<Bar>, yearOf: real -> int): (gs: seq<YearGroup>)
    ensures |gs| == |YearsOf(bars, yearOf)|
    ensures forall k :: 0 <= k < |gs| ==>
              gs[k] == Group(YearsOf(bars, yearOf)[k], Bucket(bars, yearOf, YearsOf(bars, yearOf)[k]))
  {
    var ys := YearsOf(bars, yearOf);
    seq(|ys|, k requires 0 <= k < |ys| => GroupOf(bars, yearOf, ys[k]))
  }

  /** A year's candle stamped with `time`: the bars sorted by time, the
      open of the first, the close of the last, the highest high and the
      lowest low. */
  function Summarize(items: seq<Bar>, time: real): Bar
    requires |items| > 0
  {
    var sorted := Sort(items, TimeOf);
    Bar(time, sorted[0].open, Max(Highs(sorted)), Min(Lows(sorted)), sorted[|sorted| - 1].close)
  }

  /** The time of the earliest bar. */
  function Earliest(items: seq<Bar>): real
    requires |items| > 0
  {
    Sort(items, TimeOf)[0].time
  }

  /** The time of the latest bar. */
  function Latest(items: seq<Bar>): real
    requires |items| > 0
  {
    var sorted := Sort(items, TimeOf);
    sorted[|sorted| - 1].time
  }

  /** Each bar of the sorted copy is a bar of the input, and back. */
  lemma SortedMembers(items: seq<Bar>)
    ensures var sorted := Sort(items, TimeOf);
            && (forall j :: 0 <= j < |sorted| ==> sorted[j] in items)
            && (forall i :: 0 <= i < |items| ==> items[i] in sorted)
  {
    var sorted := Sort(items, TimeOf);
    forall j | 0 <= j < |sorted| ensures sorted[j] in items {
      assert sorted[j] in multiset(items);
    }
    forall i | 0 <= i < |items| ensures items[i] in sorted {
      assert items[i] in multiset(sorted);
    }
  }

  /** The candle's high and low are the extremes of the year's bars. */
  lemma SummaryExtremes(items: seq<Bar>, time: real)
    requires |items| > 0
    ensures var b := Summarize(items, time);
            && (forall i :: 0 <= i < |items| ==> items[i].high <= b.high && b.low <= items[i].low)
            && (exists i :: 0 <= i < |items| && items[i].high == b.high)
            && (exists i :: 0 <= i < |items| && items[i].low == b.low)
  {
    var sorted := Sort(items, TimeOf);
    SortedMembers(items);
    var hs := Highs(sorted);
    var ls := Lows(sorted);
    forall i | 0 <= i < |items| ensures items[i].high <= Max(hs) && Min(ls) <= items[i].low {
      var j :| 0 <= j < |sorted| && sorted[j] == items[i];
      assert hs[j] == items[i].high && ls[j] == items[i].low;
    }
    var jh :| 0 <= jh < |hs| && hs[jh] == Max(hs);
    var ih :| 0 <= ih < |items| && items[ih] == sorted[jh];
    var jl :| 0 <= jl < |ls| && ls[jl] == Min(ls);
    var il :| 0 <= il < |items| && items[il] == sorted[jl];
  }

  /** The candle opens with the first bar, in input order, of those at the
      earliest time, and no bar is earlier. */
  lemma SummaryOpen(items: seq<Bar>, time: real)
    requires |items| > 0
    ensures var t0 := Earliest(items);
            var first := WithKey(items, TimeOf, t0);
            && (forall i :: 0 <= i < |items| ==> t0 <= items[i].time)
            && |first| > 0 && Summarize(items, time).open == first[0].open
  {
    var sorted := Sort(items, TimeOf);
    var t0 := sorted[0].time;
    SortedMembers(items);
    forall i | 0 <= i < |items| ensures t0 <= items[i].time {
      var j :| 0 <= j < |sorted| && sorted[j] == items[i];
      if j > 0 {
        assert TimeOf(sorted[0]) <= TimeOf(sorted[j]);
      }
    }
    SortStable(items, TimeOf, t0);
    assert WithKey(sorted, TimeOf, t0)[0] == sorted[0];
  }

  /** The candle closes with the last bar, in input order, of those at the
      latest time, and no bar is later. */
  lemma SummaryClose(items: seq<Bar>, time: real)
    requires |items| > 0
    ensures var tn := Latest(items);
            var final := WithKey(items, TimeOf, tn);
            && (forall i :: 0 <= i < |items| ==> items[i].time <= tn)
            && |final| > 0 && Summarize(items, time).close == final[|final| - 1].close
  {
    LatestIsLast(items);
    LastOfLatest(items);
  }

  /** No bar is later than `Latest`. */
  lemma LatestIsLast(items: seq<Bar>)
    requires |items| > 0
    ensures forall i :: 0 <= i < |items| ==> items[i].time <= Latest(items)
  {
    var sorted := Sort(items, TimeOf);
    var n := |sorted|;
    SortedMembers(items);
    forall i | 0 <= i < |items| ensures items[i].time <= sorted[n - 1].time {
      var j :| 0 <= j < |sorted| && sorted[j] == items[i];
      if j < n - 1 {
        assert TimeOf(sorted[j]) <= TimeOf(sorted[n - 1]);
      }
    }
  }

  /** The last bar of the sorted copy is the last bar, in input order, at
      the latest time. */
  lemma LastOfLatest(items: seq<Bar>)
    requires |items| > 0
    ensures var final := WithKey(items, TimeOf, Latest(items));
            |final| > 0 && final[|final| - 1] == Sort(items, TimeOf)[|items| - 1]
  {
    var sorted := Sort(items, TimeOf);
    var n := |sorted|;
    var tn := sorted[n - 1].time;
    SortStable(items, TimeOf, tn);
    assert sorted == sorted[..n - 1] + [sorted[n - 1]];
    FilterAppend(sorted[..n - 1], [sorted[n - 1]], KeyIs(TimeOf, tn));
    WithKeySingle(sorted[n - 1], TimeOf, tn);
  }

  /** Every bar of a year's bucket lies in that year. */
  lemma EarliestInYear(g: YearGroup, bars: seq<Bar>, yearOf: real -> int)
    requires g.items == Bucket(bars, yearOf, g.year)
    ensures yearOf(Earliest(g.items)) == g.year
  {
    SortedMembers(g.items);
    var sorted := Sort(g.items, TimeOf);
    var i :| 0 <= i < |g.items| && g.items[i] == sorted[0];
    assert InYear(yearOf, g.year)(g.items[i]);
  }

  /** `resampleToYearly`'s candle for one year: stamped at the year's start. */
  function StartBar(yearStart: int -> real): YearGroup -> Bar {
    (g: YearGroup) => Summarize(g.items, yearStart(g.year))
  }

  /** `aggregateYearly`'s candle for one year: stamped at its earliest bar. */
  function EarliestBar(g: YearGroup): Bar {
    Summarize(g.items, Earliest(g.items))
  }

  function YearKey(g: YearGroup): real {
    g.year as real
  }

  /** `resampleToYearly(bars)`: nothing for a non-array; otherwise one
      candle per year, stamped at the year's start, sorted by time. */
  function Resample(input: Option<seq<Bar>>, yearOf: real -> int, yearStart: int -> real): (out: seq<Bar>)
    ensures input.None? ==> out == []
    ensures input.Some? ==> |out| == |YearsOf(input.value, yearOf)|
    ensures SortedBy(out, TimeOf)
  {
    if input.None? then []
    else Sort(MapSeq(Groups(input.value, yearOf), StartBar(yearStart)), TimeOf)
  }

  /** `aggregateYearly(monthlyBars)`: one candle per year, years ascending,
      each stamped with its earliest bar's own time. */
  function Aggregate(bars: seq<Bar>, yearOf: real -> int): (out: seq<Bar>)
    ensures |out| == |YearsOf(bars, yearOf)|
    ensures bars == [] ==> out == []
  {
    MapSeq(Sort(Groups(bars, yearOf), YearKey), EarliestBar)
  }

  /** Year starts increase with the year over the years `ys`.
      `Date.UTC(y, 0, 1)` reads the years 0 to 99 as 1900 to 1999, so the
      start of year 50 comes after that of year 120; the years of real
      bars are far above 99. */
  predicate StartsIncrease(ys: seq<int>, yearStart: int -> real) {
    forall y1, y2 :: y1 in ys && y2 in ys && y1 < y2 ==> yearStart(y1) < yearStart(y2)
  }

  /** Year starts that increase from year 100 on increase over the years
      of bars dated year 100 or later. */
  lemma StartsIncreaseFrom100(bars: seq<Bar>, yearOf: real -> int, yearStart: int -> real)
    requires forall y1: int, y2: int :: 100 <= y1 < y2 ==> yearStart(y1) < yearStart(y2)
    requires forall i :: 0 <= i < |bars| ==> yearOf(bars[i].time) >= 100
    ensures StartsIncrease(YearsOf(bars, yearOf), yearStart)
  {
    var ys := YearsOf(bars, yearOf);
    forall y | y in ys ensures y >= 100 {
      var k :| 0 <= k < |ys| && ys[k] == y;
      var i :| 0 <= i < |bars| && yearOf(bars[i].time) == ys[k];
    }
  }

  /** The groups come out of `aggregateYearly`'s sort in strictly
      increasing year order. */
  lemma SortedGroupsStrict(bars: seq<Bar>, yearOf: real -> int)
    ensures StrictlyBy(Sort(Groups(bars, yearOf), YearKey), YearKey)
  {
    SortStrict(Groups(bars, yearOf), YearKey);
  }

  /** Sorting keeps every group a year present in the input with its
      bucket. */
  lemma SortedGroupsAreBuckets(bars: seq<Bar>, yearOf: real -> int)
    ensures var sorted := Sort(Groups(bars, yearOf), YearKey);
            forall k :: 0 <= k < |sorted| ==>
              sorted[k].year in YearsOf(bars, yearOf) && sorted[k].items == Bucket(bars, yearOf, sorted[k].year)
  {
    var gs := Groups(bars, yearOf);
    var sorted := Sort(gs, YearKey);
    forall k | 0 <= k < |sorted|
      ensures sorted[k].year in YearsOf(bars, yearOf) && sorted[k].items == Bucket(bars, yearOf, sorted[k].year)
    {
      assert sorted[k] in multiset(gs);
      var m :| 0 <= m < |gs| && gs[m] == sorted[k];
    }
  }

  /** A sorted group's earliest bar lies in the group's year. */
  lemma SortedGroupYear(bars: seq<Bar>, yearOf: real -> int, k: nat)
    requires k < |Sort(Groups(bars, yearOf), YearKey)|
    ensures var g := Sort(Groups(bars, yearOf), YearKey)[k];
            yearOf(Earliest(g.items)) == g.year
  {
    var sorted := Sort(Groups(bars, yearOf), YearKey);
    SortedGroupsAreBuckets(bars, yearOf);
    EarliestInYear(sorted[k], bars, yearOf);
  }

  /** Each candle of `aggregateYearly` summarises the bucket of one year
      present in the input, stamped with that bucket's earliest time, and
      the years strictly increase from candle to candle. */
  lemma {:induction false} AggregateContents(bars: seq<Bar>, yearOf: real -> int)
    ensures var out := Aggregate(bars, yearOf);
            && (forall k :: 0 <= k < |out| ==>
                  var y := yearOf(out[k].time);
                  && y in YearsOf(bars, yearOf)
                  && |Bucket(bars, yearOf, y)| > 0
                  && out[k] == Summarize(Bucket(bars, yearOf, y), Earliest(Bucket(bars, yearOf, y))))
            && (forall i, j :: 0 <= i < j < |out| ==> yearOf(out[i].time) < yearOf(out[j].time))
  {
    var sorted := Sort(Groups(bars, yearOf), YearKey);
    var out := Aggregate(bars, yearOf);
    SortedGroupsAreBuckets(bars, yearOf);
    forall k | 0 <= k < |out| ensures out[k] == EarliestBar(sorted[k]) && yearOf(out[k].time) == sorted[k].year {
      SortedGroupYear(bars, yearOf, k);
    }
    SortedGroupsStrict(bars, yearOf);
  }

  /** With year starts increasing over the years present, ordering the
      groups by their candle's start time is ordering them by year. */
  lemma StartOrderIsYearOrder(bars: seq<Bar>, yearOf: real -> int, yearStart: int -> real)
    requires StartsIncrease(YearsOf(bars, yearOf), yearStart)
    ensures OrderKeptOn(Groups(bars, yearOf), StartBar(yearStart), YearKey, TimeOf)
  {
    var gs := Groups(bars, yearOf);
    var ys := YearsOf(bars, yearOf);
    forall a, b | a in gs && b in gs
      ensures TimeOf(StartBar(yearStart)(a)) <= TimeOf(StartBar(yearStart)(b)) <==> YearKey(a) <= YearKey(b)
    {
      GroupYearPresent(bars, yearOf, a);
      GroupYearPresent(bars, yearOf, b);
      if a.year < b.year {
        assert yearStart(a.year) < yearStart(b.year);
      } else if b.year < a.year {
        assert yearStart(b.year) < yearStart(a.year);
      }
    }
  }

  /** Every group is of a year present in the bars. */
  lemma GroupYearPresent(bars: seq<Bar>, yearOf: real -> int, g: YearGroup)
    requires g in Groups(bars, yearOf)
    ensures g.year in YearsOf(bars, yearOf)
  {
    var gs := Groups(bars, yearOf);
    var k :| 0 <= k < |gs| && gs[k] == g;
  }

  /** `resampleToYearly` is the groups in year order, each summarised at
      its year's start. */
  lemma ResampleInYearOrder(bars: seq<Bar>, yearOf: real -> int, yearStart: int -> real)
    requires StartsIncrease(YearsOf(bars, yearOf), yearStart)
    ensures Resample(Some(bars), yearOf, yearStart)
            == MapSeq(Sort(Groups(bars, yearOf), YearKey), StartBar(yearStart))
  {
    StartOrderIsYearOrder(bars, yearOf, yearStart);
    SortMap(Groups(bars, yearOf), StartBar(yearStart), YearKey, TimeOf);
  }

  /** One candle of `resampleToYearly` is the matching candle of
      `aggregateYearly` restamped at its year's start. */
  lemma ResampleCandle(bars: seq<Bar>, yearOf: real -> int, yearStart: int -> real, k: nat)
    requires StartsIncrease(YearsOf(bars, yearOf), yearStart)
    requires k < |Aggregate(bars, yearOf)|
    ensures var r := Resample(Some(bars), yearOf, yearStart);
            var a := Aggregate(bars, yearOf);
            k < |r| && r[k] == a[k].(time := yearStart(yearOf(a[k].time)))
  {
    var sorted := Sort(Groups(bars, yearOf), YearKey);
    ResampleInYearOrder(bars, yearOf, yearStart);
    SortedGroupYear(bars, yearOf, k);
    assert Aggregate(bars, yearOf)[k] == EarliestBar(sorted[k]);
  }

  /** Groups in strictly increasing year order, of years whose starts
      increase, stamped at their year starts, give strictly increasing
      times. */
  lemma StartsStrict(gs: seq<YearGroup>, ys: seq<int>, yearStart: int -> real)
    requires StartsIncrease(ys, yearStart)
    requires forall k :: 0 <= k < |gs| ==> gs[k].year in ys
    requires StrictlyBy(gs, YearKey)
    ensures StrictlyIncreasing(MapSeq(gs, StartBar(yearStart)))
  {
    var r := MapSeq(gs, StartBar(yearStart));
    forall i, j | 0 <= i < j < |r| ensures r[i].time < r[j].time {
      assert YearKey(gs[i]) < YearKey(gs[j]);
      assert gs[i].year in ys && gs[j].year in ys;
      assert r[i].time == yearStart(gs[i].year);
      assert r[j].time == yearStart(gs[j].year);
    }
  }

  /** With year starts increasing, `resampleToYearly`'s times strictly
      increase. */
  lemma ResampleStrict(bars: seq<Bar>, yearOf: real -> int, yearStart: int -> real)
    requires StartsIncrease(YearsOf(bars, yearOf), yearStart)
    ensures StrictlyIncreasing(Resample(Some(bars), yearOf, yearStart))
  {
    ResampleInYearOrder(bars, yearOf, yearStart);
    SortedGroupsStrict(bars, yearOf);
    SortedGroupsAreBuckets(bars, yearOf);
    StartsStrict(Sort(Groups(bars, yearOf), YearKey), YearsOf(bars, yearOf), yearStart);
  }

  /** With year starts increasing in the year, `resampleToYearly` gives a
      strictly increasing series, and it agrees with `aggregateYearly`
      candle for candle except for the time stamp: the start of the year
      instead of the year's earliest bar. */
  lemma ResampleMatchesAggregate(bars: seq<Bar>, yearOf: real -> int, yearStart: int -> real)
    requires StartsIncrease(YearsOf(bars, yearOf), yearStart)
    ensures var r := Resample(Some(bars), yearOf, yearStart);
            var a := Aggregate(bars, yearOf);
            && StrictlyIncreasing(r)
            && |r| == |a|
            && forall k :: 0 <= k < |r| ==> r[k] == a[k].(time := yearStart(yearOf(a[k].time)))
  {
    var r := Resample(Some(bars), yearOf, yearStart);
    var a := Aggregate(bars, yearOf);
    ResampleStrict(bars, yearOf, yearStart);
    forall k | 0 <= k < |r| ensures r[k] == a[k].(time := yearStart(yearOf(a[k].time))) {
      ResampleCandle(bars, yearOf, yearStart, k);
    }
  }
}
